=== FILE: README.md ===
# Starbridge MCP core in Dafny

Starbridge is a Model Context Protocol (MCP) server that bundles several
services (Confluence, Claude Desktop, a hello-world service, web helpers) behind
one JSON-RPC endpoint. This project models its core as pure Dafny functions
over immutable datatypes and proves properties about them:

- **Wrappers, Strings, Json, Protocol**: shared vocabulary. `Result`/`Option`
  stand in for Python exceptions and `None`. Strings offers split, join, strip,
  ASCII case mapping and integer rendering. Json is a JSON document type, and
  Protocol holds the MCP records (tools, prompts, resources, content).
- **Models**: the resource, prompt and tool descriptors and their string forms.
- **Decorators**: `mcp_tool`, the marker that makes a method a tool.
- **Service**: the base service. This covers the prefix derived from the
  module path, discovery of entry points, tool discovery through `dir()` and
  the base defaults.
- **Server**: the MCP server's request handlers. Tool calls and prompt
  requests route by service prefix, resource reads go to the first service
  that answers, listings are concatenated, and the server reports aggregate
  health. Result marshalling lives in **Marshal**.
- **Context**: the per-request context handed to tools.
- **Tracing**: the OpenTelemetry wrappers for the send and receive streams,
  with the table of open transaction spans keyed by request id.
- **WebUtils, Links**: content-type normalisation, the robots.txt check,
  content transformation and link extraction.
- **Claude**: the Claude Desktop application helper. It covers paths, the
  installation and running probes, and editing the `mcpServers` entry of
  the configuration file.
- **Confluence**: the Confluence service. It covers health, space resources
  and their URIs, the space-summary prompt and the page-creation tool.
- **Settings**: settings loading and environment-variable naming.
- **Hello**: the hello-world service.

The operating system, HTTP, HTML/Markdown/PDF converters, URL joining and the
robots.txt matcher are parameters of the functions that use them. The model
takes their answers as inputs.

## Model

| member | source | states |
|---|---|---|
| Models.ToolString | src/starbridge/mcp/models.py:52-60 | a tool address begins with the server and service joined and terminated by `_`, the prefix routing relies on |
| Models.ToolRoundTrip | src/starbridge/mcp/models.py:52-60 | when server and service contain no `_`, the address splits back into server, service and tool name |
| Models.ToolStringInjective | src/starbridge/mcp/models.py:52-60 | two such tool descriptors with the same address are equal |
| Models.PromptRoundTrip | src/starbridge/mcp/models.py:33-41 | a prompt address splits back into server, service and type when the first two contain no `_` |
| Models.ResourceRoundTrip | src/starbridge/mcp/models.py:14-22 | `server://service/type` parses back to the descriptor when the server has no `:` and the service has no `/` |
| Models.ResourceString | src/starbridge/mcp/models.py:14-22 | the address begins with `server://service/` and ends with the type |
| Models.PromptString | src/starbridge/mcp/models.py:33-41 | the address begins with `server_service_` and ends with the type |
| Decorators.McpTool | src/starbridge/mcp/decorators.py:5-27 | the wrapper keeps the function's name and behaves like it on every call; its tool marker is the given name, or the function's own name when none is given |
| Service.BaseProvider | src/starbridge/mcp/service.py:47-91 | a service that overrides nothing lists no resources or prompts and answers `None` to every resource read; its health and info raise `NotImplementedError`; it has no CLI |
| Service.BaseGetPrompt | src/starbridge/mcp/service.py:87-91 | the default prompt result has no description and no messages |
| Service.PrefixOfModule | src/starbridge/mcp/service.py:22-26 | for a module path `a.b.rest` with dot-free `a` and `b`, the prefix is `a_b_` and the health key is `b` |
| Service.StarbridgePrefix | src/starbridge/mcp/service.py:15-26 | the module `starbridge.X.service` gets the prefix `starbridge_X_` and the service name `X` |
| Service.ServicePrefix | src/starbridge/mcp/service.py:22-26 | the prefix always ends in `_`; its exact form is stated by Service.PrefixOfModule |
| Service.ServiceName | src/starbridge/mcp/server.py:56 | taking the second dotted component raises `IndexError` exactly when the module path contains no `.` |
| Service.GetServices | src/starbridge/mcp/service.py:28-39 | discovery yields at most one service per entry point; its composition and membership are stated by Service.GetServicesAppend and Service.GetServicesMembers |
| Service.GetServicesAppend | src/starbridge/mcp/service.py:28-39 | discovery processes entry points one at a time, so discovering `a + b` yields the services of `a` followed by those of `b` |
| Service.FailedEntrySkipped | src/starbridge/mcp/service.py:37-38 | an entry point whose loading raises is reported and skipped without affecting the others |
| Service.GetServicesMembers | src/starbridge/mcp/service.py:32-36 | a service is discovered iff some entry point loads it and it subclasses the base service |
| Service.MarkedIndices | src/starbridge/mcp/service.py:58-60 | the scan of `dir()` keeps every attribute carrying the tool marker, and only those, in `dir()` order |
| Service.ToolList | src/starbridge/mcp/service.py:55-73 | one tool per marked attribute, in `dir()` order, named by its marker and carrying the method's description; the input schema has exactly the keys `type`, `required` and `properties`, with `type` `object`, `required` listing the required parameters in order and one property per parameter |
| Service.GetAttr | src/starbridge/mcp/server.py:126 | attribute lookup fails iff no attribute has that name, and otherwise returns a function stored under that name |
| Service.GetPromptAttr | src/starbridge/mcp/server.py:102 | prompt-method lookup fails iff no prompt attribute has that name, and otherwise returns one with that name |
| Server.GetContext | src/starbridge/mcp/server.py:65-74 | the context carries the current request context (or none outside a request) and always a server handle, which has no `read_resource` method |
| Server.ContextOutsideRequest | src/starbridge/mcp/server.py:65-74 | outside a request, the context has a server handle but its request context, progress reports, logging, client id and request id all raise `ValueError` |
| Server.ContextInsideRequest | src/starbridge/mcp/server.py:65-74 | inside a request, the context answers the request context, its id, its client id, and logging appends one notification |
| Server.ContextReadResourceRaises | src/starbridge/mcp/context.py:107-117 | as written, `read_resource` through the server's context raises `AttributeError` whether or not a request is active |
| Server.GetContextIntended | src/starbridge/mcp/server.py:65-74 | the intended context keeps the request context and has a server handle that can read resources |
| Server.ContextReadResourceRoutes | src/starbridge/mcp/server.py:82-87 | with the intended handle, `read_resource` answers what the server's resource read answers: the first service that answers |
| Server.ContextReadResourceUnknown | src/starbridge/mcp/server.py:82-87 | with the intended handle, reading a URI no service answers raises `ValueError("No service found for URI: …")` |
| Server.FirstMatch | src/starbridge/mcp/server.py:124-125 | the chosen service is the first one whose prefix starts the name; none is chosen iff no prefix matches |
| Server.CallArgs | src/starbridge/mcp/server.py:127-131 | the call arguments are the client's arguments minus any `context` key, unchanged otherwise, and empty when none were given |
| Server.MarshalOutcome | src/starbridge/mcp/server.py:130-133 | a raising tool call propagates its error unchanged; a returning one is marshalled, and marshalling can only add pydantic's validation error for an image without a mime type |
| Server.ToolCall | src/starbridge/mcp/server.py:121-135 | an unowned name raises `ValueError("Unknown tool: …")`; a missing attribute raises `AttributeError`; otherwise the owner's method runs on the filtered arguments and the server's own context for the request in flight, and its result is marshalled |
| Server.ToolReadingResourceRaises | src/starbridge/mcp/server.py:121-135 | as written, a tool whose method reads a resource through the context the server hands it fails the whole call with `AttributeError`, inside or outside a request |
| Server.PromptGet | src/starbridge/mcp/server.py:97-111 | an unowned name gives the empty prompt result; otherwise the owner's `mcp_prompt_<name>` method answers with the server's own context, or `AttributeError` when it is missing |
| Server.UnownedPromptIsBase | src/starbridge/mcp/service.py:87-91 | a prompt no service owns is answered exactly as the base `get_prompt` answers |
| Server.ResourceGetFromSpec | src/starbridge/mcp/server.py:82-87 | the first service whose read is not `None` decides the answer, including an exception it raises; if all answer `None`, `ValueError("No service found for URI: …")` |
| Server.ResourceGet | src/starbridge/mcp/server.py:82-87 | reading a resource answers with the first service that answers and raises `ValueError` when none does |
| Server.ConcatListings | src/starbridge/mcp/server.py:76-80 | the combined listing succeeds iff every service's listing succeeds; otherwise the first failure is raised |
| Server.ConcatListingsMembers | src/starbridge/mcp/server.py:89-95 | an item is in the combined listing iff some service lists it |
| Server.ConcatListingsAppend | src/starbridge/mcp/server.py:76-80 | listing two groups of services concatenates their listings in order |
| Server.ResourceList | src/starbridge/mcp/server.py:76-80 | the resource listing succeeds iff every service's listing succeeds; otherwise the first failing service's error is raised |
| Server.ResourceListMembers | src/starbridge/mcp/server.py:76-80 | a resource is listed iff some service lists it |
| Server.PromptList | src/starbridge/mcp/server.py:89-95 | the prompt listing succeeds iff every service's listing succeeds; otherwise the first failing service's error is raised |
| Server.PromptListMembers | src/starbridge/mcp/server.py:89-95 | a prompt is listed iff some service lists it |
| Server.ToolListAll | src/starbridge/mcp/server.py:113-119 | the tool listing never raises |
| Server.ToolListAllMembers | src/starbridge/mcp/server.py:113-119 | the tool listing never fails, and a tool is listed iff some service lists it |
| Server.ToolListAllAppend | src/starbridge/mcp/server.py:113-119 | registering one more service appends exactly its tools, at the end of the listing |
| Server.BaseProviderInvisible | src/starbridge/mcp/service.py:75-91 | registering a service that keeps the base-class defaults after the others leaves the resource and prompt listings and every resource read unchanged, and adds only its own tools to the tool listing |
| Server.GetHealth | src/starbridge/mcp/server.py:50-63 | the report holds one entry per service name, and it is healthy iff every entry reads `UP` |
| Server.Dependencies | src/starbridge/mcp/server.py:53-57 | the dependency map is built iff every service has a second module component and reports a health status |
| Server.DependenciesKeys | src/starbridge/mcp/server.py:53-57 | the dependencies are keyed by exactly the services' names |
| Server.DependenciesLastWins | src/starbridge/mcp/server.py:57 | a name holds the health of the last service with that name |
| Server.HealthyIffAllUp | src/starbridge/mcp/server.py:59 | with distinct service names, the server is healthy iff every service reports `UP` |
| Server.LaterProviderOverwrites | src/starbridge/mcp/server.py:57 | two services sharing a name: the later `UP` hides the earlier `DOWN` |
| Server.AtMostOneOwner | src/starbridge/mcp/service.py:22-26 | services from different two-level packages never both own a name |
| Server.RoutesToOwner | src/starbridge/mcp/server.py:124-126 | a call is routed to the one service that owns the name |
| Marshal.MarshalResult | src/starbridge/mcp/server.py:217-258 | `None` marshals to nothing and each leaf value to one content item; the only exception marshalling raises is the validation error of an image without a mime type |
| Marshal.Collect | src/starbridge/mcp/server.py:241-246 | a list's outcome fails iff one of its elements fails, and then with the first failing element's exception |
| Marshal.MarshalLeaf | src/starbridge/mcp/server.py:226-258 | a content item passes unchanged; only content items yield embedded resources; images, and only images, become image items with their pixel bytes and mime type; an image whose format has no mime type raises pydantic's validation error, and nothing else raises; everything else becomes text |
| Marshal.MarshalIsLeafwise | src/starbridge/mcp/server.py:241-246 | marshalling a nested list has the outcome of marshalling its leaves one by one, in order |
| Marshal.MarshalFailsIff | src/starbridge/mcp/server.py:231-246 | marshalling raises iff some leaf is an image without a mime type, and then raises the validation error; otherwise the content list has one item per leaf, each that leaf's item |
| Marshal.UntypedImageRaises | src/starbridge/mcp/server.py:231-239 | one image without a mime type anywhere in a list fails the whole list |
| Marshal.MarshalAppend | src/starbridge/mcp/server.py:241-246 | marshalling a concatenated list concatenates the marshalled parts, or raises the first part's exception |
| Marshal.MarshalSingleton | src/starbridge/mcp/server.py:241-246 | a one-element list marshals like its element |
| Marshal.MarshalContentList | src/starbridge/mcp/server.py:226-227 | a list of content items marshals to itself, without raising |
| Marshal.MarshalIdempotent | src/starbridge/mcp/server.py:217-258 | marshalling content that marshalled without raising again changes nothing |
| Context.Mcp | src/starbridge/mcp/context.py:70-75 | the server handle is available iff it was set; otherwise `ValueError` |
| Context.GetRequestContext | src/starbridge/mcp/context.py:77-82 | the request context is returned iff present; otherwise `ValueError` |
| Context.ReportProgress | src/starbridge/mcp/context.py:84-105 | outside a request it raises; inside, it appends exactly one progress notification, carrying the request's progress token, progress and total, when that token is present and truthy, and nothing otherwise |
| Context.ProgressReportsInOrder | src/starbridge/mcp/context.py:84-105 | two reports inside a request both succeed, keep what was sent before, and add their notifications in call order, or nothing when the token is absent or falsy |
| Context.Log | src/starbridge/mcp/context.py:119-136 | inside a request, exactly one log notification with the given level, text and logger is appended |
| Context.ReadResource | src/starbridge/mcp/context.py:107-117 | without a server handle it fails its assertion; a handle without `read_resource` raises `AttributeError`; otherwise the server's read answers |
| Context.ClientId | src/starbridge/mcp/context.py:138-145 | the client id comes from the request metadata and is `None` when there is no metadata |
| Context.RequestIdOf | src/starbridge/mcp/context.py:147-150 | the request id is the string form of the current request's id and raises outside a request |
| Context.RequestIdDistinguishesIntIds | src/starbridge/mcp/context.py:147-150 | different integer request ids have different string forms |
| Tracing.Complete | src/starbridge/instrumentation/otel_mcp_instrumentation.py:122-131 | closing a span on a response records the result with status OK; on an error, the code and message with status ERROR; existing attributes are kept |
| Tracing.HandleTransaction | src/starbridge/instrumentation/otel_mcp_instrumentation.py:78-96 | a request opens a span under its id; a reply closes and finishes the span with its id; a reply with no open span changes nothing |
| Tracing.HandleNotification | src/starbridge/instrumentation/otel_mcp_instrumentation.py:99-109 | a notification finishes one span at once and leaves the open spans alone |
| Tracing.Trace | src/starbridge/instrumentation/otel_mcp_instrumentation.py:168-182 | a message without a root raises `AttributeError`; notifications and other messages go to their handlers with the given span kinds |
| Tracing.Send | src/starbridge/instrumentation/otel_mcp_instrumentation.py:160-184 | sending forwards the message unchanged and fails only for a root-less message |
| Tracing.Receive | src/starbridge/instrumentation/otel_mcp_instrumentation.py:217-242 | receiving returns the message unchanged and fails only for a root-less message |
| Tracing.Next | src/starbridge/instrumentation/otel_mcp_instrumentation.py:266-275 | iteration returns the message unchanged and fails only for a root-less message |
| Tracing.ReceiveTolerant | src/starbridge/instrumentation/otel_mcp_instrumentation.py:217-242 | the corrected receive passes a root-less message through without touching the span table and otherwise agrees with the original |
| Tracing.ExceptionMessageRaises | src/starbridge/instrumentation/otel_mcp_instrumentation.py:78-81 | a root-less message (such as a transport exception) makes receive and iteration raise `AttributeError` |
| Tracing.NewSpanKinds | src/starbridge/instrumentation/otel_mcp_instrumentation.py:83-88 | the span a message opens or finishes carries the kind its handler was given |
| Tracing.DirectionKinds | src/starbridge/instrumentation/otel_mcp_instrumentation.py:160-275 | sent messages get CLIENT spans and received ones SERVER spans, while iteration uses CLIENT for notifications and SERVER for transactions |
| Tracing.RoundTripRestoresTable | src/starbridge/instrumentation/otel_mcp_instrumentation.py:83-96 | a request followed by its reply leaves the open-span table as before and finishes exactly the completed request span |
| Tracing.UnmatchedReplyIgnored | src/starbridge/instrumentation/otel_mcp_instrumentation.py:91-96 | a reply whose id has no open span is ignored |
| Tracing.DuplicateRequestDropsSpan | src/starbridge/instrumentation/otel_mcp_instrumentation.py:90 | a second request with the same id replaces the first span, which is never finished |
| Tracing.ReceiveAllAppend | src/starbridge/instrumentation/otel_mcp_instrumentation.py:217-242 | tracing a stream in two parts equals tracing it at once |
| Tracing.SessionClosesEverySpan | src/starbridge/instrumentation/otel_mcp_instrumentation.py:78-242 | a stream of matched request/reply pairs and notifications, all read through `receive`, leaves the open-span table as it began and finishes one span per exchange |
| Tracing.SessionFromEmpty | src/starbridge/instrumentation/otel_mcp_instrumentation.py:78-109 | a server session started with no open spans ends with none open and with exactly one expected span per exchange, in order |
| Tracing.ServedExchange | src/starbridge/instrumentation/otel_mcp_instrumentation.py:78-109 | reading a request and sending its reply, under an id with no open span, restores the open-span table and finishes exactly the request's SERVER span carrying the reply; a notification finishes its span at once, SERVER when received and CLIENT when iterated |
| Tracing.ServerSessionClosesEverySpan | src/starbridge/instrumentation/otel_mcp_instrumentation.py:78-109 | a server session of calls, each answered before the next message, and notifications leaves the open-span table as it began and finishes exactly the expected spans, in order |
| WebUtils.Classify | src/starbridge/web/utils.py:125-157 | the chosen type is the highest-priority one whose signal the header and URL show (`html`; `markdown` or text at a `.md` URL; `text`; `pdf` or octet-stream at a `.pdf` URL; and so on), and the header is kept verbatim exactly when no type's signal is shown |
| WebUtils.NormalizedContentType | src/starbridge/web/utils.py:120-157 | the result is one of the known types or the lower-cased header, a missing header counting as empty, and it is the name of the one type the priority table decides |
| WebUtils.DecidesUnique | src/starbridge/web/utils.py:125-157 | the priority table decides at most one type for a header and URL |
| WebUtils.NormalizedMarkupIff | src/starbridge/web/utils.py:125-131 | the normalised type is `text/html` iff the header mentions `html`, and `text/markdown` iff it does not but shows a Markdown signal |
| WebUtils.ContentTypeIgnoresCase | src/starbridge/web/utils.py:122-123 | the header and URL are compared case-insensitively |
| WebUtils.MissingHeaderIsEmpty | src/starbridge/web/utils.py:122 | with no content-type header the normalised type is the empty string |
| WebUtils.OctetStreamByExtension | src/starbridge/web/utils.py:133-157 | an `application/octet-stream` response is classified by its URL's extension alone, in the source's order of tests |
| WebUtils.WellKnownUrl | src/starbridge/web/utils.py:59-70 | the well-known URL keeps scheme and host, replaces the path, and drops parameters, query and fragment |
| WebUtils.WellKnownUrlParses | src/starbridge/web/utils.py:359-372 | the built URL parses back to the same scheme, host and well-known path |
| WebUtils.RobotsTxtUrl | src/starbridge/web/utils.py:59-70 | for a URL with a scheme and host, the result parses back to that scheme, host and the path `/robots.txt` |
| WebUtils.LlmsTxtUrl | src/starbridge/web/utils.py:359-372 | for a URL with a scheme and host, the result parses back to that scheme, host and `/llms-full.txt` when full, `/llms.txt` otherwise |
| WebUtils.SplitLines | src/starbridge/web/utils.py:104 | no line contains a line-boundary character, and there are no lines iff the text is empty |
| WebUtils.DropComments | src/starbridge/web/utils.py:103-105 | no line whose stripped form starts with `#` survives, and every surviving line comes from the input |
| WebUtils.DropCommentsSingle | src/starbridge/web/utils.py:104 | a single line is kept iff its stripped form does not start with `#` |
| WebUtils.DropCommentsAppend | src/starbridge/web/utils.py:103-105 | filtering distributes over concatenation, so the kept lines stay in their original order, each as often as in the input |
| WebUtils.DropCommentsKeeps | src/starbridge/web/utils.py:104 | every line that is not a comment survives the filter |
| WebUtils.StripComments | src/starbridge/web/utils.py:103-105 | the text handed to the robots parser is the kept lines, in order, joined by `\n`, and has no line boundary other than `\n` |
| WebUtils.SplitJoinLines | src/starbridge/web/utils.py:103-105 | boundary-free lines whose last one is not empty, joined by `\n`, split back into the same lines |
| WebUtils.StripCommentsSplitsBack | src/starbridge/web/utils.py:103-105 | splitting the stripped text gives back exactly the kept lines, in order, unless the last kept line is empty (which `splitlines` drops) |
| WebUtils.JoinSplitLines | src/starbridge/web/utils.py:103-105 | for text whose only line breaks are `\n` and which does not end in one, splitting into lines and rejoining restores it |
| WebUtils.CommentFreeUnchanged | src/starbridge/web/utils.py:103-105 | such a robots file without comments reaches the parser unchanged |
| WebUtils.NoCommentsKept | src/starbridge/web/utils.py:104 | filtering a comment-free list of lines keeps it whole |
| WebUtils.AllCommentsStripped | src/starbridge/web/utils.py:103-105 | a robots file made only of comments reaches the parser empty |
| WebUtils.AllCommentsDropped | src/starbridge/web/utils.py:104 | filtering a list of comment lines leaves nothing |
| WebUtils.CrawlRefusal | src/starbridge/web/utils.py:73-117 | crawling is allowed iff robots.txt was fetched, its status is not 401/403, and either the status is another 4xx or the matcher allows the URL on the comment-stripped rules; each refusal names the robots.txt URL and its cause |
| WebUtils.EnsureAllowedToCrawl | src/starbridge/web/utils.py:73-117 | it succeeds iff there is no refusal and raises `RobotForbiddenException` with the refusal's message otherwise |
| WebUtils.CommentsDoNotMatter | src/starbridge/web/utils.py:103-107 | two robots files with the same non-comment lines give the same verdict |
| WebUtils.MarkdownOf | src/starbridge/web/utils.py:204-238 | a Markdown result is produced iff conversion is requested and the type is HTML, or a convertible document whose converter yields non-empty text |
| WebUtils.TransformContentAsWritten | src/starbridge/web/utils.py:198-250 | as written, every response falls back to its decoded text under its normalised type |
| WebUtils.TransformContent | src/starbridge/web/utils.py:240-250 | as intended, the fallback is text exactly for textual types and raw bytes otherwise |
| WebUtils.PdfFallbackDiffers | src/starbridge/web/utils.py:212-250 | a PDF whose conversion fails comes back as text in the as-written version and as bytes in the intended one |
| Links.Candidates | src/starbridge/web/utils.py:260-266 | every kept link is an absolute `http`/`https` URL with a non-empty stripped anchor text, and no more candidates than anchors |
| Links.CandidatesComplete | src/starbridge/web/utils.py:260-266 | every anchor whose joined URL is `http`/`https` and whose stripped text is non-empty yields a candidate |
| Links.CandidatesAppend | src/starbridge/web/utils.py:260-266 | the candidates of two runs of anchors are the first run's followed by the second's, so document order is kept |
| Links.Dedupe | src/starbridge/web/utils.py:278 | `dict.fromkeys` de-duplication: no repeats, the same elements, the first element first, and the kept elements in the order of their first occurrence |
| Links.IndexOf | src/starbridge/web/utils.py:267 | a URL is found iff it has been seen, and the position found holds it |
| Links.TallySpec | src/starbridge/web/utils.py:258-274 | the tally lists each seen URL once, in first-seen order, with its anchor texts in order and its occurrence count |
| Links.SortByOccurrences | src/starbridge/web/utils.py:281-283 | the sort is a permutation in non-increasing order of occurrences |
| Links.SortStable | src/starbridge/web/utils.py:281-283 | URLs with equal occurrence counts keep their first-seen order, as Python's stable sort does |
| Links.SortDistinct | src/starbridge/web/utils.py:281-283 | sorting keeps the URLs distinct |
| Links.DedupedTallyDescribes | src/starbridge/web/utils.py:258-278 | after de-duplication, each entry's count is the number of candidates for its URL and its texts are those candidates' texts without repeats in first-seen order, at least one and at most the count |
| Links.ExtractLinksUrls | src/starbridge/web/utils.py:253-284 | the result is ordered by occurrence count, most frequent first, and holds exactly the URLs of the kept anchors, each exactly once |
| Links.ExtractLinksDescribes | src/starbridge/web/utils.py:253-283 | each result entry's count is the number of kept anchors pointing at its URL, and its texts are those anchors' texts in first-seen order without repeats |
| Links.ExtractLinksStable | src/starbridge/web/utils.py:279-282 | among entries with the same count, the result keeps the order in which their URLs were first seen |
| Links.ExtractLinksFromHtml | src/starbridge/web/utils.py:253-284 | the result is in non-increasing order of occurrences |
| Links.ExtractLinksShape | src/starbridge/web/utils.py:253-284 | the result is sorted by count, has distinct URLs, and every entry has an `http`/`https` URL and between one and its count anchor texts |
| Links.ExtractLinksFromResponse | src/starbridge/web/utils.py:288-301 | a response whose normalised type is `text/html` is scanned as HTML and one whose type is `text/markdown` is rendered to HTML first, both decided by the content-type signals; every other response yields no links |
| Links.ResponseLinksShape | src/starbridge/web/utils.py:288-301 | links from any response are sorted by count, distinct, `http`/`https`, and carry between one and their count anchor texts |
| Claude.ApplicationDirectory | src/starbridge/claude/application.py:64-87 | `Library/Application Support/Claude` on darwin, `AppData/Roaming/Claude` on win32, `.config/Claude` on linux, each under the home directory; other platforms raise `RuntimeError` |
| Claude.LogDirectory | src/starbridge/claude/application.py:117-141 | `Library/Logs/Claude` on darwin, `AppData/Roaming/Claude/logs` on win32, `.logs/Claude` on linux, each under the home directory; other platforms raise `RuntimeError` |
| Claude.LogDirectoryPlacement | src/starbridge/claude/application.py:64-141 | on win32 the log directory is the application directory's `logs` child; on the other supported platforms neither directory contains the other |
| Claude.ConfigPath | src/starbridge/claude/application.py:89-93 | the configuration file is `claude_desktop_config.json` inside the application directory |
| Claude.LogPath | src/starbridge/claude/application.py:143-149 | the log file sits directly in the log directory |
| Claude.LogPathsDistinct | src/starbridge/claude/application.py:143-149 | different server names (or none) get different log files |
| Claude.IsInstalled | src/starbridge/claude/application.py:43-48 | installed iff the application directory exists; raises on unsupported platforms |
| Claude.IsRunning | src/starbridge/claude/application.py:50-62 | answers on macOS only, with whether the process was found |
| Claude.Health | src/starbridge/claude/application.py:34-41 | not installed reads `DOWN: Not installed`; installed but not running reads `DOWN: Not running`; probe errors propagate |
| Claude.HealthUpIff | src/starbridge/claude/application.py:34-41 | health is `UP` iff the application is installed and running |
| Claude.GetInfo | src/starbridge/claude/application.py:16-32 | the directory is reported only when installed; the config path, config and log path only when a configuration file exists, and the reported config path is the rendered configuration path |
| Claude.PathTextChild | src/starbridge/claude/application.py:89-93 | rendering a child path appends `/` and the child's name to the parent's rendering |
| Claude.InfoPathsAgree | src/starbridge/claude/application.py:16-32 | the reported config path is the reported application directory plus `/claude_desktop_config.json`, and the log path is the rendered log directory plus `/` and the server's log file name |
| Claude.Restart | src/starbridge/claude/application.py:196-210 | restarting succeeds iff on macOS and the launch succeeds |
| Claude.InstallMcpServer | src/starbridge/claude/application.py:151-175 | an identical entry gives False and no write; otherwise the entry is set and all other settings are kept; with restart requested, success depends on the restart |
| Claude.InstallIdempotent | src/starbridge/claude/application.py:165-169 | installing the same entry again writes nothing and reports False |
| Claude.UninstallAsWritten | src/starbridge/claude/application.py:177-194 | as written, whether to delete is decided by a `"name"` entry, not by the requested server |
| Claude.UninstallMcpServer | src/starbridge/claude/application.py:177-194 | as intended, an absent server gives False; a present one is removed and the rest kept |
| Claude.RemoveEntry | src/starbridge/claude/application.py:184-194 | an absent probe key gives False and no write; a present probe with a missing server raises `KeyError`; otherwise the server is removed, the configuration written, and the restart decides success |
| Claude.InstallUninstallRoundTrip | src/starbridge/claude/application.py:151-194 | installing a new server and uninstalling it again restores the original configuration |
| Claude.UninstallAsWrittenKeepsServer | src/starbridge/claude/application.py:188 | with only a `starbridge` entry, uninstalling it as written reports False and leaves it; the intended version removes it |
| Claude.InstallViaBrew | src/starbridge/claude/application.py:220-240 | macOS only; False when already installed; True on a successful install; a failed install raises with its error output |
| Claude.BrewAfter | src/starbridge/claude/application.py:228-240 | a call leaves the cask listed iff it was listed already or the call installed it |
| Claude.InstallViaBrewIdempotent | src/starbridge/claude/application.py:220-240 | after a successful call, the next call finds the cask listed and answers False; after a raising call, the next call raises the same way |
| Confluence.Health | src/starbridge/confluence/service.py:51-63 | `UP` iff the listing succeeded and holds at least one space; a failure reads `DOWN: <error>` |
| Confluence.Field | src/starbridge/confluence/service.py:65-75 | a field lookup succeeds iff the space is an object with that key |
| Confluence.ResourceOf | src/starbridge/confluence/service.py:65-75 | a space with key, name and type becomes a JSON resource at its space URI, named by its name, with its type in the description |
| Confluence.ResourcesOf | src/starbridge/confluence/service.py:65-75 | the listing succeeds iff every space converts, and then holds one resource per space in order |
| Confluence.ResourceList | src/starbridge/confluence/service.py:65-75 | a failed space listing propagates; otherwise its results are converted |
| Confluence.SpaceKey | src/starbridge/confluence/service.py:77-88 | URIs outside `starbridge://confluence` raise `ValueError`; a `/space/` path yields its last `/`-separated segment, the text after the path's last `/`; other paths yield nothing |
| Confluence.LastPieceAfterSep | src/starbridge/confluence/service.py:87 | the last piece of a split is what follows the last separator |
| Confluence.ResourceGet | src/starbridge/confluence/service.py:77-88 | a space URI reads the space as JSON text, and a failing `get_space` request raises its own exception; other confluence URIs answer `None` |
| Confluence.SpaceUriRoundTrip | src/starbridge/confluence/service.py:65-88 | the URI given to a space resource reads back to that space's key |
| Confluence.ListedResourcesReadBack | src/starbridge/confluence/service.py:65-88 | every listed space resource's URI reads back to that space's key |
| Confluence.PromptList | src/starbridge/confluence/service.py:90-104 | one prompt, the space summary, with one optional `style` argument |
| Confluence.StyleOf | src/starbridge/confluence/service.py:106-111 | the style argument is the given one, `brief` when absent |
| Confluence.SpaceSummaryOwned | src/starbridge/confluence/service.py:106-110 | the summary prompt's name starts with the service's prefix, so the server routes it here |
| Confluence.SpaceLine | src/starbridge/confluence/service.py:119-125 | a line is formed iff the space has key, name and type, and it reads `- key: name (type)` |
| Confluence.SpaceLines | src/starbridge/confluence/service.py:119-125 | when all lines form, there is one line per space, in order |
| Confluence.SpaceSummary | src/starbridge/confluence/service.py:106-127 | a listing failure propagates; the result is one user text message with the fixed description |
| Confluence.SpaceSummaryText | src/starbridge/confluence/service.py:112-127 | the text starts with the fixed introduction, names the detailed style iff it was asked for, and its lines after the header recover the space lines |
| Confluence.PageCreateRequest | src/starbridge/confluence/service.py:140-161 | the page keeps space, title, body and parent; its status is `draft` iff a draft was asked for, else `current` |
| Confluence.PageCreateTool | src/starbridge/confluence/service.py:163-196 | the tool returns a one-element list holding the API's answer to that request, and a failing `create_page` request raises its own exception |
| Confluence.PageCreateMarshals | src/starbridge/confluence/service.py:185-196 | a failing request raises its exception; otherwise the tool's one-element list marshals like the API's answer alone |
| Settings.TransformValue | src/starbridge/utils/settings.py:89-95 | booleans render as `1`/`0`, secrets as their revealed value, strings unchanged, integers in decimal, any other value as its `str()` |
| Settings.TransformInjective | src/starbridge/utils/settings.py:89-95 | two values of the same kind (booleans, integers, secrets, strings or other values) with the same rendering are equal |
| Settings.FieldDescription | src/starbridge/utils/settings.py:74-78 | the description (or else the field name) gains an example suffix iff the first example is truthy |
| Settings.ShownExample | src/starbridge/utils/settings.py:76-78 | the example shown is the first one, exactly when it is truthy |
| Settings.FieldDescriptionParen | src/starbridge/utils/settings.py:74-78 | for a base description without a parenthesis, the first parenthesis of the prompt text opens the example suffix, and there is none without an example |
| Settings.FieldDescriptionInjective | src/starbridge/utils/settings.py:74-78 | when base descriptions hold no parenthesis, equal prompt texts have equal base descriptions and show the same example |
| Settings.GetStarbridgeEnv | src/starbridge/utils/settings.py:138-141 | exactly the variables whose names start with `STARBRIDGE` are kept, with their values |
| Settings.GetStarbridgeEnvIdempotent | src/starbridge/utils/settings.py:138-141 | filtering twice equals filtering once |
| Settings.NamingsAgree | src/starbridge/utils/settings.py:47-51 | with an upper-case prefix, the variable named in an error report equals the key the prompt writes |
| Settings.NamingsDifferOnLowerPrefix | src/starbridge/utils/settings.py:132-135 | with a lower-case letter in the prefix, the two namings differ |
| Settings.LoadSettings | src/starbridge/utils/settings.py:25-71 | valid settings load; otherwise the process exits with code 78 and report line i is exactly the variable name of issue i, `: ` and its message |
| Settings.ReportNamesPromptKey | src/starbridge/utils/settings.py:47-51 | each report line starts with the variable name the prompt would write |
| Settings.MissingUrlReported | src/starbridge/utils/settings.py:25-71 | a missing Atlassian URL exits with 78 and the line `STARBRIDGE_ATLASSIAN_URL: Field required` |
| Settings.PromptedEnv | src/starbridge/utils/settings.py:98-135 | the prompted keys are exactly the prefixed upper-case field names answered |
| Settings.PromptedEnvLastWins | src/starbridge/utils/settings.py:132-135 | a key holds the value of its last answer |
| Hello.ContextOnly | src/starbridge/hello/service.py:28-42 | a tool taking only the context returns its result for empty arguments and raises `TypeError` for any extra argument |
| Hello.HelloTool | src/starbridge/hello/service.py:36-42 | the hello tool is marked and answers `Hello, World!` as one text item |
| Hello.InfoTool | src/starbridge/hello/service.py:25-31 | the info tool is marked and answers the locale document as indented JSON text |
| Hello.HelloProvider | src/starbridge/hello/service.py:17-37 | the hello service is always `UP`, has CLI name `hello`, and lists no resources or prompts |
| Hello.HelloOwnsTools | src/starbridge/hello/service.py:28-42 | both tool names carry the service's prefix, so the server routes them here |
| Hello.HelloToolList | src/starbridge/hello/service.py:28-42 | the service lists exactly the hello and the info tool, in `dir()` order |
| Hello.HelloToolCall | src/starbridge/hello/service.py:39-42 | through the server, the hello tool answers the greeting and rejects extra arguments |
| Hello.InfoToolCall | src/starbridge/hello/service.py:28-31 | through the server, the info tool answers the locale document and rejects extra arguments |
| Hello.HelloHealthy | src/starbridge/hello/service.py:33-34 | a server with only the hello service is healthy with `hello: UP` |

## Left out

- Transports: stdio/SSE serving, the MCP library's decorators that register the handlers, and the asyncio plumbing are not modelled. The handlers are modelled as functions of the server's state.
- Instrumentation set-up: patching the transports and creating the tracer are not modelled. Spans are records of name, kind, attributes and status, kept in an open-span table and a list of finished spans.
- Network and OS effects are inputs, not actions. They are the HTTP fetch of robots.txt, the platform, the home directory, existing directories, process lookup, launching the application, Homebrew exit codes and the contents of the configuration file.
- Parsers and converters are function parameters. They are `urljoin`, BeautifulSoup's anchor scan, `markdown.markdown`, the PDF/Word/Excel converters, the robots.txt matcher and `json.dumps`.
- Marshal.MarshalResult: an image's `tobytes()` pixel buffer is kept raw; the base64 encoding is not modelled. A JSON-serialisable value carries its serialisation as an input. The repository's test tests/starbridge_mcp_test.py:277-292 expects the bytes of a PNG file, but the code sends the raw pixel buffer; the model follows the code.
- Context.Log: the `debug`/`info`/`warning`/`error` helpers only call `log` without awaiting it, so they are not modelled separately.
- The command-line interfaces, `get_cli`, the signature introspection that builds tool schemas (taken as given per method), and Python reflection beyond `dir()`/`getattr` are not modelled.
- Settings.PromptedEnv: the interactive prompt loop is reduced to its sequence of answers; console input and defaults are not modelled.
- Claude.ApplicationDirectory: paths are sequences of components rendered with `/`; Windows path rendering is not modelled.
- Claude.GetInfo: a configuration file that is not valid JSON (`JSONDecodeError`) is not modelled; the file is either absent or a JSON document.
- Claude.InstallMcpServer: the equality test between configurations is structural; Python's `True == 1` equality is not modelled.
- `uninstall_via_brew`, `has_config`, `config_read` and `config_write` are represented only through the host inputs and the written configuration.
- The Confluence `info` and `space_list` tools return the API's answers unchanged and are not modelled separately; `page_create` is modelled through the request it sends.
- Confluence.ResourceOf: a space name that is not a string is rejected as an error, where the resource model's validation would raise.
- Confluence.SpaceKey: the URI is taken already split into scheme, host and path; `AnyUrl` parsing and percent-encoding of keys with URL-special characters are not modelled.
- Server.ResourceGet: the URI text in the error message approximates `str(AnyUrl)` by scheme, host and path.
- WebUtils.CrawlRefusal: the source builds its 401/403 and disallowed messages as one-element tuples; the model keeps the message text only.
- `starbridge/base.py` is not part of this model; the project name `starbridge` is a constant.
- Confluence.ResourcesOf: does not state which space's error is raised when several fail, only that the listing fails.
- WebUtils.MarkdownOf: `.xlsx` responses are not converted to Markdown, as in the source, whose conversion branch only handles `application/vnd.ms-excel`.
- Strings.Lower and Strings.Upper map ASCII letters only; Python's `str.lower`/`str.upper` (used for environment-variable names and for the content-type header and URL) map every Unicode letter, so non-ASCII names and headers are not modelled.
- Settings.LoadSettings: the location of a validation issue is its first component, modelled as a string.

## Findings

| source | as written | input that shows it | evidently intended | confidence | as-written member | corrected member |
|---|---|---|---|---|---|---|
| src/starbridge/web/utils.py:240 | `if "text/plain" or "text/html" or "text/plain" in content_type` is always true, because a non-empty literal is truthy | a PDF response whose conversion yields nothing: its bytes are returned as decoded text | fall back to text only for textual types and to raw bytes otherwise | high, not executed | WebUtils.TransformContentAsWritten, WebUtils.PdfFallbackDiffers | WebUtils.TransformContent |
| src/starbridge/instrumentation/otel_mcp_instrumentation.py:226-240 | a received item without `root` goes to `_handle_transaction`, which reads `msg.root` and raises `AttributeError` | an exception object delivered on the receive stream | pass such items through without tracing them | medium, not executed | Tracing.Receive, Tracing.ExceptionMessageRaises | Tracing.ReceiveTolerant |
| src/starbridge/claude/application.py:188 | the membership test checks the literal key `"name"` instead of `mcp_server_name` | a configuration whose only server is `starbridge`: uninstalling it returns False and keeps it | test whether the requested server is configured | high, not executed | Claude.UninstallAsWritten, Claude.UninstallAsWrittenKeepsServer | Claude.UninstallMcpServer, Claude.InstallUninstallRoundTrip |
| src/starbridge/mcp/context.py:117 | `read_resource` calls `self._mcp.read_resource(uri)`, but the server handed to every context (`MCPServer`, server.py:34-258) defines no `read_resource` method, so the call raises `AttributeError` | any tool that calls `context.read_resource(uri)` during a request | read the resource through the server's resource handlers, answering as `resource_get` does | high, not executed | Server.GetContext, Server.ContextReadResourceRaises, Server.ToolReadingResourceRaises | Server.GetContextIntended, Server.ContextReadResourceRoutes, Server.ContextReadResourceUnknown |

=== FILE: claude.dfy ===
/** The Claude Desktop application helper (`claude/application.py`): where
    the application keeps its directories, the three-way health verdict, and
    the editing of the `mcpServers` map in its configuration file. The
    machine is an input: the platform names, the home directory, the
    directories that exist, the decoded configuration file, and the outcome
    of the process probes. Effects (writing the file, restarting) are
    returned as data. */
module Claude {
  import opened Wrappers
  import opened Strings
  import opened Json

  /** A filesystem path as its components; `str()` joins them with `/`. */
  type Path = seq<string>

  function PathText(p: Path): string {
    Join("/", p)
  }

  /** What the helper observes of the machine. */
  datatype Host = Host(
    /** `sys.platform` */
    sysPlatform: string,
    /** `platform.system()` */
    system: string,
    home: Path,
    /** the directories that exist */
    directories: set<Path>,
    /** the decoded configuration file; None when it is not a file */
    configFile: Option<Json>,
    /** `pgrep -x Claude` exits with 0 */
    processFound: bool,
    /** `open -a Claude` exits with 0 */
    launchSucceeds: bool)

  predicate SupportedPlatform(p: string) {
    p == "darwin" || p == "win32" || p == "linux"
  }

  function UnsupportedPlatform(p: string): Error {
    RuntimeError("Unsupported platform " + p)
  }

  /** `application_directory`: fixed per platform below the home directory. */
  function ApplicationDirectory(h: Host): (r: Result<Path>)
    ensures r.Ok? <==> SupportedPlatform(h.sysPlatform)
    ensures r.Err? ==> r.error == UnsupportedPlatform(h.sysPlatform)
    ensures r.Ok? ==> |r.value| > |h.home| && r.value[..|h.home|] == h.home && r.value[|r.value| - 1] == "Claude"
    ensures h.sysPlatform == "darwin" ==> r == Ok(h.home + ["Library", "Application Support", "Claude"])
    ensures h.sysPlatform == "win32" ==> r == Ok(h.home + ["AppData", "Roaming", "Claude"])
    ensures h.sysPlatform == "linux" ==> r == Ok(h.home + [".config", "Claude"])
  {
    if h.sysPlatform == "darwin" then Ok(h.home + ["Library", "Application Support", "Claude"])
    else if h.sysPlatform == "win32" then Ok(h.home + ["AppData", "Roaming", "Claude"])
    else if h.sysPlatform == "linux" then Ok(h.home + [".config", "Claude"])
    else Err(UnsupportedPlatform(h.sysPlatform))
  }

  /** `log_directory`: fixed per platform below the home directory. */
  function LogDirectory(h: Host): (r: Result<Path>)
    ensures r.Ok? <==> SupportedPlatform(h.sysPlatform)
    ensures r.Err? ==> r.error == UnsupportedPlatform(h.sysPlatform)
    ensures r.Ok? ==> |r.value| > |h.home| && r.value[..|h.home|] == h.home
    ensures h.sysPlatform == "darwin" ==> r == Ok(h.home + ["Library", "Logs", "Claude"])
    ensures h.sysPlatform == "win32" ==> r == Ok(h.home + ["AppData", "Roaming", "Claude", "logs"])
    ensures h.sysPlatform == "linux" ==> r == Ok(h.home + [".logs", "Claude"])
  {
    if h.sysPlatform == "darwin" then Ok(h.home + ["Library", "Logs", "Claude"])
    else if h.sysPlatform == "win32" then Ok(h.home + ["AppData", "Roaming", "Claude", "logs"])
    else if h.sysPlatform == "linux" then Ok(h.home + [".logs", "Claude"])
    else Err(UnsupportedPlatform(h.sysPlatform))
  }

  /** On Windows the logs live inside the application directory; on macOS
      and Linux the two directories are apart, neither inside the other. */
  lemma LogDirectoryPlacement(h: Host)
    requires SupportedPlatform(h.sysPlatform)
    ensures var app, logs := ApplicationDirectory(h).value, LogDirectory(h).value;
      && (h.sysPlatform == "win32" ==> logs == app + ["logs"])
      && (h.sysPlatform != "win32" ==> !(app <= logs) && !(logs <= app))
  {
    var app, logs := ApplicationDirectory(h).value, LogDirectory(h).value;
    var n := |h.home|;
    if h.sysPlatform == "darwin" {
      assert app[n + 1] != logs[n + 1];
    } else if h.sysPlatform == "linux" {
      assert app[n] != logs[n];
    }
  }

  const ConfigFileName := "claude_desktop_config.json"

  /** `config_path`: the configuration file inside the application directory. */
  function ConfigPath(h: Host): (r: Result<Path>)
    ensures r.Ok? <==> ApplicationDirectory(h).Ok?
    ensures r.Ok? ==> |r.value| > 0 && r.value[..|r.value| - 1] == ApplicationDirectory(h).value
                      && r.value[|r.value| - 1] == ConfigFileName
  {
    var dir :- ApplicationDirectory(h);
    Ok(dir + [ConfigFileName])
  }

  function LogFileName(serverName: Option<string>): string {
    match serverName
    case None => "mcp.log"
    case Some(n) => "mcp-server-" + n + ".log"
  }

  /** `log_path`: the shared log, or the log of one MCP server. */
  function LogPath(h: Host, serverName: Option<string>): (r: Result<Path>)
    ensures r.Ok? <==> LogDirectory(h).Ok?
    ensures r.Ok? ==> |r.value| > 0 && r.value[..|r.value| - 1] == LogDirectory(h).value
                      && r.value[|r.value| - 1] == LogFileName(serverName)
  {
    var dir :- LogDirectory(h);
    Ok(dir + [LogFileName(serverName)])
  }

  /** Distinct servers log to distinct files, none of them the shared log. */
  lemma LogPathsDistinct(h: Host, a: Option<string>, b: Option<string>)
    requires LogDirectory(h).Ok?
    ensures LogPath(h, a) == LogPath(h, b) <==> a == b
  {
    if LogPath(h, a) == LogPath(h, b) {
      var pa := LogPath(h, a).value;
      assert LogFileName(a) == pa[|pa| - 1];
      LogFileNameInjective(a, b);
    }
  }

  lemma LogFileNameInjective(a: Option<string>, b: Option<string>)
    requires LogFileName(a) == LogFileName(b)
    ensures a == b
  {
    assert a.None? <==> |LogFileName(a)| == 7;
    assert b.None? <==> |LogFileName(b)| == 7;
    if a.Some? && b.Some? {
      var x := LogFileName(a);
      assert x[11..|x| - 4] == a.value;
      assert x[11..|x| - 4] == b.value;
    }
  }

  /** `is_installed`: the application directory exists. */
  function IsInstalled(h: Host): (r: Result<bool>)
    ensures r.Ok? <==> SupportedPlatform(h.sysPlatform)
    ensures r.Ok? ==> (r.value <==> ApplicationDirectory(h).value in h.directories)
  {
    var dir :- ApplicationDirectory(h);
    Ok(dir in h.directories)
  }

  const MacOsOnly := "This command only works on macOS"

  /** `is_running`: only answers on macOS, where it asks `pgrep`. */
  function IsRunning(h: Host): (r: Result<bool>)
    ensures r.Ok? <==> h.system == "Darwin"
    ensures r.Ok? ==> r.value == h.processFound
    ensures r.Err? ==> r.error == RuntimeError(MacOsOnly)
  {
    if h.system != "Darwin" then Err(RuntimeError(MacOsOnly)) else Ok(h.processFound)
  }

  const NotInstalled := "DOWN: Not installed"
  const NotRunning := "DOWN: Not running"

  /** `health`: not installed is checked first, then running; off macOS an
      installed application makes the running probe raise. */
  function Health(h: Host): (r: Result<string>)
    ensures IsInstalled(h).Err? ==> r == Err(IsInstalled(h).error)
    ensures IsInstalled(h) == Ok(false) ==> r == Ok(NotInstalled)
    ensures IsInstalled(h) == Ok(true) ==>
      && (IsRunning(h).Err? ==> r == Err(IsRunning(h).error))
      && (IsRunning(h) == Ok(false) ==> r == Ok(NotRunning))
      && (IsRunning(h) == Ok(true) ==> r == Ok("UP"))
  {
    var installed :- IsInstalled(h);
    if !installed then Ok(NotInstalled)
    else
      var running :- IsRunning(h);
      if !running then Ok(NotRunning) else Ok("UP")
  }

  /** The verdict is "UP" exactly when the application is installed and
      running. */
  lemma HealthUpIff(h: Host)
    ensures Health(h) == Ok("UP") <==> IsInstalled(h) == Ok(true) && IsRunning(h) == Ok(true)
  {
    assert NotInstalled != "UP" by { assert |NotInstalled| != 2; }
    assert NotRunning != "UP" by { assert |NotRunning| != 2; }
  }

  /** The dictionary `info` returns. */
  datatype Info = Info(
    isInstalled: bool,
    applicationDirectory: Option<string>,
    configPath: Option<string>,
    logPath: Option<string>,
    config: Option<Json>)

  /** `info`: the directory is reported when installed; the configuration
      path, its contents and the server's log path only when the
      configuration file exists. */
  function GetInfo(h: Host, serverName: string): (r: Result<Info>)
    ensures r.Ok? <==> SupportedPlatform(h.sysPlatform)
    ensures r.Ok? ==> r.value.isInstalled == IsInstalled(h).value
    ensures r.Ok? && !r.value.isInstalled ==>
      r.value.applicationDirectory.None? && r.value.configPath.None? && r.value.logPath.None? && r.value.config.None?
    ensures r.Ok? && r.value.isInstalled ==>
      && r.value.applicationDirectory == Some(PathText(ApplicationDirectory(h).value))
      && r.value.config == h.configFile
      && (r.value.configPath.Some? <==> h.configFile.Some?)
      && (r.value.logPath.Some? <==> h.configFile.Some?)
      && (h.configFile.Some? ==> r.value.configPath == Some(PathText(ConfigPath(h).value)))
      && (h.configFile.Some? ==> r.value.logPath == Some(PathText(LogPath(h, Some(serverName)).value)))
  {
    var installed :- IsInstalled(h);
    if !installed then Ok(Info(false, None, None, None, None))
    else
      var dir := PathText(ApplicationDirectory(h).value);
      if h.configFile.None? then Ok(Info(true, Some(dir), None, None, None))
      else
        var config := PathText(ConfigPath(h).value);
        var log := PathText(LogPath(h, Some(serverName)).value);
        Ok(Info(true, Some(dir), Some(config), Some(log), h.configFile))
  }

  /** `str()` of a child path: the parent's text, a `/`, the child's name. */
  lemma {:induction false} PathTextChild(p: Path, name: string)
    requires |p| > 0
    ensures PathText(p + [name]) == PathText(p) + "/" + name
    decreases |p|
  {
    var q := p + [name];
    assert q[0] == p[0] && q[1..] == p[1..] + [name];
    if |p| > 1 {
      PathTextChild(p[1..], name);
      calc {
        PathText(q);
        p[0] + "/" + Join("/", p[1..] + [name]);
        p[0] + "/" + (PathText(p[1..]) + "/" + name);
        (p[0] + "/" + PathText(p[1..])) + "/" + name;
        PathText(p) + "/" + name;
      }
    } else {
      assert q[1..] == [name];
      assert Join("/", [name]) == name;
      assert PathText(p) == p[0];
    }
  }

  /** The paths `info` reports agree with each other: the configuration file
      sits in the reported application directory, and the server's log is
      named after the server inside the log directory. */
  lemma InfoPathsAgree(h: Host, serverName: string)
    requires GetInfo(h, serverName).Ok? && GetInfo(h, serverName).value.configPath.Some?
    ensures var i := GetInfo(h, serverName).value;
      && i.applicationDirectory.Some?
      && i.configPath == Some(i.applicationDirectory.value + "/" + ConfigFileName)
      && i.logPath == Some(PathText(LogDirectory(h).value) + "/" + LogFileName(Some(serverName)))
  {
    assert ConfigPath(h).value == ApplicationDirectory(h).value + [ConfigFileName];
    assert LogPath(h, Some(serverName)).value == LogDirectory(h).value + [LogFileName(Some(serverName))];
    PathTextChild(ApplicationDirectory(h).value, ConfigFileName);
    PathTextChild(LogDirectory(h).value, LogFileName(Some(serverName)));
  }

  /** What an editing call did: the configuration it wrote, if any, and what
      it returned or raised. A restart that raises does so after the write. */
  datatype Effect = Effect(written: Option<Json>, outcome: Result<bool>)

  function NotInstalledError(h: Host): Error
    requires ApplicationDirectory(h).Ok?
  {
    RuntimeError("Claude Desktop application is not installed at '" + PathText(ApplicationDirectory(h).value) + "'")
  }

  /** The configuration as read, or the empty one when the file is missing. */
  function ConfigOrDefault(h: Host): Json {
    h.configFile.GetOr(Object(map["mcpServers" := Object(map[])]))
  }

  /** `config["mcpServers"]`, which must be a dictionary for the edit. */
  function Servers(config: Json): (r: Result<map<string, Json>>)
    ensures r.Ok? <==> config.Object? && "mcpServers" in config.fields && config.fields["mcpServers"].Object?
  {
    if !config.Object? then Err(TypeError("configuration is not a dictionary"))
    else if "mcpServers" !in config.fields then Err(KeyError("mcpServers"))
    else if !config.fields["mcpServers"].Object? then Err(TypeError("mcpServers is not a dictionary"))
    else Ok(config.fields["mcpServers"].fields)
  }

  /** `restart`: only on macOS; `open -a Claude` must succeed. */
  function Restart(h: Host): (r: Result<()>)
    ensures r.Ok? <==> h.system == "Darwin" && h.launchSucceeds
  {
    if h.system != "Darwin" then Err(RuntimeError(MacOsOnly))
    else if !h.launchSucceeds then Err(Raised("open -a Claude failed"))
    else Ok(())
  }

  /** Writes `config`, then restarts if asked, and reports True. */
  function WriteAndRestart(h: Host, config: Json, restart: bool): (e: Effect)
    ensures e.written == Some(config)
    ensures e.outcome.Ok? <==> !restart || Restart(h).Ok?
    ensures e.outcome.Ok? ==> e.outcome.value
  {
    if restart && Restart(h).Err? then Effect(Some(config), Err(Restart(h).error))
    else Effect(Some(config), Ok(true))
  }

  function WithServers(config: Json, servers: map<string, Json>): Json
    requires config.Object?
  {
    Object(config.fields["mcpServers" := Object(servers)])
  }

  /** `install_mcp_server`: nothing is written when the entry already holds
      the given configuration; otherwise only that entry is set. */
  function InstallMcpServer(h: Host, serverConfig: Json, name: string, restart: bool): (e: Effect)
    ensures IsInstalled(h).Err? ==> e == Effect(None, Err(IsInstalled(h).error))
    ensures IsInstalled(h) == Ok(false) ==> e == Effect(None, Err(NotInstalledError(h)))
    ensures IsInstalled(h) == Ok(true) ==>
      var config := ConfigOrDefault(h);
      match Servers(config)
      case Err(err) => e == Effect(None, Err(err))
      case Ok(servers) =>
        if name in servers && servers[name] == serverConfig then e == Effect(None, Ok(false))
        else
          && e.written.Some?
          && e.written.value.Object?
          && e.written.value.fields.Keys == config.fields.Keys
          && (forall k :: k in config.fields && k != "mcpServers" ==> e.written.value.fields[k] == config.fields[k])
          && Servers(e.written.value) == Ok(servers[name := serverConfig])
          && (e.outcome.Ok? <==> !restart || Restart(h).Ok?)
          && (e.outcome.Ok? ==> e.outcome.value)
  {
    match IsInstalled(h)
    case Err(err) => Effect(None, Err(err))
    case Ok(installed) =>
      if !installed then Effect(None, Err(NotInstalledError(h)))
      else
        var config := ConfigOrDefault(h);
        match Servers(config)
        case Err(err) => Effect(None, Err(err))
        case Ok(servers) =>
          if name in servers && servers[name] == serverConfig then Effect(None, Ok(false))
          else WriteAndRestart(h, WithServers(config, servers[name := serverConfig]), restart)
  }

  /** The host after an edit wrote `written`. */
  function AfterWrite(h: Host, e: Effect): Host {
    if e.written.Some? then h.(configFile := e.written) else h
  }

  /** Installing the same entry again changes nothing and reports False. */
  lemma InstallIdempotent(h: Host, serverConfig: Json, name: string, restart: bool)
    requires InstallMcpServer(h, serverConfig, name, restart).outcome.Ok?
    ensures var h2 := AfterWrite(h, InstallMcpServer(h, serverConfig, name, restart));
            InstallMcpServer(h2, serverConfig, name, restart) == Effect(None, Ok(false))
  {
    var e := InstallMcpServer(h, serverConfig, name, restart);
    var h2 := AfterWrite(h, e);
    assert IsInstalled(h2) == IsInstalled(h);
    if e.written.Some? {
      assert Servers(e.written.value).Ok?;
    }
  }

  /** `uninstall_mcp_server` as written: it asks whether the literal key
      "name" is present, not the server's name. Python's `in` also accepts a
      list or a string there; deleting from either raises. */
  function UninstallAsWritten(h: Host, name: string, restart: bool): (e: Effect)
    ensures IsInstalled(h).Err? ==> e == Effect(None, Err(IsInstalled(h).error))
    ensures IsInstalled(h) == Ok(false) ==> e == Effect(None, Err(NotInstalledError(h)))
    ensures IsInstalled(h) == Ok(true) && Servers(ConfigOrDefault(h)).Ok? ==>
      var servers := Servers(ConfigOrDefault(h)).value;
      && ("name" !in servers ==> e == Effect(None, Ok(false)))
      && ("name" in servers && name !in servers ==> e == Effect(None, Err(KeyError(name))))
      && ("name" in servers && name in servers ==> e.written == Some(WithServers(ConfigOrDefault(h), servers - {name})))
  {
    match IsInstalled(h)
    case Err(err) => Effect(None, Err(err))
    case Ok(installed) =>
      if !installed then Effect(None, Err(NotInstalledError(h)))
      else RemoveEntry(h, ConfigOrDefault(h), "name", name, restart)
  }

  /** Removes `key` from `mcpServers` when `probe` is there. */
  function RemoveEntry(h: Host, config: Json, probe: string, key: string, restart: bool): (e: Effect)
    ensures Servers(config).Ok? && probe !in Servers(config).value ==> e == Effect(None, Ok(false))
    ensures Servers(config).Ok? && probe in Servers(config).value && key !in Servers(config).value ==>
      e == Effect(None, Err(KeyError(key)))
    ensures Servers(config).Ok? && probe in Servers(config).value && key in Servers(config).value ==>
      && e.written == Some(WithServers(config, Servers(config).value - {key}))
      && (e.outcome.Ok? <==> !restart || Restart(h).Ok?)
      && (e.outcome.Ok? ==> e.outcome.value)
  {
    if !config.Object? then Effect(None, Err(TypeError("configuration is not a dictionary")))
    else if "mcpServers" !in config.fields then Effect(None, Err(KeyError("mcpServers")))
    else
      match config.fields["mcpServers"]
      case Object(servers) =>
        if probe !in servers then Effect(None, Ok(false))
        else if key !in servers then Effect(None, Err(KeyError(key)))
        else WriteAndRestart(h, WithServers(config, servers - {key}), restart)
      case Array(items) =>
        if Str(probe) !in items then Effect(None, Ok(false))
        else Effect(None, Err(TypeError("list indices must be integers")))
      case Str(s) =>
        if !Contains(s, probe) then Effect(None, Ok(false))
        else Effect(None, Err(TypeError("str does not support item deletion")))
      case _ => Effect(None, Err(TypeError("argument is not iterable")))
  }

  /** `uninstall_mcp_server` with the membership test on the server's name. */
  function UninstallMcpServer(h: Host, name: string, restart: bool): (e: Effect)
    ensures IsInstalled(h).Err? ==> e == Effect(None, Err(IsInstalled(h).error))
    ensures IsInstalled(h) == Ok(false) ==> e == Effect(None, Err(NotInstalledError(h)))
    ensures IsInstalled(h) == Ok(true) && Servers(ConfigOrDefault(h)).Ok? ==>
      var config := ConfigOrDefault(h);
      var servers := Servers(config).value;
      && (name !in servers ==> e == Effect(None, Ok(false)))
      && (name in servers ==>
            && e.written == Some(WithServers(config, servers - {name}))
            && (e.outcome.Ok? <==> !restart || Restart(h).Ok?))
  {
    match IsInstalled(h)
    case Err(err) => Effect(None, Err(err))
    case Ok(installed) =>
      if !installed then Effect(None, Err(NotInstalledError(h)))
      else RemoveEntry(h, ConfigOrDefault(h), name, name, restart)
  }

  /** Installing a server that was not configured and uninstalling it again
      restores the configuration file. */
  lemma InstallUninstallRoundTrip(h: Host, serverConfig: Json, name: string)
    requires h.configFile.Some? && IsInstalled(h) == Ok(true)
    requires Servers(h.configFile.value).Ok? && name !in Servers(h.configFile.value).value
    ensures var e1 := InstallMcpServer(h, serverConfig, name, false);
            var e2 := UninstallMcpServer(AfterWrite(h, e1), name, false);
            e1.outcome == Ok(true) && e2.outcome == Ok(true) && e2.written == h.configFile
  {
    var config := h.configFile.value;
    var servers := Servers(config).value;
    var e1 := InstallMcpServer(h, serverConfig, name, false);
    var h2 := AfterWrite(h, e1);
    assert IsInstalled(h2) == IsInstalled(h);
    var config2 := WithServers(config, servers[name := serverConfig]);
    assert e1.written == Some(config2);
    assert Servers(config2) == Ok(servers[name := serverConfig]);
    assert servers[name := serverConfig] - {name} == servers;
    assert WithServers(config2, servers) == config by {
      assert config.fields["mcpServers" := Object(servers)] == config.fields;
    }
  }

  /** The membership test on "name" misses a configured server: uninstalling
      "starbridge" from a configuration holding only that entry returns False
      and writes nothing. */
  lemma UninstallAsWrittenKeepsServer(h: Host, serverConfig: Json)
    requires IsInstalled(h) == Ok(true)
    requires h.configFile == Some(Object(map["mcpServers" := Object(map["starbridge" := serverConfig])]))
    ensures UninstallAsWritten(h, "starbridge", true) == Effect(None, Ok(false))
    ensures UninstallMcpServer(h, "starbridge", false).written == Some(Object(map["mcpServers" := Object(map[])]))
  {
    var servers := map["starbridge" := serverConfig];
    var config := h.configFile.value;
    assert ConfigOrDefault(h) == config;
    assert Servers(config) == Ok(servers);
    assert "name" !in servers;
    assert servers - {"starbridge"} == map[];
    assert config.fields["mcpServers" := Object(map[])] == map["mcpServers" := Object(map[])];
  }

  /** The result of the two Homebrew calls `install_via_brew` makes. */
  datatype Brew = Brew(listExit: int, installExit: int, installStderr: string)

  /** `install_via_brew`: macOS only; False when the cask is already listed;
      a failing install raises with its error output. */
  function InstallViaBrew(system: string, brew: Brew): (r: Result<bool>)
    ensures system != "Darwin" ==> r == Err(RuntimeError("Homebrew installation only supported on macOS"))
    ensures system == "Darwin" && brew.listExit == 0 ==> r == Ok(false)
    ensures system == "Darwin" && brew.listExit != 0 ==>
      (r.Ok? <==> brew.installExit == 0) && (r.Ok? ==> r.value)
      && (r.Err? ==> r.error == RuntimeError("Failed to install Claude: " + brew.installStderr))
  {
    if system != "Darwin" then Err(RuntimeError("Homebrew installation only supported on macOS"))
    else if brew.listExit == 0 then Ok(false)
    else if brew.installExit != 0 then Err(RuntimeError("Failed to install Claude: " + brew.installStderr))
    else Ok(true)
  }

  /** The cask state after an install attempt: a successful install leaves
      the cask listed; anything else changes nothing. */
  function BrewAfter(system: string, brew: Brew): (b: Brew)
    ensures b.installExit == brew.installExit && b.installStderr == brew.installStderr
    ensures b.listExit == 0 <==> brew.listExit == 0 || InstallViaBrew(system, brew) == Ok(true)
  {
    if InstallViaBrew(system, brew) == Ok(true) then brew.(listExit := 0) else brew
  }

  /** Installing is idempotent: once a call succeeds, the next call finds
      the cask listed and answers `False`; a call that raises leaves the
      next one to raise the same way. */
  lemma InstallViaBrewIdempotent(system: string, brew: Brew)
    ensures InstallViaBrew(system, brew).Ok? ==> InstallViaBrew(system, BrewAfter(system, brew)) == Ok(false)
    ensures InstallViaBrew(system, brew).Err? ==>
              InstallViaBrew(system, BrewAfter(system, brew)) == InstallViaBrew(system, brew)
  {
  }
}

=== FILE: confluence.dfy ===
/** The Confluence provider's own decisions (`confluence/service.py`): the
    health verdict over the space listing, the space resources and their
    URIs, the space-summary prompt, and the page-creation request. The
    Atlassian client is outside the model: the space listing is an input,
    and `str()` of a decoded JSON value is the parameter `render`. */
module Confluence {
  import opened Wrappers
  import opened Strings
  import opened Json
  import opened Protocol
  import opened Marshal
  import Service

  /** What `get_all_spaces` returned, or the message of what it raised. */
  datatype SpaceListing = Listed(doc: Json) | ListFailed(message: string)

  /** The listing is a dictionary whose `results` is a non-empty list. */
  predicate HasSpaces(listing: SpaceListing) {
    && listing.Listed?
    && listing.doc.Object?
    && "results" in listing.doc.fields
    && listing.doc.fields["results"].Array?
    && |listing.doc.fields["results"].items| > 0
  }

  const NoSpaces := "DOWN: No spaces found"

  /** `health`: UP exactly when spaces are listed. */
  function Health(listing: SpaceListing): (r: string)
    ensures r == "UP" <==> HasSpaces(listing)
    ensures listing.ListFailed? ==> r == "DOWN: " + listing.message
    ensures listing.Listed? && !HasSpaces(listing) ==> r == NoSpaces
  {
    match listing
    case ListFailed(m) =>
      assert ("DOWN: " + m)[0] == 'D';
      "DOWN: " + m
    case Listed(doc) =>
      if HasSpaces(listing) then "UP" else NoSpaces
  }

  /** Iterating `spaces["results"]`: a list yields its items; an empty
      dictionary or string yields nothing; a non-empty one yields strings,
      which the caller's `space['key']` rejects. */
  function Results(doc: Json): (r: Result<seq<Json>>)
    ensures doc.Object? && "results" in doc.fields && doc.fields["results"].Array? ==>
      r == Ok(doc.fields["results"].items)
  {
    if !doc.Object? then Err(TypeError("listing is not subscriptable by a string"))
    else if "results" !in doc.fields then Err(KeyError("results"))
    else
      match doc.fields["results"]
      case Array(items) => Ok(items)
      case Object(f) => if |f| == 0 then Ok([]) else Err(TypeError("string indices must be integers"))
      case Str(s) => if |s| == 0 then Ok([]) else Err(TypeError("string indices must be integers"))
      case _ => Err(TypeError("results is not iterable"))
  }

  /** `space[key]`. */
  function Field(space: Json, key: string): (r: Result<Json>)
    ensures r.Ok? <==> space.Object? && key in space.fields
    ensures r.Ok? ==> r.value == space.fields[key]
  {
    if !space.Object? then Err(TypeError("space is not a dictionary"))
    else if key !in space.fields then Err(KeyError(key))
    else Ok(space.fields[key])
  }

  /** The URI under which a space is offered. */
  function SpaceUri(key: string): Uri {
    Uri("starbridge", Some("confluence"), Some("/space/" + key))
  }

  /** One resource of `resource_list`. */
  function ResourceOf(space: Json, render: Json -> string): (r: Result<Resource>)
    ensures r.Ok? <==> space.Object? && "key" in space.fields && "name" in space.fields
                       && space.fields["name"].Str? && "type" in space.fields
    ensures r.Ok? ==>
      && r.value.uri == SpaceUri(render(space.fields["key"]))
      && r.value.name == space.fields["name"].s
      && r.value.description == Some("Space of type '" + render(space.fields["type"]) + "'")
      && r.value.mimeType == Some("application/json")
  {
    var key :- Field(space, "key");
    var name :- Field(space, "name");
    if !name.Str? then Err(Raised("resource name must be a string"))
    else
      var kind :- Field(space, "type");
      Ok(Resource(SpaceUri(render(key)), name.s, Some("Space of type '" + render(kind) + "'"), Some("application/json")))
  }

  /** The resources of a list of spaces, in order; a failing space raises. */
  function ResourcesOf(spaces: seq<Json>, render: Json -> string): (r: Result<seq<Resource>>)
    ensures r.Ok? <==> forall i :: 0 <= i < |spaces| ==> ResourceOf(spaces[i], render).Ok?
    ensures r.Ok? ==> |r.value| == |spaces| && forall i :: 0 <= i < |spaces| ==> ResourceOf(spaces[i], render) == Ok(r.value[i])
    decreases |spaces|
  {
    if |spaces| == 0 then Ok([])
    else
      var x :- ResourceOf(spaces[0], render);
      var rest :- ResourcesOf(spaces[1..], render);
      assert forall i :: 1 <= i < |spaces| ==> spaces[i] == spaces[1..][i - 1];
      Ok([x] + rest)
  }

  /** `resource_list`: one resource per listed space, in listing order. */
  function ResourceList(listing: SpaceListing, render: Json -> string): (r: Result<seq<Resource>>)
    ensures listing.ListFailed? ==> r == Err(Raised(listing.message))
    ensures listing.Listed? && Results(listing.doc).Ok? ==> r == ResourcesOf(Results(listing.doc).value, render)
    ensures listing.Listed? && Results(listing.doc).Err? ==> r == Err(Results(listing.doc).error)
  {
    match listing
    case ListFailed(m) => Err(Raised(m))
    case Listed(doc) =>
      var spaces :- Results(doc);
      ResourcesOf(spaces, render)
  }

  function HostText(host: Option<string>): string {
    match host
    case Some(h) => h
    case None => "None"
  }

  /** The space key a URI names: an error unless it belongs to this
      provider; the last path segment when the path starts with `/space/`;
      None for any other path. */
  function SpaceKey(uri: Uri): (r: Result<Option<string>>)
    ensures r.Err? <==> uri.scheme != "starbridge" || uri.host != Some("confluence")
    ensures r.Err? ==> r.error == ValueError("Unsupported URI scheme/host combination: " + uri.scheme + ":" + HostText(uri.host))
    ensures r.Ok? ==> (r.value.Some? <==> StartsWith(uri.path.GetOr(""), "/space/"))
    ensures r.Ok? && r.value.Some? ==>
      var path, key := uri.path.value, r.value.value;
      && '/' !in key && EndsWith(path, key)
      && |key| < |path| && path[|path| - |key| - 1] == '/'
  {
    if uri.scheme != "starbridge" || uri.host != Some("confluence") then
      Err(ValueError("Unsupported URI scheme/host combination: " + uri.scheme + ":" + HostText(uri.host)))
    else
      var path := uri.path.GetOr("");
      if StartsWith(path, "/space/") then
        var parts := Split(path, '/');
        SplitPiecesFree(path, '/');
        LastPieceIsSuffix(path, '/');
        assert path[0] == "/space/"[0];
        LastPieceAfterSep(path, '/');
        Ok(Some(parts[|parts| - 1]))
      else Ok(None)
  }

  /** The last piece of a split ends the string. */
  lemma {:induction false} LastPieceIsSuffix(s: string, sep: char)
    ensures EndsWith(s, Split(s, sep)[|Split(s, sep)| - 1])
    decreases |s|
  {
    if |s| > 0 {
      var rest := Split(s[1..], sep);
      LastPieceIsSuffix(s[1..], sep);
      var last := rest[|rest| - 1];
      if s[0] != sep && |rest| == 1 {
        JoinSplit(s[1..], sep);
        assert rest[0] == s[1..];
        assert Split(s, sep) == [[s[0]] + s[1..]];
        assert [s[0]] + s[1..] == s;
      } else {
        assert Split(s, sep)[|Split(s, sep)| - 1] == last;
        assert s[1..][|s[1..]| - |last|..] == s[|s| - |last|..];
      }
    }
  }

  /** When the separator occurs, the last piece is preceded by it, so it is
      the whole final segment. */
  lemma {:induction false} LastPieceAfterSep(s: string, sep: char)
    requires sep in s
    ensures var last := Split(s, sep)[|Split(s, sep)| - 1];
      |last| < |s| && s[|s| - |last| - 1] == sep
    decreases |s|
  {
    var rest := Split(s[1..], sep);
    if sep in s[1..] {
      assert |rest| >= 2 by {
        if |rest| == 1 {
          JoinSplit(s[1..], sep);
          SplitPiecesFree(s[1..], sep);
        }
      }
      LastPieceAfterSep(s[1..], sep);
      var last := rest[|rest| - 1];
      assert Split(s, sep)[|Split(s, sep)| - 1] == last;
      assert s[1..][|s[1..]| - |last| - 1] == s[|s| - |last| - 1];
    } else {
      assert s[0] == sep;
      SplitNoSep(s[1..], sep);
      assert Split(s, sep) == [""] + [s[1..]];
    }
  }

  /** `resource_get`: the space's JSON description, or None for a path that
      names no space. `spaceInfo` is the client's `get_space`, which raises
      when the request fails (an unknown key, say); that exception
      propagates. */
  function ResourceGet(uri: Uri, spaceInfo: string -> Result<Json>, dumps: Json -> string): (r: Result<Option<string>>)
    ensures SpaceKey(uri).Err? ==> r == Err(SpaceKey(uri).error)
    ensures SpaceKey(uri) == Ok(None) ==> r == Ok(None)
    ensures SpaceKey(uri).Ok? && SpaceKey(uri).value.Some? ==>
      var info := spaceInfo(SpaceKey(uri).value.value);
      && (info.Err? ==> r == Err(info.error))
      && (info.Ok? ==> r == Ok(Some(dumps(info.value))))
  {
    var key :- SpaceKey(uri);
    if key.None? then Ok(None)
    else
      var info :- spaceInfo(key.value);
      Ok(Some(dumps(info)))
  }

  /** Reading back a listed space's URI names that space again. */
  lemma SpaceUriRoundTrip(key: string)
    requires '/' !in key
    ensures SpaceKey(SpaceUri(key)) == Ok(Some(key))
  {
    var path := "/space/" + key;
    assert path == "" + ['/'] + "space" + ['/'] + key;
    SplitTwoFields("", "space", key, '/');
    SplitNoSep(key, '/');
    assert Split(path, '/') == ["", "space", key];
    assert StartsWith(path, "/space/");
  }

  /** Every resource `resource_list` offers is read back by `resource_get`
      as the space it was listed for. */
  lemma ListedResourcesReadBack(listing: SpaceListing, render: Json -> string, i: nat)
    requires listing.Listed? && ResourceList(listing, render).Ok?
    requires i < |ResourceList(listing, render).value|
    requires '/' !in render(Results(listing.doc).value[i].fields["key"])
    ensures SpaceKey(ResourceList(listing, render).value[i].uri) == Ok(Some(render(Results(listing.doc).value[i].fields["key"])))
  {
    var spaces := Results(listing.doc).value;
    assert ResourceOf(spaces[i], render).Ok?;
    SpaceUriRoundTrip(render(spaces[i].fields["key"]));
  }

  const ModulePath := "starbridge." + "confluence" + ".service"

  /** The prefix of this provider's tools and prompts. */
  const Prefix := "starbridge_" + "confluence" + "_"

  const SpaceSummaryName := Prefix + "space_summary"

  /** `prompt_list`: the space summary, with one optional `style` argument. */
  function PromptList(): (r: seq<Prompt>)
    ensures |r| == 1 && r[0].name == SpaceSummaryName
    ensures |r[0].arguments| == 1 && r[0].arguments[0].name == "style" && !r[0].arguments[0].required
  {
    [Prompt(SpaceSummaryName, Some("Creates a summary of spaces in Confluence"),
            [PromptArgument("style", Some("Style of the summary (brief/detailed)"), false)])]
  }

  /** The listed prompt is routed to this provider. */
  lemma SpaceSummaryOwned()
    ensures StartsWith(SpaceSummaryName, Service.ServicePrefix(ModulePath))
  {
    assert '.' !in "confluence";
    Service.StarbridgePrefix("confluence");
    assert SpaceSummaryName[..|Prefix|] == Prefix;
  }

  /** One line of the summary prompt. */
  function SpaceLine(space: Json, render: Json -> string): (r: Result<string>)
    ensures r.Ok? <==> space.Object? && "key" in space.fields && "name" in space.fields && "type" in space.fields
    ensures r.Ok? ==> r.value == "- " + render(space.fields["key"]) + ": " + render(space.fields["name"])
                                 + " (" + render(space.fields["type"]) + ")"
  {
    var key :- Field(space, "key");
    var name :- Field(space, "name");
    var kind :- Field(space, "type");
    Ok("- " + render(key) + ": " + render(name) + " (" + render(kind) + ")")
  }

  function SpaceLines(spaces: seq<Json>, render: Json -> string): (r: Result<seq<string>>)
    ensures r.Ok? ==> |r.value| == |spaces| && forall i :: 0 <= i < |spaces| ==> SpaceLine(spaces[i], render) == Ok(r.value[i])
    decreases |spaces|
  {
    if |spaces| == 0 then Ok([])
    else
      var line :- SpaceLine(spaces[0], render);
      var rest :- SpaceLines(spaces[1..], render);
      assert forall i :: 1 <= i < |spaces| ==> spaces[i] == spaces[1..][i - 1];
      Ok([line] + rest)
  }

  const Intro := "Here are the current spaces to summarize:"
  const Detail := " Give extensive details."

  function SummaryHeader(style: string): string {
    Intro + (if style == "detailed" then Detail else "") + "\n\n"
  }

  /** `mcp_prompt_starbridge_confluence_space_summary`. */
  function SpaceSummary(style: string, listing: SpaceListing, render: Json -> string): (r: Result<GetPromptResult>)
    ensures listing.ListFailed? ==> r == Err(Raised(listing.message))
    ensures r.Ok? ==>
      && r.value.description == Some("Summarize the current spaces")
      && |r.value.messages| == 1
      && r.value.messages[0].role == User
      && r.value.messages[0].content.Text?
  {
    match listing
    case ListFailed(m) => Err(Raised(m))
    case Listed(doc) =>
      var spaces :- Results(doc);
      var lines :- SpaceLines(spaces, render);
      Ok(GetPromptResult(Some("Summarize the current spaces"),
                         [PromptMessage(User, Text(SummaryHeader(style) + Join("\n", lines)))]))
  }

  /** The summary text: the introduction, the detail request exactly when
      the style is "detailed", a blank line, then one line per space in
      listing order, which splitting at newlines recovers. */
  lemma SpaceSummaryText(style: string, listing: SpaceListing, render: Json -> string)
    requires SpaceSummary(style, listing, render).Ok?
    ensures var text := SpaceSummary(style, listing, render).value.messages[0].content.text;
            var lines := SpaceLines(Results(listing.doc).value, render).value;
      && StartsWith(text, Intro)
      && (text[|Intro|] == ' ' <==> style == "detailed")
      && text == SummaryHeader(style) + Join("\n", lines)
      && (|lines| > 0 && (forall k :: 0 <= k < |lines| ==> '\n' !in lines[k]) ==>
            Split(text[|SummaryHeader(style)|..], '\n') == lines)
  {
    var text := SpaceSummary(style, listing, render).value.messages[0].content.text;
    var lines := SpaceLines(Results(listing.doc).value, render).value;
    var header := SummaryHeader(style);
    assert text == header + Join("\n", lines);
    assert header[..|Intro|] == Intro;
    assert text[..|Intro|] == Intro;
    assert text[|Intro|] == header[|Intro|];
    if style == "detailed" {
      assert header[|Intro|] == Detail[0];
    } else {
      assert header[|Intro|] == '\n';
    }
    assert text[|header|..] == Join("\n", lines);
    if |lines| > 0 && (forall k :: 0 <= k < |lines| ==> '\n' !in lines[k]) {
      SplitJoin(lines, '\n');
    }
  }

  /** The style argument, "brief" when absent. */
  function StyleOf(args: Service.PromptArgs): (r: string)
    ensures "style" in args ==> r == args["style"]
    ensures "style" !in args ==> r == "brief"
  {
    if "style" in args then args["style"] else "brief"
  }

  /** What `page_create` passes to the Atlassian client. */
  datatype PageRequest = PageRequest(
    space: string, title: string, body: string, parentId: Option<string>,
    pageType: string, representation: string, editor: string, fullWidth: bool, status: string)

  /** The request `starbridge_confluence_page_create` makes. */
  function PageCreateRequest(spaceKey: string, title: string, body: string, parentId: Option<string>, draft: bool): (r: PageRequest)
    ensures r.space == spaceKey && r.title == title && r.body == body && r.parentId == parentId
    ensures r.status == "draft" <==> draft
    ensures !draft ==> r.status == "current"
    ensures r.pageType == "page" && r.representation == "wiki" && r.editor == "v2" && r.fullWidth
  {
    PageRequest(spaceKey, title, body, parentId, "page", "wiki", "v2", true, if draft then "draft" else "current")
  }

  /** `starbridge_confluence_page_create`: the client's answer in a
      one-element tuple. `create` is the client's `create_page`, which
      raises when the request fails; that exception propagates. */
  function PageCreateTool(spaceKey: string, title: string, body: string, parentId: Option<string>, draft: bool,
                          create: PageRequest -> Result<Value>): (r: Result<Value>)
    ensures var answer := create(PageCreateRequest(spaceKey, title, body, parentId, draft));
      && (answer.Err? ==> r == Err(answer.error))
      && (answer.Ok? ==> r.Ok? && r.value.SeqValue? && r.value.items == [answer.value])
  {
    var answer :- create(PageCreateRequest(spaceKey, title, body, parentId, draft));
    Ok(SeqValue([answer]))
  }

  /** The tuple does not change what the caller receives: a failing request
      raises its own exception, and an answer marshals as it would alone. */
  lemma PageCreateMarshals(spaceKey: string, title: string, body: string, parentId: Option<string>, draft: bool,
                           create: PageRequest -> Result<Value>)
    ensures var answer := create(PageCreateRequest(spaceKey, title, body, parentId, draft));
      var r := PageCreateTool(spaceKey, title, body, parentId, draft, create);
      && (answer.Err? ==> r == Err(answer.error))
      && (answer.Ok? ==> r.Ok? && MarshalResult(r.value) == MarshalResult(answer.value))
  {
    var answer := create(PageCreateRequest(spaceKey, title, body, parentId, draft));
    if answer.Ok? {
      MarshalSingleton(answer.value);
    }
  }
}

=== FILE: context.dfy ===
/** The per-request context handed to provider methods (`MCPContext`).
    The session is modelled by the sequence of notifications sent through it
    so far: each operation that sends returns the extended sequence. */
module Context {
  import opened Wrappers
  import opened Strings

  datatype RequestId = StrId(s: string) | IntId(n: int)

  datatype ProgressToken = StrToken(s: string) | IntToken(n: int)

  /** Python truthiness of a progress token: a non-empty string or a non-zero int. */
  predicate Truthy(t: ProgressToken) {
    match t
    case StrToken(s) => s != ""
    case IntToken(n) => n != 0
  }

  datatype Meta = Meta(progressToken: Option<ProgressToken>, clientId: Option<string>)

  datatype RequestContext = RequestContext(requestId: RequestId, meta: Option<Meta>)

  /** The MCP server a context was created by. Of its attributes only one is
      looked up through the context: whether it has a `read_resource`
      method. */
  datatype ServerHandle = ServerHandle(hasReadResource: bool)

  datatype McpContext = McpContext(requestContext: Option<RequestContext>, mcp: Option<ServerHandle>)

  datatype Level = Debug | Info | Warning | Error

  datatype Notification =
    | ProgressNotification(token: ProgressToken, progress: real, total: Option<real>)
    | LogNotification(level: Level, data: string, logger: Option<string>)

  const NotAvailable := "Context is not available outside of a request"

  /** The `mcp` property. */
  function Mcp(ctx: McpContext): (r: Result<ServerHandle>)
    ensures r.Err? <==> ctx.mcp.None?
    ensures r.Err? ==> r.error == ValueError(NotAvailable)
  {
    match ctx.mcp
    case Some(h) => Ok(h)
    case None => Err(ValueError(NotAvailable))
  }

  /** The `request_context` property. */
  function GetRequestContext(ctx: McpContext): (r: Result<RequestContext>)
    ensures r.Err? <==> ctx.requestContext.None?
    ensures r.Err? ==> r.error == ValueError(NotAvailable)
    ensures r.Ok? ==> Some(r.value) == ctx.requestContext
  {
    match ctx.requestContext
    case Some(rc) => Ok(rc)
    case None => Err(ValueError(NotAvailable))
  }

  /** The progress token of the request, if its metadata carries one. */
  function ProgressTokenOf(rc: RequestContext): Option<ProgressToken> {
    if rc.meta.Some? then rc.meta.value.progressToken else None
  }

  /** `report_progress`: given what the session has sent so far, what it has
      sent afterwards. Reads the request context first, so it fails outside a
      request; sends exactly one progress notification when the request
      carries a truthy progress token, and nothing otherwise. */
  function ReportProgress(ctx: McpContext, sent: seq<Notification>, progress: real, total: Option<real>)
    : (r: Result<seq<Notification>>)
    ensures r.Err? <==> ctx.requestContext.None?
    ensures r.Err? ==> r.error == ValueError(NotAvailable)
    ensures r.Ok? ==> sent <= r.value && |r.value| <= |sent| + 1
    ensures r.Ok? ==>
      var tok := ProgressTokenOf(ctx.requestContext.value);
      if tok.Some? && Truthy(tok.value)
      then r.value == sent + [ProgressNotification(tok.value, progress, total)]
      else r.value == sent
  {
    var rc :- GetRequestContext(ctx);
    var token := ProgressTokenOf(rc);
    if token.None? || !Truthy(token.value) then Ok(sent)
    else Ok(sent + [ProgressNotification(token.value, progress, total)])
  }

  /** Two progress reports in a row send their notifications in call order,
      under the request's one token, or nothing at all without a truthy
      token; what was sent before is kept. */
  lemma ProgressReportsInOrder(ctx: McpContext, sent: seq<Notification>, p1: real, p2: real, total: Option<real>)
    requires ctx.requestContext.Some?
    ensures var r1 := ReportProgress(ctx, sent, p1, total);
      r1.Ok? && ReportProgress(ctx, r1.value, p2, total).Ok?
    ensures var r2 := ReportProgress(ctx, ReportProgress(ctx, sent, p1, total).value, p2, total).value;
      var tok := ProgressTokenOf(ctx.requestContext.value);
      && r2[..|sent|] == sent
      && (tok.Some? && Truthy(tok.value) ==>
            r2[|sent|..] == [ProgressNotification(tok.value, p1, total), ProgressNotification(tok.value, p2, total)])
      && (tok.None? || !Truthy(tok.value) ==> r2 == sent)
  {
    var r1 := ReportProgress(ctx, sent, p1, total).value;
    var r2 := ReportProgress(ctx, r1, p2, total).value;
    var tok := ProgressTokenOf(ctx.requestContext.value);
    if tok.Some? && Truthy(tok.value) {
      assert r2 == sent + [ProgressNotification(tok.value, p1, total)] + [ProgressNotification(tok.value, p2, total)];
      assert r2[|sent|..] == [ProgressNotification(tok.value, p1, total), ProgressNotification(tok.value, p2, total)];
    }
  }

  /** `log`: forwards exactly one log message to the session. */
  function Log(ctx: McpContext, sent: seq<Notification>, level: Level, message: string, loggerName: Option<string>)
    : (r: Result<seq<Notification>>)
    ensures r.Err? <==> ctx.requestContext.None?
    ensures r.Ok? ==> r.value == sent + [LogNotification(level, message, loggerName)]
  {
    var _ :- GetRequestContext(ctx);
    Ok(sent + [LogNotification(level, message, loggerName)])
  }

  /** `read_resource`: asserts that a server is attached, then calls the
      server's `read_resource`, which `read` stands for; a server without
      that method raises `AttributeError`. */
  function ReadResource<U, C>(ctx: McpContext, uri: U, read: U -> Result<C>): (r: Result<C>)
    ensures ctx.mcp.None? ==> r == Err(AssertionError(NotAvailable))
    ensures ctx.mcp.Some? && !ctx.mcp.value.hasReadResource ==> r == Err(AttributeError("read_resource"))
    ensures ctx.mcp.Some? && ctx.mcp.value.hasReadResource ==> r == read(uri)
  {
    match ctx.mcp
    case None => Err(AssertionError(NotAvailable))
    case Some(h) => if h.hasReadResource then read(uri) else Err(AttributeError("read_resource"))
  }

  /** `client_id`: `None` whenever the request has no metadata. */
  function ClientId(ctx: McpContext): (r: Result<Option<string>>)
    ensures r.Err? <==> ctx.requestContext.None?
    ensures r.Ok? && ctx.requestContext.value.meta.None? ==> r.value.None?
    ensures r.Ok? && ctx.requestContext.value.meta.Some? ==> r.value == ctx.requestContext.value.meta.value.clientId
  {
    var rc :- GetRequestContext(ctx);
    if rc.meta.None? then Ok(None) else Ok(rc.meta.value.clientId)
  }

  /** `str()` of a request id. */
  function IdString(id: RequestId): string {
    match id
    case StrId(s) => s
    case IntId(n) => IntToString(n)
  }

  /** `request_id`: the string form of the underlying id. */
  function RequestIdOf(ctx: McpContext): (r: Result<string>)
    ensures r.Err? <==> ctx.requestContext.None?
    ensures r.Ok? ==> r.value == IdString(ctx.requestContext.value.requestId)
  {
    var rc :- GetRequestContext(ctx);
    Ok(IdString(rc.requestId))
  }

  /** Two requests with integer ids report the same `request_id` only when
      the ids are equal. */
  lemma RequestIdDistinguishesIntIds(ctx1: McpContext, ctx2: McpContext)
    requires ctx1.requestContext.Some? && ctx1.requestContext.value.requestId.IntId?
    requires ctx2.requestContext.Some? && ctx2.requestContext.value.requestId.IntId?
    requires RequestIdOf(ctx1) == RequestIdOf(ctx2)
    ensures ctx1.requestContext.value.requestId == ctx2.requestContext.value.requestId
  {
    IntToStringInjective(ctx1.requestContext.value.requestId.n, ctx2.requestContext.value.requestId.n);
  }
}

=== FILE: decorators.dfy ===
/** The `mcp_tool` decorator (`mcp/decorators.py`). */
module Decorators {
  import opened Wrappers
  import opened Json
  import opened Marshal
  import opened Context

  /** Keyword arguments of a call, as decoded from the request. */
  type Args = map<string, Json>

  /** What calling a provider method does: from its keyword arguments and the
      injected context to a returned value or a raised exception. */
  type MethodFn = (Args, McpContext) -> Result<Value>

  /** A Python function object: its `__name__`, its behaviour and its
      `__mcp_tool__` marker (`None` when the attribute is absent). */
  datatype PyFunction = PyFunction(name: string, call: MethodFn, marker: Option<string>)

  /** A plain `def`, which carries no marker. */
  function Def(name: string, call: MethodFn): PyFunction {
    PyFunction(name, call, None)
  }

  /** `mcp_tool(name)(f)`: a wrapper that forwards every call to `f`
      unchanged, keeps `f.__name__` (`functools.wraps`), and is marked with
      the explicit name, or with `f.__name__` itself when none is given. */
  function McpTool(name: Option<string>, f: PyFunction): (w: PyFunction)
    ensures w.name == f.name
    ensures w.marker.Some?
    ensures name.Some? ==> w.marker.value == name.value
    ensures name.None? ==> w.marker.value == f.name
    ensures forall args, ctx :: w.call(args, ctx) == f.call(args, ctx)
  {
    var wrapper := (args: Args, ctx: McpContext) => f.call(args, ctx);
    var toolName := if name.Some? then name.value else f.name;
    PyFunction(f.name, wrapper, Some(toolName))
  }
}

=== FILE: hello.dfy ===
/** The Hello provider (`hello/service.py`): a fixed provider whose two
    tools exercise routing and marshalling from end to end. */
module Hello {
  import opened Wrappers
  import opened Strings
  import opened Json
  import opened Protocol
  import opened Marshal
  import opened Context
  import opened Decorators
  import opened Service
  import opened Server

  const ModulePath := "starbridge." + "hello" + ".service"
  const Prefix := "starbridge_" + "hello" + "_"
  const HelloToolName := Prefix + "hello"
  const InfoToolName := Prefix + "info"

  /** `hello()` */
  const Greeting := "Hello, World!"

  /** `info()` */
  const InfoDoc := Object(map["locale" := Str("en_US")])

  /** `json.dumps(info(), indent=2)` */
  const InfoText := "{\n  \"locale\": \"en_US\"\n}"

  /** A method taking nothing but the context: any other keyword argument
      makes the call raise. */
  function ContextOnly(result: Value): (f: MethodFn)
    ensures forall args, ctx :: f(args, ctx) == (if args == map[] then Ok(result) else Err(TypeError("unexpected keyword argument")))
  {
    (args: Args, ctx: McpContext) => if args == map[] then Ok(result) else Err(TypeError("unexpected keyword argument"))
  }

  /** `starbridge_hello_hello`: one text item holding the greeting. */
  function HelloTool(): (f: PyFunction)
    ensures f.marker == Some(HelloToolName)
    ensures forall ctx :: f.call(map[], ctx) == Ok(SeqValue([ContentValue(Text(Greeting))]))
  {
    McpTool(None, Def(HelloToolName, ContextOnly(SeqValue([ContentValue(Text(Greeting))]))))
  }

  /** `starbridge_hello_info`: one text item holding the JSON of `info()`. */
  function InfoTool(): (f: PyFunction)
    ensures f.marker == Some(InfoToolName)
    ensures forall ctx :: f.call(map[], ctx) == Ok(SeqValue([ContentValue(Text(InfoText))]))
  {
    McpTool(None, Def(InfoToolName, ContextOnly(SeqValue([ContentValue(Text(InfoText))]))))
  }

  /** What the signature helper reports for a method without parameters. */
  function NoParameters(description: string): Signature {
    Signature(description, [], Object(map[]))
  }

  /** The service instance, its callable tool attributes in `dir()` order. */
  function HelloProvider(): (p: Provider)
    ensures p.modulePath == ModulePath
    ensures p.health == Ok("UP") && p.info == Ok(InfoDoc) && p.cliName == Some("hello")
    ensures p.resources == Ok([]) && p.prompts == Ok([])
  {
    Provider(ModulePath,
             [Member(HelloToolName, HelloTool(), NoParameters("Print hello world!")),
              Member(InfoToolName, InfoTool(), NoParameters("Info about Hello world environment"))],
             [], Ok([]), _ => Ok(None), Ok([]), Ok("UP"), Ok(InfoDoc), Some("hello"))
  }

  /** The provider's prefix is `starbridge_hello_`, so it owns both tools. */
  lemma HelloOwnsTools()
    ensures ServicePrefix(ModulePath) == Prefix
    ensures Owns(HelloProvider(), HelloToolName) && Owns(HelloProvider(), InfoToolName)
  {
    assert '.' !in "hello";
    StarbridgePrefix("hello");
    assert HelloToolName[..|Prefix|] == Prefix;
    assert InfoToolName[..|Prefix|] == Prefix;
  }

  lemma ToolNamesDiffer()
    ensures HelloToolName != InfoToolName
  {
    assert HelloToolName[|Prefix|] == 'h';
    assert InfoToolName[|Prefix|] == 'i';
  }

  /** `tool_list` lists both tools, in `dir()` order. */
  lemma HelloToolList()
    ensures |ToolList(HelloProvider())| == 2
    ensures ToolList(HelloProvider())[0].name == HelloToolName
    ensures ToolList(HelloProvider())[1].name == InfoToolName
  {
    var ms := HelloProvider().members;
    assert IsMarked(ms[0]) && IsMarked(ms[1]);
    var idx := MarkedIndices(ms, 0);
    assert MarkedIndices(ms, 2) == [];
    assert idx == [0, 1];
  }

  /** A text item marshals to itself. */
  lemma SingleTextMarshals(t: string)
    ensures MarshalResult(SeqValue([ContentValue(Text(t))])) == Ok([Text(t)])
  {
    MarshalSingleton(ContentValue(Text(t)));
  }

  /** Calling `starbridge_hello_hello` on any server where the Hello
      provider is the first to claim the name answers with the greeting;
      extra arguments other than `context` raise. */
  lemma HelloToolCall(s: Server, i: nat, current: Option<RequestContext>, arguments: Option<Args>)
    requires i < |s.services| && s.services[i] == HelloProvider()
    requires forall j :: 0 <= j < i ==> !Owns(s.services[j], HelloToolName)
    ensures CallArgs(arguments) == map[] ==> ToolCall(s, current, HelloToolName, arguments) == Ok([Text(Greeting)])
    ensures CallArgs(arguments) != map[] ==> ToolCall(s, current, HelloToolName, arguments).Err?
  {
    HelloOwnsTools();
    FirstMatchIs(s.services, HelloToolName, i);
    assert GetAttr(HelloProvider().members, HelloToolName) == Some(HelloTool());
    SingleTextMarshals(Greeting);
  }

  /** Calling `starbridge_hello_info` answers with the JSON of `info()`. */
  lemma InfoToolCall(s: Server, i: nat, current: Option<RequestContext>, arguments: Option<Args>)
    requires i < |s.services| && s.services[i] == HelloProvider()
    requires forall j :: 0 <= j < i ==> !Owns(s.services[j], InfoToolName)
    ensures CallArgs(arguments) == map[] ==> ToolCall(s, current, InfoToolName, arguments) == Ok([Text(InfoText)])
    ensures CallArgs(arguments) != map[] ==> ToolCall(s, current, InfoToolName, arguments).Err?
  {
    HelloOwnsTools();
    ToolNamesDiffer();
    FirstMatchIs(s.services, InfoToolName, i);
    var ms := HelloProvider().members;
    assert ms[0].attr != InfoToolName;
    assert GetAttr(ms, InfoToolName) == GetAttr(ms[1..], InfoToolName);
    assert GetAttr(ms, InfoToolName) == Some(InfoTool());
    SingleTextMarshals(InfoText);
  }

  /** The first owner is found. */
  lemma FirstMatchIs(services: seq<Provider>, name: string, i: nat)
    requires i < |services| && Owns(services[i], name)
    requires forall j :: 0 <= j < i ==> !Owns(services[j], name)
    ensures FirstMatch(services, name) == Some(i)
  {
    var r := FirstMatch(services, name);
    assert r.Some? by {
      assert Owns(services[i], name);
    }
    assert !(r.value < i);
    assert !(r.value > i);
  }

  /** A server holding only the Hello provider is healthy. */
  lemma HelloHealthy()
    ensures GetHealth([HelloProvider()]) == Ok(Health(true, map["hello" := "UP"]))
  {
    var p := HelloProvider();
    assert '.' !in "hello";
    StarbridgePrefix("hello");
    assert [p][..0] == [];
    assert Dependencies([p]) == Ok(map["hello" := "UP"]);
  }
}

=== FILE: json.dfy ===
/** JSON documents as the Python code handles them after `json.load`: the
    configuration file of the desktop application, API listings, tool argument
    dictionaries. Object key order is not modelled. */
module Json {

  datatype Json =
    | Null
    | Bool(b: bool)
    | Number(n: int)
    | Str(s: string)
    | Array(items: seq<Json>)
    | Object(fields: map<string, Json>)

  /** Python's `key in obj` on a decoded value. */
  predicate HasKey(j: Json, key: string) {
    j.Object? && key in j.fields
  }
}

=== FILE: links.dfy ===
/** Link extraction (`web/utils.py`, `_extract_links_from_html` and
    `extract_links_from_response`): absolute http(s) links with anchor text
    are tallied per URL in first-seen order, their anchor texts
    de-duplicated, and the URLs ordered by occurrence count, most frequent
    first, ties in first-seen order. The HTML parser, `urljoin` and the
    Markdown renderer are parameters. */
module Links {
  import opened Wrappers
  import opened Strings
  import WebUtils

  /** An `<a href=...>` element as the parser yields it: its `href` and its
      text content. */
  datatype Anchor = Anchor(href: string, text: string)

  /** A link that counts: absolute URL and stripped anchor text. */
  datatype Candidate = Candidate(url: string, anchor: string)

  /** One entry of the result dictionary. */
  datatype LinkInfo = LinkInfo(url: string, anchorTexts: seq<string>, occurrences: nat)

  predicate IsHttp(url: string) {
    StartsWith(url, "http://") || StartsWith(url, "https://")
  }

  /** An anchor counts when its `href`, resolved against the page URL, is
      http(s) and its stripped text is non-empty. */
  predicate Counts(a: Anchor, base: string, join: (string, string) -> string) {
    IsHttp(join(base, a.href)) && Strip(a.text) != ""
  }

  /** The candidate a counting anchor contributes. */
  function CandidateOf(a: Anchor, base: string, join: (string, string) -> string): Candidate {
    Candidate(join(base, a.href), Strip(a.text))
  }

  /** Every candidate is an http(s) URL with a non-empty anchor text. */
  predicate AllKept(cs: seq<Candidate>) {
    forall i :: 0 <= i < |cs| ==> IsHttp(cs[i].url) && cs[i].anchor != ""
  }

  /** The links that count, in document order: the `href` resolved against
      the page URL must be http(s) and the stripped text non-empty. */
  function Candidates(links: seq<Anchor>, base: string, join: (string, string) -> string): (r: seq<Candidate>)
    ensures |r| <= |links|
    ensures AllKept(r)
    decreases |links|
  {
    if |links| == 0 then []
    else
      var rest := Candidates(links[1..], base, join);
      (if Counts(links[0], base, join) then [CandidateOf(links[0], base, join)] else []) + rest
  }

  /** Filtering is compositional, so the candidates keep document order:
      those of a concatenation are those of each part, in order. */
  lemma {:induction false} CandidatesAppend(a: seq<Anchor>, b: seq<Anchor>, base: string, join: (string, string) -> string)
    ensures Candidates(a + b, base, join) == Candidates(a, base, join) + Candidates(b, base, join)
    decreases |a|
  {
    if |a| == 0 {
      assert a + b == b;
    } else {
      CandidatesAppend(a[1..], b, base, join);
      CandidatesAppendStep(a, b, base, join);
    }
  }

  lemma CandidatesAppendStep(a: seq<Anchor>, b: seq<Anchor>, base: string, join: (string, string) -> string)
    requires |a| > 0
    requires Candidates(a[1..] + b, base, join) == Candidates(a[1..], base, join) + Candidates(b, base, join)
    ensures Candidates(a + b, base, join) == Candidates(a, base, join) + Candidates(b, base, join)
  {
    var head := if Counts(a[0], base, join) then [CandidateOf(a[0], base, join)] else [];
    var ra, rb := Candidates(a[1..], base, join), Candidates(b, base, join);
    calc {
      Candidates(a + b, base, join);
      { CandidatesConsAppend(a, b, base, join); }
      head + Candidates(a[1..] + b, base, join);
      head + (ra + rb);
      { ConcatAssoc(head, ra, rb); }
      (head + ra) + rb;
      { CandidatesCons(a, base, join); }
      Candidates(a, base, join) + rb;
    }
  }

  lemma CandidatesConsAppend(a: seq<Anchor>, b: seq<Anchor>, base: string, join: (string, string) -> string)
    requires |a| > 0
    ensures Candidates(a + b, base, join)
            == (if Counts(a[0], base, join) then [CandidateOf(a[0], base, join)] else [])
               + Candidates(a[1..] + b, base, join)
  {
    CandidatesCons(a + b, base, join);
    assert (a + b)[0] == a[0];
    assert (a + b)[1..] == a[1..] + b;
  }

  lemma CandidatesCons(links: seq<Anchor>, base: string, join: (string, string) -> string)
    requires |links| > 0
    ensures Candidates(links, base, join)
            == (if Counts(links[0], base, join) then [CandidateOf(links[0], base, join)] else [])
               + Candidates(links[1..], base, join)
  {
  }

  /** A single anchor contributes its candidate exactly when it counts. */
  lemma CandidatesSingle(x: Anchor, base: string, join: (string, string) -> string)
    ensures Candidates([x], base, join) == if Counts(x, base, join) then [CandidateOf(x, base, join)] else []
  {
    assert [x][1..] == [];
  }

  /** No counting anchor is lost. */
  lemma {:induction false} CandidatesComplete(links: seq<Anchor>, base: string, join: (string, string) -> string, i: nat)
    requires i < |links| && Counts(links[i], base, join)
    ensures CandidateOf(links[i], base, join) in Candidates(links, base, join)
    decreases |links|
  {
    CandidatesCons(links, base, join);
    if i > 0 {
      assert links[1..][i - 1] == links[i];
      CandidatesComplete(links[1..], base, join, i - 1);
    }
  }

  /** The position of the first occurrence of `x`. */
  function FirstIndex<T(==)>(xs: seq<T>, x: T): (k: nat)
    requires x in xs
    ensures k < |xs| && xs[k] == x && x !in xs[..k]
    decreases |xs|
  {
    if xs[0] == x then 0
    else
      var k := FirstIndex(xs[1..], x);
      assert xs[..k + 1] == [xs[0]] + xs[1..][..k];
      k + 1
  }

  /** Appending an element does not move the first occurrences of earlier ones. */
  lemma {:induction false} FirstIndexAppend<T>(xs: seq<T>, y: T, x: T)
    requires x in xs
    ensures FirstIndex(xs + [y], x) == FirstIndex(xs, x)
    decreases |xs|
  {
    if xs[0] != x {
      assert (xs + [y])[1..] == xs[1..] + [y];
      FirstIndexAppend(xs[1..], y, x);
    }
  }

  /** What `list(dict.fromkeys(xs))` promises of `r`: no repeats, the same
      elements, kept in the order of their first occurrences, the first
      element first. */
  ghost predicate DedupeOf<T(!new)>(r: seq<T>, xs: seq<T>) {
    && (forall i, j :: 0 <= i < j < |r| ==> r[i] != r[j])
    && (forall x :: x in r <==> x in xs)
    && (forall i, j :: 0 <= i < j < |r| ==> FirstIndex(xs, r[i]) < FirstIndex(xs, r[j]))
    && |r| <= |xs|
    && (|xs| > 0 ==> |r| > 0 && r[0] == xs[0])
  }

  /** `list(dict.fromkeys(xs))`: the first occurrence of each element, in order. */
  function Dedupe<T(==,!new)>(xs: seq<T>): (r: seq<T>)
    ensures forall i, j :: 0 <= i < j < |r| ==> r[i] != r[j]
    ensures forall x :: x in r <==> x in xs
    ensures forall i, j :: 0 <= i < j < |r| ==> FirstIndex(xs, r[i]) < FirstIndex(xs, r[j])
    ensures |r| <= |xs|
    ensures |xs| > 0 ==> |r| > 0 && r[0] == xs[0]
    decreases |xs|
  {
    if |xs| == 0 then []
    else
      var init := xs[..|xs| - 1];
      var d := Dedupe(init);
      var last := xs[|xs| - 1];
      DedupeSnoc(xs, init, last, d);
      if last in d then d else d + [last]
  }

  /** Adding an element at the end keeps a de-duplication one when it is
      appended exactly if it is new. */
  lemma DedupeSnoc<T(!new)>(xs: seq<T>, init: seq<T>, last: T, d: seq<T>)
    requires |xs| > 0 && init == xs[..|xs| - 1] && last == xs[|xs| - 1]
    requires DedupeOf(d, init)
    ensures DedupeOf(if last in d then d else d + [last], xs)
  {
    assert xs == init + [last];
    forall x | x in init
      ensures FirstIndex(xs, x) == FirstIndex(init, x)
    {
      FirstIndexAppend(init, last, x);
    }
    if last in d {
      DedupeSnocSeen(xs, init, last, d);
    } else {
      assert xs[..|init|] == init;
      DedupeSnocNew(xs, init, last, d);
    }
  }

  lemma DedupeSnocSeen<T(!new)>(xs: seq<T>, init: seq<T>, last: T, d: seq<T>)
    requires xs == init + [last] && last in d
    requires DedupeOf(d, init)
    requires forall x :: x in init ==> FirstIndex(xs, x) == FirstIndex(init, x)
    ensures DedupeOf(d, xs)
  {
    assert forall x :: x in xs <==> x in init;
    assert xs[0] == init[0];
  }

  lemma DedupeSnocNew<T(!new)>(xs: seq<T>, init: seq<T>, last: T, d: seq<T>)
    requires xs == init + [last] && last !in d
    requires DedupeOf(d, init)
    requires forall x :: x in init ==> FirstIndex(xs, x) == FirstIndex(init, x)
    requires FirstIndex(xs, last) == |init|
    ensures DedupeOf(d + [last], xs)
  {
    var r := d + [last];
    forall i, j | 0 <= i < j < |r|
      ensures r[i] != r[j] && FirstIndex(xs, r[i]) < FirstIndex(xs, r[j])
    {
      assert r[i] == d[i] && d[i] in init;
      if j < |d| {
        assert r[j] == d[j];
      }
    }
    assert forall x :: x in r <==> x in d || x == last;
    if |init| > 0 {
      assert r[0] == d[0];
    }
  }

  /** The candidate URLs in document order. */
  function UrlsOf(cs: seq<Candidate>): (r: seq<string>)
    ensures |r| == |cs|
    ensures forall i :: 0 <= i < |cs| ==> r[i] == cs[i].url
    decreases |cs|
  {
    if |cs| == 0 then [] else UrlsOf(cs[..|cs| - 1]) + [cs[|cs| - 1].url]
  }

  /** The anchor texts of the candidates pointing to `url`, in document order. */
  function AnchorsFor(cs: seq<Candidate>, url: string): seq<string>
    decreases |cs|
  {
    if |cs| == 0 then []
    else
      var init := AnchorsFor(cs[..|cs| - 1], url);
      if cs[|cs| - 1].url == url then init + [cs[|cs| - 1].anchor] else init
  }

  function Urls(es: seq<LinkInfo>): (r: seq<string>)
    ensures |r| == |es|
    ensures forall i :: 0 <= i < |es| ==> r[i] == es[i].url
  {
    seq(|es|, i requires 0 <= i < |es| => es[i].url)
  }

  /** Where `url` already has an entry. */
  function IndexOf(es: seq<LinkInfo>, url: string): (r: Option<nat>)
    ensures r.Some? ==> r.value < |es| && es[r.value].url == url
    ensures r.None? <==> url !in Urls(es)
    decreases |es|
  {
    if |es| == 0 then None
    else if es[0].url == url then Some(0)
    else
      var r := IndexOf(es[1..], url);
      assert Urls(es[1..]) == Urls(es)[1..];
      if r.Some? then Some(r.value + 1) else None
  }

  /** One step of the tally loop: count the link under its URL, creating the
      entry on first sight. */
  function Add(es: seq<LinkInfo>, c: Candidate): seq<LinkInfo> {
    match IndexOf(es, c.url)
    case Some(i) => es[i := es[i].(anchorTexts := es[i].anchorTexts + [c.anchor], occurrences := es[i].occurrences + 1)]
    case None => es + [LinkInfo(c.url, [c.anchor], 1)]
  }

  /** The tally dictionary after the loop, in insertion order. */
  function Tally(cs: seq<Candidate>): seq<LinkInfo>
    decreases |cs|
  {
    if |cs| == 0 then [] else Add(Tally(cs[..|cs| - 1]), cs[|cs| - 1])
  }

  /** Every entry lists exactly its URL's anchor texts and counts them. */
  predicate Tallies(es: seq<LinkInfo>, cs: seq<Candidate>) {
    forall i :: 0 <= i < |es| ==>
      es[i].anchorTexts == AnchorsFor(cs, es[i].url) && es[i].occurrences == |es[i].anchorTexts|
  }

  lemma {:induction false} AnchorsForAbsent(cs: seq<Candidate>, url: string)
    requires url !in UrlsOf(cs)
    ensures AnchorsFor(cs, url) == []
    decreases |cs|
  {
    if |cs| > 0 {
      var init := cs[..|cs| - 1];
      assert UrlsOf(cs) == UrlsOf(init) + [cs[|cs| - 1].url];
      AnchorsForAbsent(init, url);
    }
  }

  lemma {:induction false} AnchorsForPresent(cs: seq<Candidate>, url: string)
    requires url in UrlsOf(cs)
    ensures |AnchorsFor(cs, url)| > 0
    decreases |cs|
  {
    var init := cs[..|cs| - 1];
    assert UrlsOf(cs) == UrlsOf(init) + [cs[|cs| - 1].url];
    if cs[|cs| - 1].url != url {
      AnchorsForPresent(init, url);
    }
  }

  predicate DistinctUrls(es: seq<LinkInfo>) {
    forall i, j :: 0 <= i < j < |es| ==> es[i].url != es[j].url
  }

  /** With distinct URLs, the lookup finds the one entry holding `url`. */
  lemma {:induction false} IndexOfDistinct(es: seq<LinkInfo>, i: nat)
    requires DistinctUrls(es) && i < |es|
    ensures IndexOf(es, es[i].url) == Some(i)
    decreases |es|
  {
    if i > 0 {
      assert es[0].url != es[i].url;
      assert es[1..][i - 1] == es[i];
      IndexOfDistinct(es[1..], i - 1);
    }
  }

  lemma AddExisting(es: seq<LinkInfo>, cs: seq<Candidate>, c: Candidate, i: nat)
    requires Tallies(es, cs) && DistinctUrls(es) && i < |es| && es[i].url == c.url
    ensures Urls(Add(es, c)) == Urls(es)
    ensures Tallies(Add(es, c), cs + [c])
  {
    var cs2 := cs + [c];
    assert cs2[..|cs2| - 1] == cs;
    IndexOfDistinct(es, i);
  }

  lemma AddNew(es: seq<LinkInfo>, cs: seq<Candidate>, c: Candidate)
    requires Tallies(es, cs) && c.url !in Urls(es) && c.url !in UrlsOf(cs)
    ensures Urls(Add(es, c)) == Urls(es) + [c.url]
    ensures Tallies(Add(es, c), cs + [c])
  {
    var cs2 := cs + [c];
    assert cs2[..|cs2| - 1] == cs;
    AnchorsForAbsent(cs, c.url);
    var es2 := Add(es, c);
    forall j | 0 <= j < |es|
      ensures es2[j].anchorTexts == AnchorsFor(cs2, es2[j].url)
    {
      assert es[j].url in Urls(es);
    }
  }

  /** The tally keeps one entry per URL, in order of first appearance, each
      holding that URL's anchor texts in document order and their count. */
  lemma {:induction false} TallySpec(cs: seq<Candidate>)
    ensures Urls(Tally(cs)) == Dedupe(UrlsOf(cs))
    ensures Tallies(Tally(cs), cs)
    decreases |cs|
  {
    if |cs| > 0 {
      var init := cs[..|cs| - 1];
      var c := cs[|cs| - 1];
      assert cs == init + [c];
      TallySpec(init);
      var es := Tally(init);
      assert UrlsOf(cs)[..|cs| - 1] == UrlsOf(init);
      assert DistinctUrls(es) by {
        forall j, k | 0 <= j < k < |es|
          ensures es[j].url != es[k].url
        {
          assert Urls(es)[j] == es[j].url && Urls(es)[k] == es[k].url;
        }
      }
      match IndexOf(es, c.url)
      case Some(i) =>
        AddExisting(es, init, c, i);
        assert es[i].url in Urls(es);
      case None =>
        AddNew(es, init, c);
    }
  }

  /** Replaces each entry's anchor texts by their first occurrences. */
  function DedupeAnchors(es: seq<LinkInfo>): (r: seq<LinkInfo>)
    ensures |r| == |es|
    ensures forall i :: 0 <= i < |es| ==> r[i] == es[i].(anchorTexts := Dedupe(es[i].anchorTexts))
  {
    seq(|es|, i requires 0 <= i < |es| => es[i].(anchorTexts := Dedupe(es[i].anchorTexts)))
  }

  predicate SortedDesc(es: seq<LinkInfo>) {
    forall i, j :: 0 <= i < j < |es| ==> es[i].occurrences >= es[j].occurrences
  }

  /** Inserts `e` after every entry counted at least as often. */
  function Insert(e: LinkInfo, s: seq<LinkInfo>): (r: seq<LinkInfo>)
    ensures |r| == |s| + 1
    ensures multiset(r) == multiset(s) + multiset{e}
    decreases |s|
  {
    if |s| == 0 then [e]
    else if s[0].occurrences >= e.occurrences then
      var rest := Insert(e, s[1..]);
      assert s == [s[0]] + s[1..];
      [s[0]] + rest
    else [e] + s
  }

  lemma {:induction false} InsertSorted(e: LinkInfo, s: seq<LinkInfo>)
    requires SortedDesc(s)
    ensures SortedDesc(Insert(e, s))
    decreases |s|
  {
    if |s| > 0 {
      SortedTail(s);
      if s[0].occurrences >= e.occurrences {
        InsertSorted(e, s[1..]);
        InsertBounded(e, s[1..], s[0].occurrences);
        assert Insert(e, s) == [s[0]] + Insert(e, s[1..]);
        ConsSorted(s[0], Insert(e, s[1..]));
      } else {
        ConsSorted(e, s);
      }
    }
  }

  /** The tail of a sorted list is sorted and bounded by its head. */
  lemma SortedTail(s: seq<LinkInfo>)
    requires SortedDesc(s) && |s| > 0
    ensures SortedDesc(s[1..])
    ensures forall k :: 0 <= k < |s| ==> s[k].occurrences <= s[0].occurrences
  {
    forall i, j | 0 <= i < j < |s[1..]|
      ensures s[1..][i].occurrences >= s[1..][j].occurrences
    {
      assert s[1..][i] == s[i + 1] && s[1..][j] == s[j + 1];
    }
  }

  /** An entry counted at least as often as every entry of a sorted list
      can head it. */
  lemma ConsSorted(x: LinkInfo, t: seq<LinkInfo>)
    requires SortedDesc(t)
    requires forall k :: 0 <= k < |t| ==> t[k].occurrences <= x.occurrences
    ensures SortedDesc([x] + t)
  {
    var r := [x] + t;
    forall i, j | 0 <= i < j < |r|
      ensures r[i].occurrences >= r[j].occurrences
    {
      assert r[j] == t[j - 1];
      if i > 0 {
        assert r[i] == t[i - 1];
      }
    }
  }

  /** Inserting keeps every count within a common bound. */
  lemma {:induction false} InsertBounded(e: LinkInfo, s: seq<LinkInfo>, b: nat)
    requires e.occurrences <= b
    requires forall k :: 0 <= k < |s| ==> s[k].occurrences <= b
    ensures forall j :: 0 <= j < |Insert(e, s)| ==> Insert(e, s)[j].occurrences <= b
    decreases |s|
  {
    if |s| > 0 && s[0].occurrences >= e.occurrences {
      InsertBounded(e, s[1..], b);
      assert Insert(e, s) == [s[0]] + Insert(e, s[1..]);
    }
  }

  /** `sorted(..., key=occurrences, reverse=True)`, which is stable. */
  function SortByOccurrences(es: seq<LinkInfo>): (r: seq<LinkInfo>)
    ensures |r| == |es|
    ensures multiset(r) == multiset(es)
    ensures SortedDesc(r)
    decreases |es|
  {
    if |es| == 0 then []
    else
      var init := es[..|es| - 1];
      var last := es[|es| - 1];
      var s := SortByOccurrences(init);
      InsertSorted(last, s);
      SplitLast(es);
      assert multiset(es) == multiset(init) + multiset{last};
      Insert(last, s)
  }

  /** The entries counted exactly `n` times, in order. */
  function WithCount(es: seq<LinkInfo>, n: nat): seq<LinkInfo>
    decreases |es|
  {
    if |es| == 0 then []
    else Tie(es[0], n) + WithCount(es[1..], n)
  }

  lemma {:induction false} WithCountAppend(a: seq<LinkInfo>, b: seq<LinkInfo>, n: nat)
    ensures WithCount(a + b, n) == WithCount(a, n) + WithCount(b, n)
    decreases |a|
  {
    if |a| == 0 {
      assert a + b == b;
    } else {
      var h := Tie(a[0], n);
      assert (a + b)[0] == a[0];
      assert (a + b)[1..] == a[1..] + b;
      WithCountAppend(a[1..], b, n);
      assert WithCount(a, n) == h + WithCount(a[1..], n);
      assert WithCount(a + b, n) == h + (WithCount(a[1..], n) + WithCount(b, n));
      ConcatAssoc(h, WithCount(a[1..], n), WithCount(b, n));
    }
  }

  lemma {:induction false} WithCountBelow(s: seq<LinkInfo>, n: nat)
    requires forall k :: 0 <= k < |s| ==> s[k].occurrences < n
    ensures WithCount(s, n) == []
    decreases |s|
  {
    if |s| > 0 {
      WithCountBelow(s[1..], n);
    }
  }

  /** The entries of `[e]` counted `n` times. */
  function Tie(e: LinkInfo, n: nat): seq<LinkInfo> {
    if e.occurrences == n then [e] else []
  }

  /** One step of insertion past a head counted at least as often as `e`. */
  lemma InsertStableStep(e: LinkInfo, s: seq<LinkInfo>, n: nat)
    requires |s| > 0 && s[0].occurrences >= e.occurrences
    requires WithCount(Insert(e, s[1..]), n) == WithCount(s[1..], n) + Tie(e, n)
    ensures WithCount(Insert(e, s), n) == WithCount(s, n) + Tie(e, n)
  {
    var rest := Insert(e, s[1..]);
    var head := Tie(s[0], n);
    var mid := WithCount(s[1..], n);
    assert Insert(e, s) == [s[0]] + rest;
    assert ([s[0]] + rest)[0] == s[0];
    assert ([s[0]] + rest)[1..] == rest;
    assert WithCount(s, n) == head + mid;
    calc {
      WithCount(Insert(e, s), n);
      head + WithCount(rest, n);
      head + (mid + Tie(e, n));
      { ConcatAssoc(head, mid, Tie(e, n)); }
      (head + mid) + Tie(e, n);
    }
  }

  /** Inserting in front of a sorted list of entries all counted less often. */
  lemma InsertStableFront(e: LinkInfo, s: seq<LinkInfo>, n: nat)
    requires SortedDesc(s) && |s| > 0 && s[0].occurrences < e.occurrences
    ensures WithCount(Insert(e, s), n) == WithCount(s, n) + Tie(e, n)
  {
    assert Insert(e, s) == [e] + s;
    assert ([e] + s)[0] == e;
    assert ([e] + s)[1..] == s;
    if e.occurrences == n {
      WithCountBelow(s, n);
      assert WithCount([e] + s, n) == [e] + WithCount(s, n);
    } else {
      assert WithCount([e] + s, n) == WithCount(s, n);
    }
  }

  /** Inserting into a sorted list puts `e` after the entries it ties with. */
  lemma {:induction false} InsertStable(e: LinkInfo, s: seq<LinkInfo>, n: nat)
    requires SortedDesc(s)
    ensures WithCount(Insert(e, s), n) == WithCount(s, n) + Tie(e, n)
    decreases |s|
  {
    if |s| == 0 {
    } else if s[0].occurrences >= e.occurrences {
      assert SortedDesc(s[1..]);
      InsertStable(e, s[1..], n);
      InsertStableStep(e, s, n);
    } else {
      InsertStableFront(e, s, n);
    }
  }

  lemma SplitLast<T>(xs: seq<T>)
    requires |xs| > 0
    ensures xs == xs[..|xs| - 1] + [xs[|xs| - 1]]
  {
  }

  /** Stability: among entries with the same count, the sort keeps the
      input order. */
  lemma {:induction false} SortStable(es: seq<LinkInfo>, n: nat)
    ensures WithCount(SortByOccurrences(es), n) == WithCount(es, n)
    decreases |es|
  {
    if |es| > 0 {
      var init := es[..|es| - 1];
      var last := es[|es| - 1];
      var tail := Tie(last, n);
      var s := SortByOccurrences(init);
      assert SortByOccurrences(es) == Insert(last, s);
      SortStable(init, n);
      InsertStable(last, s, n);
      SplitLast(es);
      WithCountAppend(init, [last], n);
      assert WithCount([last], n) == tail by {
        assert [last][1..] == [];
      }
      calc {
        WithCount(SortByOccurrences(es), n);
        WithCount(Insert(last, s), n);
        WithCount(s, n) + tail;
        WithCount(init, n) + tail;
        WithCount(init, n) + WithCount([last], n);
        WithCount(es, n);
      }
    }
  }

  /** Entries drawn from `b` carry URLs of `b`. */
  lemma UrlsWithin(a: seq<LinkInfo>, b: seq<LinkInfo>)
    requires multiset(a) <= multiset(b)
    ensures forall u :: u in Urls(a) ==> u in Urls(b)
  {
    forall u | u in Urls(a)
      ensures u in Urls(b)
    {
      var i :| 0 <= i < |a| && Urls(a)[i] == u;
      assert a[i] in multiset(b);
      var k :| 0 <= k < |b| && b[k] == a[i];
      assert Urls(b)[k] == u;
    }
  }

  /** The sort keeps the set of URLs. */
  lemma SortUrls(es: seq<LinkInfo>)
    ensures forall u :: u in Urls(SortByOccurrences(es)) <==> u in Urls(es)
  {
    UrlsWithin(SortByOccurrences(es), es);
    UrlsWithin(es, SortByOccurrences(es));
  }

  lemma DistinctTail(s: seq<LinkInfo>)
    requires |s| > 0 && DistinctUrls(s)
    ensures DistinctUrls(s[1..]) && s[0].url !in Urls(s[1..])
  {
    forall j, k | 0 <= j < k < |s| - 1
      ensures s[1..][j].url != s[1..][k].url
    {
      assert s[1..][j] == s[j + 1] && s[1..][k] == s[k + 1];
    }
    forall k | 0 <= k < |s| - 1
      ensures Urls(s[1..])[k] != s[0].url
    {
      assert s[1..][k] == s[k + 1];
    }
  }

  /** An entry whose URL is in neither `s` nor `e` is not among `Insert(e, s)`. */
  lemma InsertAbsent(e: LinkInfo, s: seq<LinkInfo>, u: string)
    requires u != e.url && u !in Urls(s)
    ensures u !in Urls(Insert(e, s))
  {
    var r := Insert(e, s);
    forall k | 0 <= k < |r|
      ensures Urls(r)[k] != u
    {
      assert r[k] in multiset(s) + multiset{e};
      if r[k] != e {
        var m :| 0 <= m < |s| && s[m] == r[k];
        assert Urls(s)[m] == r[k].url;
      }
    }
  }

  lemma ConsDistinct(x: LinkInfo, s: seq<LinkInfo>)
    requires DistinctUrls(s) && x.url !in Urls(s)
    ensures DistinctUrls([x] + s)
  {
    var r := [x] + s;
    forall j, k | 0 <= j < k < |r|
      ensures r[j].url != r[k].url
    {
      assert r[k] == s[k - 1];
      if j == 0 {
        assert Urls(s)[k - 1] == r[k].url;
      } else {
        assert r[j] == s[j - 1];
      }
    }
  }

  lemma {:induction false} InsertDistinct(e: LinkInfo, s: seq<LinkInfo>)
    requires DistinctUrls(s) && e.url !in Urls(s)
    ensures DistinctUrls(Insert(e, s))
    decreases |s|
  {
    if |s| > 0 && s[0].occurrences >= e.occurrences {
      DistinctTail(s);
      assert e.url !in Urls(s[1..]) by {
        forall k | 0 <= k < |s| - 1
          ensures Urls(s[1..])[k] != e.url
        {
          assert Urls(s)[k + 1] == s[k + 1].url;
        }
      }
      InsertDistinct(e, s[1..]);
      assert s[0].url != e.url by {
        assert Urls(s)[0] == s[0].url;
      }
      InsertAbsent(e, s[1..], s[0].url);
      ConsDistinct(s[0], Insert(e, s[1..]));
    } else if |s| > 0 {
      ConsDistinct(e, s);
    }
  }

  /** The sort keeps URLs distinct. */
  lemma {:induction false} SortDistinct(es: seq<LinkInfo>)
    requires DistinctUrls(es)
    ensures DistinctUrls(SortByOccurrences(es))
    decreases |es|
  {
    if |es| > 0 {
      var init := es[..|es| - 1];
      var last := es[|es| - 1];
      var s := SortByOccurrences(init);
      assert SortByOccurrences(es) == Insert(last, s);
      forall j, k | 0 <= j < k < |init|
        ensures init[j].url != init[k].url
      {
        assert init[j] == es[j] && init[k] == es[k];
      }
      SortDistinct(init);
      forall k | 0 <= k < |init|
        ensures Urls(init)[k] != last.url
      {
        assert init[k] == es[k];
      }
      SortUrls(init);
      InsertDistinct(last, s);
    }
  }

  /** `_extract_links_from_html`. */
  function ExtractLinksFromHtml(links: seq<Anchor>, base: string, join: (string, string) -> string): (r: seq<LinkInfo>)
    ensures SortedDesc(r)
  {
    SortByOccurrences(DedupeAnchors(Tally(Candidates(links, base, join))))
  }

  /** What an entry of the result promises about the candidates. */
  ghost predicate Describes(e: LinkInfo, cs: seq<Candidate>) {
    && e.occurrences == |AnchorsFor(cs, e.url)|
    && e.anchorTexts == Dedupe(AnchorsFor(cs, e.url))
    && 1 <= |e.anchorTexts| <= e.occurrences
  }

  /** After de-duplicating anchors, every tally entry describes its URL. */
  lemma DedupedTallyDescribes(cs: seq<Candidate>)
    ensures var d := DedupeAnchors(Tally(cs));
      && Urls(d) == Dedupe(UrlsOf(cs))
      && DistinctUrls(d)
      && (forall k :: 0 <= k < |d| ==> Describes(d[k], cs))
  {
    var t := Tally(cs);
    var d := DedupeAnchors(t);
    TallySpec(cs);
    assert Urls(d) == Urls(t);
    forall k | 0 <= k < |d|
      ensures Describes(d[k], cs)
    {
      assert Urls(t)[k] == t[k].url;
      AnchorsForPresent(cs, t[k].url);
    }
    forall j, k | 0 <= j < k < |d|
      ensures d[j].url != d[k].url
    {
      assert Urls(d)[j] == d[j].url && Urls(d)[k] == d[k].url;
    }
  }

  /** The result is ordered most frequent first and holds exactly the
      counted URLs, each once. */
  lemma ExtractLinksUrls(links: seq<Anchor>, base: string, join: (string, string) -> string)
    ensures var r := ExtractLinksFromHtml(links, base, join);
      && SortedDesc(r)
      && (forall u :: u in Urls(r) <==> u in UrlsOf(Candidates(links, base, join)))
      && DistinctUrls(r)
  {
    var d := DedupeAnchors(Tally(Candidates(links, base, join)));
    DedupedTallyDescribes(Candidates(links, base, join));
    SortUrls(d);
    SortDistinct(d);
  }

  /** Every entry carries its URL's occurrence count and its distinct anchor
      texts (at least one, at most one per occurrence). */
  lemma ExtractLinksDescribes(links: seq<Anchor>, base: string, join: (string, string) -> string)
    ensures var r := ExtractLinksFromHtml(links, base, join);
      forall i :: 0 <= i < |r| ==> Describes(r[i], Candidates(links, base, join))
  {
    var cs := Candidates(links, base, join);
    var d := DedupeAnchors(Tally(cs));
    var r := SortByOccurrences(d);
    DedupedTallyDescribes(cs);
    PermutedDescribe(d, r, cs);
  }

  /** Reordering entries keeps each one describing its URL. */
  lemma PermutedDescribe(d: seq<LinkInfo>, r: seq<LinkInfo>, cs: seq<Candidate>)
    requires multiset(r) == multiset(d)
    requires forall k :: 0 <= k < |d| ==> Describes(d[k], cs)
    ensures forall i :: 0 <= i < |r| ==> Describes(r[i], cs)
  {
    forall i | 0 <= i < |r|
      ensures Describes(r[i], cs)
    {
      assert r[i] in multiset(d);
      var k :| 0 <= k < |d| && d[k] == r[i];
    }
  }

  /** Entries with equal counts keep the order in which their URLs were
      first seen. */
  lemma ExtractLinksStable(links: seq<Anchor>, base: string, join: (string, string) -> string, n: nat)
    ensures var d := DedupeAnchors(Tally(Candidates(links, base, join)));
      WithCount(ExtractLinksFromHtml(links, base, join), n) == WithCount(d, n)
  {
    SortStable(DedupeAnchors(Tally(Candidates(links, base, join))), n);
  }

  /** `extract_links_from_response`: links are extracted from HTML, and from
      Markdown after rendering it to HTML; every other type yields none. The
      type is decided by the content-type rules on the lower-cased header
      and URL. */
  function ExtractLinksFromResponse(resp: WebUtils.Response, parse: string -> seq<Anchor>,
                                    markdownToHtml: string -> string, join: (string, string) -> string): (r: seq<LinkInfo>)
    ensures var ct, u := Lower(resp.contentType.GetOr("")), Lower(resp.url);
      && (WebUtils.Signals(WebUtils.Html, ct, u) ==> r == ExtractLinksFromHtml(parse(resp.text), resp.url, join))
      && (!WebUtils.Signals(WebUtils.Html, ct, u) && WebUtils.Signals(WebUtils.Markdown, ct, u) ==>
            r == ExtractLinksFromHtml(parse(markdownToHtml(resp.text)), resp.url, join))
      && (!WebUtils.Signals(WebUtils.Html, ct, u) && !WebUtils.Signals(WebUtils.Markdown, ct, u) ==> r == [])
  {
    WebUtils.NormalizedMarkupIff(resp.contentType, resp.url);
    var ct := WebUtils.NormalizedContentType(resp.contentType, resp.url);
    if ct == WebUtils.TextHtml then ExtractLinksFromHtml(parse(resp.text), resp.url, join)
    else if ct == WebUtils.TextMarkdown then ExtractLinksFromHtml(parse(markdownToHtml(resp.text)), resp.url, join)
    else []
  }

  /** The links found in a page are absolute http(s) URLs, each listed once
      with at least one anchor text, most frequent first. */
  lemma ExtractLinksShape(links: seq<Anchor>, base: string, join: (string, string) -> string)
    ensures var r := ExtractLinksFromHtml(links, base, join);
      && SortedDesc(r) && DistinctUrls(r)
      && (forall i :: 0 <= i < |r| ==> IsHttp(r[i].url) && 1 <= |r[i].anchorTexts| <= r[i].occurrences)
  {
    var r := ExtractLinksFromHtml(links, base, join);
    ExtractLinksUrls(links, base, join);
    ExtractLinksDescribes(links, base, join);
    CandidateUrlsHttp(Candidates(links, base, join));
    forall i | 0 <= i < |r|
      ensures IsHttp(r[i].url)
    {
      assert Urls(r)[i] == r[i].url;
    }
  }

  lemma CandidateUrlsHttp(cs: seq<Candidate>)
    requires forall i :: 0 <= i < |cs| ==> IsHttp(cs[i].url)
    ensures forall u :: u in UrlsOf(cs) ==> IsHttp(u)
  {
    forall u | u in UrlsOf(cs)
      ensures IsHttp(u)
    {
      var k :| 0 <= k < |cs| && UrlsOf(cs)[k] == u;
    }
  }

  /** Whatever the response, the links found have that shape. */
  lemma ResponseLinksShape(resp: WebUtils.Response, parse: string -> seq<Anchor>,
                           markdownToHtml: string -> string, join: (string, string) -> string)
    ensures var r := ExtractLinksFromResponse(resp, parse, markdownToHtml, join);
      && SortedDesc(r) && DistinctUrls(r)
      && (forall i :: 0 <= i < |r| ==> IsHttp(r[i].url) && 1 <= |r[i].anchorTexts| <= r[i].occurrences)
  {
    var ct := WebUtils.NormalizedContentType(resp.contentType, resp.url);
    if ct == WebUtils.TextHtml {
      ExtractLinksShape(parse(resp.text), resp.url, join);
    } else if ct == WebUtils.TextMarkdown {
      ExtractLinksShape(parse(markdownToHtml(resp.text)), resp.url, join);
    }
  }
}

=== FILE: marshal.dfy ===
/** Result marshalling (`MCPServer._marshal_result`): any value a provider
    method returns becomes a flat list of protocol content items. */
module Marshal {
  import opened Wrappers
  import opened Protocol

  /** The Python values a provider method can return, as far as marshalling
      distinguishes them. */
  datatype Value =
    | NoneValue
    /** Already a `TextContent`, `ImageContent` or `EmbeddedResource`. */
    | ContentValue(content: Content)
    | StrValue(s: string)
    /** A `PIL.Image.Image`: its raw pixel buffer and the mime type of its
        format, `None` when the format has none. */
    | ImageValue(pixels: seq<byte>, mimeType: Option<string>)
    /** A `list` or a `tuple`. */
    | SeqValue(items: seq<Value>)
    /** Anything else. `json` is what `json.dumps(to_jsonable_python(v))`
        produces, `None` when that raises; `repr` is `str(v)`. */
    | OtherValue(json: Option<string>, repr: string)

  /** Concatenation of a sequence of sequences, in order. */
  function Concat<T>(ss: seq<seq<T>>): (r: seq<T>)
    decreases |ss|
  {
    if |ss| == 0 then [] else ss[0] + Concat(ss[1..])
  }

  lemma {:induction false} ConcatAppend<T>(a: seq<seq<T>>, b: seq<seq<T>>)
    ensures Concat(a + b) == Concat(a) + Concat(b)
    decreases |a|
  {
    if |a| == 0 {
      assert a + b == b;
    } else {
      assert (a + b)[1..] == a[1..] + b;
      ConcatAppend(a[1..], b);
    }
  }

  /** A value that marshals to exactly one item on its own. */
  predicate IsLeaf(v: Value) {
    !v.NoneValue? && !v.SeqValue?
  }

  /** An image whose format has no mime type: `ImageContent` refuses it. */
  predicate Untyped(v: Value) {
    v.ImageValue? && v.mimeType.None?
  }

  /** What building `ImageContent` without a mime type raises. */
  const MissingMimeType := ValidationError("mimeType")

  /** The single item a leaf value becomes, or the validation error of an
      image without a mime type. */
  function MarshalLeaf(v: Value): (r: Result<Content>)
    requires IsLeaf(v)
    ensures r.Err? <==> Untyped(v)
    ensures r.Err? ==> r.error == MissingMimeType
    ensures v.ContentValue? ==> r == Ok(v.content)
    ensures r.Ok? && r.value.Embedded? ==> v.ContentValue?
    ensures r.Ok? ==> (r.value.Image? <==> v.ImageValue? || (v.ContentValue? && v.content.Image?))
    ensures r.Ok? && v.ImageValue? ==> r.value.data == v.pixels && v.mimeType == Some(r.value.mimeType)
  {
    match v
    case ContentValue(c) => Ok(c)
    case StrValue(s) => Ok(Text(s))
    case ImageValue(p, m) => if m.Some? then Ok(Image(p, m.value)) else Err(MissingMimeType)
    case OtherValue(j, repr) => if j.Some? then Ok(Text(j.value)) else Ok(Text(repr))
  }

  /** A leaf's outcome as a one-item list. */
  function Single<T>(l: Result<T>): (r: Result<seq<T>>)
    ensures r.Err? <==> l.Err?
    ensures r.Err? ==> r.error == l.error
    ensures r.Ok? ==> r.value == [l.value]
  {
    match l
    case Ok(x) => Ok([x])
    case Err(e) => Err(e)
  }

  /** Two marshalled parts in evaluation order: an exception in the first
      propagates before the second is looked at. */
  function Then<T>(a: Result<seq<T>>, b: Result<seq<T>>): (r: Result<seq<T>>)
    ensures r.Err? <==> a.Err? || b.Err?
    ensures a.Err? ==> r == a
    ensures a.Ok? && b.Err? ==> r == b
    ensures r.Ok? ==> r.value == a.value + b.value
  {
    if a.Err? then a else if b.Err? then b else Ok(a.value + b.value)
  }

  /** The comprehension over a list's elements: the first exception in
      order propagates, otherwise the parts are concatenated. */
  function Collect<T>(parts: seq<Result<seq<T>>>): (r: Result<seq<T>>)
    ensures r.Err? <==> exists i :: 0 <= i < |parts| && parts[i].Err?
    ensures r.Err? ==> exists i :: 0 <= i < |parts| && parts[i] == r
                          && forall j :: 0 <= j < i ==> parts[j].Ok?
    decreases |parts|
  {
    if |parts| == 0 then Ok([]) else Then(parts[0], Collect(parts[1..]))
  }

  lemma {:induction false} ThenAssoc<T>(a: Result<seq<T>>, b: Result<seq<T>>, c: Result<seq<T>>)
    ensures Then(a, Then(b, c)) == Then(Then(a, b), c)
  {
    if a.Ok? && b.Ok? && c.Ok? {
      assert a.value + (b.value + c.value) == (a.value + b.value) + c.value;
    }
  }

  lemma {:induction false} CollectAppend<T>(a: seq<Result<seq<T>>>, b: seq<Result<seq<T>>>)
    ensures Collect(a + b) == Then(Collect(a), Collect(b))
    decreases |a|
  {
    if |a| == 0 {
      assert a + b == b;
      if Collect(b).Ok? {
        assert [] + Collect(b).value == Collect(b).value;
      }
    } else {
      assert (a + b)[1..] == a[1..] + b;
      CollectAppend(a[1..], b);
      ThenAssoc(a[0], Collect(a[1..]), Collect(b));
    }
  }

  /** `_marshal_result`: `None` gives nothing, a list or tuple the
      concatenation of its marshalled elements, anything else one item; the
      only exception it lets out is an image without a mime type. */
  function MarshalResult(v: Value): (r: Result<seq<Content>>)
    ensures v.NoneValue? ==> r == Ok([])
    ensures IsLeaf(v) ==> (r.Ok? <==> MarshalLeaf(v).Ok?)
    ensures IsLeaf(v) && r.Ok? ==> r.value == [MarshalLeaf(v).value]
    ensures r.Err? ==> r.error == MissingMimeType
    decreases v, 1
  {
    match v
    case NoneValue => Ok([])
    case SeqValue(items) => Collect(Parts(items))
    case _ => Single(MarshalLeaf(v))
  }

  /** The marshalled elements of a list, each on its own. */
  function Parts(items: seq<Value>): (r: seq<Result<seq<Content>>>)
    ensures |r| == |items|
    ensures forall i :: 0 <= i < |items| ==> r[i] == MarshalResult(items[i])
    decreases SeqValue(items), 0
  {
    seq(|items|, i requires 0 <= i < |items| => MarshalResult(items[i]))
  }

  /** Independent reference: the leaves of a value, depth first, left to right. */
  function Leaves(v: Value): seq<Value>
    decreases v
  {
    match v
    case NoneValue => []
    case SeqValue(items) => Concat(seq(|items|, i requires 0 <= i < |items| => Leaves(items[i])))
    case _ => [v]
  }

  /** The leaves marshalled one by one, in order. */
  function MapLeaves(ls: seq<Value>): (r: Result<seq<Content>>)
    requires forall i :: 0 <= i < |ls| ==> IsLeaf(ls[i])
    ensures r.Err? <==> exists i :: 0 <= i < |ls| && Untyped(ls[i])
    ensures r.Err? ==> r.error == MissingMimeType
    ensures r.Ok? ==> |r.value| == |ls| && forall i :: 0 <= i < |ls| ==> MarshalLeaf(ls[i]) == Ok(r.value[i])
    decreases |ls|
  {
    if |ls| == 0 then Ok([])
    else
      Then(Single(MarshalLeaf(ls[0])), MapLeaves(ls[1..]))
  }
  lemma {:induction false} LeavesAreLeaves(v: Value)
    ensures forall i :: 0 <= i < |Leaves(v)| ==> IsLeaf(Leaves(v)[i])
    decreases v
  {
    if v.SeqValue? {
      var items := v.items;
      var parts := seq(|items|, i requires 0 <= i < |items| => Leaves(items[i]));
      forall k | 0 <= k < |items| {
        LeavesAreLeaves(items[k]);
      }
      ConcatAllLeaves(parts);
    }
  }

  lemma {:induction false} ConcatAllLeaves(parts: seq<seq<Value>>)
    requires forall k, i :: 0 <= k < |parts| && 0 <= i < |parts[k]| ==> IsLeaf(parts[k][i])
    ensures forall i :: 0 <= i < |Concat(parts)| ==> IsLeaf(Concat(parts)[i])
    decreases |parts|
  {
    if |parts| > 0 {
      ConcatAllLeaves(parts[1..]);
    }
  }

  lemma {:induction false} MapLeavesAppend(a: seq<Value>, b: seq<Value>)
    requires forall i :: 0 <= i < |a| ==> IsLeaf(a[i])
    requires forall i :: 0 <= i < |b| ==> IsLeaf(b[i])
    ensures forall i :: 0 <= i < |a + b| ==> IsLeaf((a + b)[i])
    ensures MapLeaves(a + b) == Then(MapLeaves(a), MapLeaves(b))
    decreases |a|
  {
    if |a| == 0 {
      assert a + b == b;
      if MapLeaves(b).Ok? {
        assert [] + MapLeaves(b).value == MapLeaves(b).value;
      }
    } else {
      assert (a + b)[1..] == a[1..] + b;
      MapLeavesAppend(a[1..], b);
      ThenAssoc(Single(MarshalLeaf(a[0])), MapLeaves(a[1..]), MapLeaves(b));
    }
  }

  lemma {:induction false} MapLeavesConcat(parts: seq<seq<Value>>)
    requires forall k, i :: 0 <= k < |parts| && 0 <= i < |parts[k]| ==> IsLeaf(parts[k][i])
    ensures forall i :: 0 <= i < |Concat(parts)| ==> IsLeaf(Concat(parts)[i])
    ensures MapLeaves(Concat(parts))
            == Collect(seq(|parts|, k requires 0 <= k < |parts| => MapLeaves(parts[k])))
    decreases |parts|
  {
    ConcatAllLeaves(parts);
    if |parts| > 0 {
      MapLeavesConcat(parts[1..]);
      ConcatAllLeaves(parts[1..]);
      var tail := seq(|parts| - 1, k requires 0 <= k < |parts| - 1 => MapLeaves(parts[1..][k]));
      var whole := seq(|parts|, k requires 0 <= k < |parts| => MapLeaves(parts[k]));
      assert whole[1..] == tail;
      MapLeavesAppend(parts[0], Concat(parts[1..]));
    }
  }

  /** Marshalling is leaf-wise: the outcome is that of marshalling the
      leaves of the value one by one, depth first, so nesting flattens,
      `None` elements vanish and the first untyped image raises. */
  lemma {:induction false} MarshalIsLeafwise(v: Value)
    ensures forall i :: 0 <= i < |Leaves(v)| ==> IsLeaf(Leaves(v)[i])
    ensures MarshalResult(v) == MapLeaves(Leaves(v))
    decreases v
  {
    LeavesAreLeaves(v);
    if v.SeqValue? {
      var items := v.items;
      var parts := seq(|items|, i requires 0 <= i < |items| => Leaves(items[i]));
      forall k | 0 <= k < |items| {
        MarshalIsLeafwise(items[k]);
      }
      MapLeavesConcat(parts);
      assert Parts(items) == seq(|parts|, k requires 0 <= k < |parts| => MapLeaves(parts[k]));
    } else if IsLeaf(v) {
      assert Leaves(v) == [v];
      assert Leaves(v)[1..] == [];
      if MarshalLeaf(v).Ok? {
        assert [MarshalLeaf(v).value] + [] == [MarshalLeaf(v).value];
      }
    }
  }

  /** Marshalling raises exactly when some leaf is an image without a mime
      type, and then raises pydantic's validation error; otherwise every
      leaf gives one item, in order. */
  lemma MarshalFailsIff(v: Value)
    ensures MarshalResult(v).Err? <==> exists i :: 0 <= i < |Leaves(v)| && Untyped(Leaves(v)[i])
    ensures MarshalResult(v).Err? ==> MarshalResult(v) == Err(MissingMimeType)
    ensures MarshalResult(v).Ok? ==>
      && |MarshalResult(v).value| == |Leaves(v)|
      && forall i :: 0 <= i < |Leaves(v)| ==> IsLeaf(Leaves(v)[i]) && MarshalLeaf(Leaves(v)[i]) == Ok(MarshalResult(v).value[i])
  {
    MarshalIsLeafwise(v);
  }

  /** An image whose format has no mime type fails the whole call, however
      deeply it is nested. */
  lemma UntypedImageRaises(pixels: seq<byte>, before: seq<Value>, after: seq<Value>)
    ensures MarshalResult(SeqValue(before + [ImageValue(pixels, None)] + after)) == Err(MissingMimeType)
  {
    var xs := before + [ImageValue(pixels, None)] + after;
    assert xs[|before|] == ImageValue(pixels, None);
    assert Parts(xs)[|before|].Err?;
  }

  lemma PartsAppend(xs: seq<Value>, ys: seq<Value>)
    ensures Parts(xs + ys) == Parts(xs) + Parts(ys)
  {
  }

  /** A list marshals to its parts' results joined in order. */
  lemma MarshalAppend(xs: seq<Value>, ys: seq<Value>)
    ensures MarshalResult(SeqValue(xs + ys)) == Then(MarshalResult(SeqValue(xs)), MarshalResult(SeqValue(ys)))
  {
    PartsAppend(xs, ys);
    CollectAppend(Parts(xs), Parts(ys));
  }

  /** Wrapping a value in a one-element list or tuple changes nothing. */
  lemma MarshalSingleton(v: Value)
    ensures MarshalResult(SeqValue([v])) == MarshalResult(v)
  {
    var parts := Parts([v]);
    assert parts == [MarshalResult(v)];
    assert parts[1..] == [];
    assert Collect(parts) == Then(MarshalResult(v), Ok([]));
    if MarshalResult(v).Ok? {
      assert MarshalResult(v).value + [] == MarshalResult(v).value;
    }
  }

  /** The items as a list of content values. */
  function AsContentValues(cs: seq<Content>): (r: seq<Value>)
    ensures |r| == |cs|
  {
    seq(|cs|, i requires 0 <= i < |cs| => ContentValue(cs[i]))
  }

  lemma {:induction false} MarshalContentList(cs: seq<Content>)
    ensures MarshalResult(SeqValue(AsContentValues(cs))) == Ok(cs)
    decreases |cs|
  {
    if |cs| > 0 {
      MarshalContentList(cs[1..]);
      assert AsContentValues(cs) == [ContentValue(cs[0])] + AsContentValues(cs[1..]);
      MarshalAppend([ContentValue(cs[0])], AsContentValues(cs[1..]));
      MarshalSingleton(ContentValue(cs[0]));
      assert MarshalResult(ContentValue(cs[0])) == Ok([cs[0]]);
      assert [cs[0]] + cs[1..] == cs;
    } else {
      assert AsContentValues(cs) == [];
    }
  }

  /** Marshalling is idempotent: handing back an already-marshalled list
      yields that same list. */
  lemma MarshalIdempotent(v: Value)
    ensures MarshalResult(v).Ok? ==>
      MarshalResult(SeqValue(AsContentValues(MarshalResult(v).value))) == MarshalResult(v)
  {
    if MarshalResult(v).Ok? {
      MarshalContentList(MarshalResult(v).value);
    }
  }
}

=== FILE: models.dfy ===
/** Capability descriptors (`mcp/models.py`): frozen triples, so a Dafny
    datatype gives exactly their value semantics, rendered to strings. */
module Models {
  import opened Wrappers
  import opened Strings

  datatype ResourceMetadata = ResourceMetadata(server: string, service: string, kind: string)

  datatype PromptMetadata = PromptMetadata(server: string, service: string, kind: string)

  datatype ToolMetadata = ToolMetadata(server: string, service: string, name: string)

  /** `ResourceMetadata.__str__`: `{server}://{service}/{type}`. */
  function ResourceString(m: ResourceMetadata): (r: string)
    ensures StartsWith(r, m.server + "://" + m.service + "/")
    ensures EndsWith(r, m.kind)
  {
    m.server + "://" + m.service + "/" + m.kind
  }

  /** `PromptMetadata.__str__`: `{server}_{service}_{type}`. */
  function PromptString(m: PromptMetadata): (r: string)
    ensures StartsWith(r, m.server + "_" + m.service + "_")
    ensures EndsWith(r, m.kind)
  {
    m.server + "_" + m.service + "_" + m.kind
  }

  /** `ToolMetadata.__str__`: `{server}_{service}_{name}`. */
  function ToolString(m: ToolMetadata): (r: string)
    ensures StartsWith(r, m.server + "_" + m.service + "_")
  {
    m.server + "_" + m.service + "_" + m.name
  }

  /** Splits a tool or prompt address at its first two underscores into
      (server, service, local name). */
  function ParseUnderscored(s: string): Option<(string, string, string)> {
    var parts := Split(s, '_');
    if |parts| < 3 then None else Some((parts[0], parts[1], Join("_", parts[2..])))
  }

  /** Splits `{server}://{service}/{type}` at the first `:` and the first `/`
      after the `//`. */
  function ParseResource(s: string): Option<ResourceMetadata> {
    var server := Split(s, ':')[0];
    if |server| + 3 > |s| || s[|server|..|server| + 3] != "://" then None
    else
      var rest := s[|server| + 3..];
      var parts := Split(rest, '/');
      if |parts| < 2 then None else Some(ResourceMetadata(server, parts[0], Join("/", parts[1..])))
  }

  lemma UnderscoredRoundTrip(a: string, b: string, c: string)
    requires '_' !in a && '_' !in b
    ensures ParseUnderscored(a + "_" + b + "_" + c) == Some((a, b, c))
  {
    SplitTwoFields(a, b, c, '_');
    var parts := Split(a + "_" + b + "_" + c, '_');
    assert parts[2..] == Split(c, '_');
    JoinSplit(c, '_');
  }

  /** A tool address whose server and service contain no `_` parses back to
      its descriptor, so such descriptors have distinct addresses. */
  lemma ToolRoundTrip(m: ToolMetadata)
    requires '_' !in m.server && '_' !in m.service
    ensures ParseUnderscored(ToolString(m)) == Some((m.server, m.service, m.name))
  {
    UnderscoredRoundTrip(m.server, m.service, m.name);
  }

  lemma PromptRoundTrip(m: PromptMetadata)
    requires '_' !in m.server && '_' !in m.service
    ensures ParseUnderscored(PromptString(m)) == Some((m.server, m.service, m.kind))
  {
    UnderscoredRoundTrip(m.server, m.service, m.kind);
  }

  lemma ToolStringInjective(m1: ToolMetadata, m2: ToolMetadata)
    requires '_' !in m1.server && '_' !in m1.service
    requires '_' !in m2.server && '_' !in m2.service
    requires ToolString(m1) == ToolString(m2)
    ensures m1 == m2
  {
    ToolRoundTrip(m1);
    ToolRoundTrip(m2);
  }

  /** The scheme part of a resource address ends at the first `:`. */
  lemma ResourceSchemePart(m: ResourceMetadata)
    requires ':' !in m.server
    ensures var s := ResourceString(m);
      && Split(s, ':')[0] == m.server
      && |m.server| + 3 <= |s|
      && s[|m.server|..|m.server| + 3] == "://"
      && s[|m.server| + 3..] == m.service + ['/'] + m.kind
  {
    ResourceSplitsAtColon(m);
    ResourceAfterServer(m);
  }

  lemma ResourceSplitsAtColon(m: ResourceMetadata)
    requires ':' !in m.server
    ensures Split(ResourceString(m), ':')[0] == m.server
  {
    var tail := "//" + m.service + "/" + m.kind;
    assert ResourceString(m) == m.server + [':'] + tail;
    SplitAtFirstSep(m.server, ':', tail);
  }

  lemma ResourceAfterServer(m: ResourceMetadata)
    ensures var s, n := ResourceString(m), |m.server|;
      && n + 3 <= |s|
      && s[n..n + 3] == "://"
      && s[n + 3..] == m.service + ['/'] + m.kind
  {
    var rest := m.service + ['/'] + m.kind;
    var s, n := ResourceString(m), |m.server|;
    assert s == m.server + ("://" + rest);
    assert s[n..] == "://" + rest;
    assert s[n..][..3] == "://";
  }

  /** The service part ends at the first `/`; the rest is the type. */
  lemma ResourcePathPart(service: string, kind: string)
    requires '/' !in service
    ensures var parts := Split(service + ['/'] + kind, '/');
      |parts| >= 2 && parts[0] == service && Join("/", parts[1..]) == kind
  {
    SplitAtFirstSep(service, '/', kind);
    var parts := Split(service + ['/'] + kind, '/');
    assert parts[1..] == Split(kind, '/');
    JoinSplit(kind, '/');
  }

  /** A resource address whose server has no `:` and whose service has no `/`
      parses back to its descriptor. */
  lemma ResourceRoundTrip(m: ResourceMetadata)
    requires ':' !in m.server && '/' !in m.service
    ensures ParseResource(ResourceString(m)) == Some(m)
  {
    ResourceSchemePart(m);
    ResourcePathPart(m.service, m.kind);
  }
}

=== FILE: protocol.dfy ===
/** The MCP protocol types the core produces: the content union, resources,
    prompts and tools, as defined by the `mcp.types` module the server uses. */
module Protocol {
  import opened Wrappers
  import opened Json

  newtype byte = x: int | 0 <= x < 256

  datatype ResourceContents =
    | TextResource(uri: string, mimeType: Option<string>, text: string)
    | BlobResource(uri: string, mimeType: Option<string>, blob: seq<byte>)

  /** `TextContent | ImageContent | EmbeddedResource`. Image data is kept as
      raw bytes; the base64 text encoding is not modelled. */
  datatype Content =
    | Text(text: string)
    | Image(data: seq<byte>, mimeType: string)
    | Embedded(resource: ResourceContents)

  /** A resource URI as parsed by pydantic's `AnyUrl`. */
  datatype Uri = Uri(scheme: string, host: Option<string>, path: Option<string>)

  datatype Resource = Resource(uri: Uri, name: string, description: Option<string>, mimeType: Option<string>)

  datatype PromptArgument = PromptArgument(name: string, description: Option<string>, required: bool)

  datatype Prompt = Prompt(name: string, description: Option<string>, arguments: seq<PromptArgument>)

  datatype Role = User | Assistant

  datatype PromptMessage = PromptMessage(role: Role, content: Content)

  datatype GetPromptResult = GetPromptResult(description: Option<string>, messages: seq<PromptMessage>)

  datatype Tool = Tool(name: string, description: string, inputSchema: Json)

  /** The empty prompt result the server returns for an unknown prompt. */
  const EmptyPromptResult := GetPromptResult(None, [])
}

=== FILE: server.dfy ===
/** The dispatcher (`mcp/server.py`): routing of tool, prompt and resource
    requests to providers, the aggregated listings, and aggregate health. */
module Server {
  import opened Wrappers
  import opened Strings
  import opened Json
  import opened Protocol
  import opened Marshal
  import opened Context
  import opened Decorators
  import opened Service

  /** An `MCPServer`: one instance of every discovered provider, in
      discovery order. */
  datatype Server = Server(services: seq<Provider>)

  /** `MCPServer.__init__`: instantiates every discovered provider class. */
  function NewServer(entries: seq<EntryPoint>): (s: Server)
    ensures s.services == GetServices(entries)
  {
    Server(GetServices(entries))
  }

  /** `get_context`: the current request context if a request is in flight
      (`None` outside one), always attached to this server, which has no
      `read_resource` method (it registers `resource_get` with the
      low-level server instead). */
  function GetContext(current: Option<RequestContext>): (c: McpContext)
    ensures c.requestContext == current
    ensures Mcp(c).Ok?
  {
    McpContext(current, Some(ServerHandle(false)))
  }

  /** Outside a request, every part of the server's context that reads the
      request raises `ValueError` and nothing is sent; the server itself is
      still reachable. */
  lemma ContextOutsideRequest(sent: seq<Notification>, progress: real, total: Option<real>, level: Level, message: string)
    ensures var c := GetContext(None);
      && Mcp(c).Ok?
      && GetRequestContext(c) == Err(ValueError(NotAvailable))
      && ReportProgress(c, sent, progress, total) == Err(ValueError(NotAvailable))
      && Log(c, sent, level, message, None).Err?
      && ClientId(c).Err? && RequestIdOf(c).Err?
  {
  }

  /** Inside a request, the context answers with that request: its id, its
      client, and its progress token for progress reports. */
  lemma ContextInsideRequest(rc: RequestContext, sent: seq<Notification>, level: Level, message: string)
    ensures var c := GetContext(Some(rc));
      && GetRequestContext(c) == Ok(rc)
      && RequestIdOf(c) == Ok(IdString(rc.requestId))
      && ClientId(c) == Ok(if rc.meta.Some? then rc.meta.value.clientId else None)
      && Log(c, sent, level, message, None) == Ok(sent + [LogNotification(level, message, None)])
  {
  }

  /** As written, reading a resource through a context the server built
      raises `AttributeError`, inside or outside a request, whatever the
      providers could answer. */
  lemma ContextReadResourceRaises<C>(current: Option<RequestContext>, uri: Uri, read: Uri -> Result<C>)
    ensures ReadResource(GetContext(current), uri, read) == Err(AttributeError("read_resource"))
    ensures GetRequestContext(GetContext(current)).Ok? <==> current.Some?
  {
  }

  /** The evidently intended context: attached to a server whose
      `read_resource` is its own `resource_get`. */
  function GetContextIntended(current: Option<RequestContext>): (c: McpContext)
    ensures c.requestContext == current
    ensures Mcp(c).Ok? && c.mcp.value.hasReadResource
  {
    McpContext(current, Some(ServerHandle(true)))
  }

  /** Through the intended context, a resource read is answered by the first
      provider that knows the URI, and fails with `ValueError` when none does. */
  lemma ContextReadResourceRoutes(s: Server, current: Option<RequestContext>, uri: Uri, i: nat)
    requires AnswersFirst(s.services, uri, i)
    ensures var r := ReadResource(GetContextIntended(current), uri, u => ResourceGet(s, u));
      r == (match s.services[i].readResource(uri)
            case Err(e) => Err(e)
            case Ok(o) => Ok(o.value))
  {
  }

  lemma ContextReadResourceUnknown(s: Server, current: Option<RequestContext>, uri: Uri)
    requires forall j :: 0 <= j < |s.services| ==> s.services[j].readResource(uri) == Ok(None)
    ensures ReadResource(GetContextIntended(current), uri, u => ResourceGet(s, u))
              == Err(ValueError("No service found for URI: " + UriText(uri)))
  {
  }

  predicate Owns(p: Provider, name: string) {
    StartsWith(name, ServicePrefix(p.modulePath))
  }

  /** The first provider, in registration order, whose prefix starts `name`. */
  function FirstMatch(services: seq<Provider>, name: string): (r: Option<nat>)
    ensures r.Some? ==> r.value < |services| && Owns(services[r.value], name)
    ensures r.Some? ==> forall j :: 0 <= j < r.value ==> !Owns(services[j], name)
    ensures r.None? ==> forall j :: 0 <= j < |services| ==> !Owns(services[j], name)
    decreases |services|
  {
    if |services| == 0 then None
    else if Owns(services[0], name) then Some(0)
    else
      var r := FirstMatch(services[1..], name);
      if r.Some? then Some(r.value + 1) else None
  }

  /** The keyword arguments a method receives: a copy of the caller's
      arguments without the reserved `context` key (the injected context is
      passed separately and always wins). `None` or `{}` pass nothing. */
  function CallArgs<V>(arguments: Option<map<string, V>>): (r: map<string, V>)
    ensures "context" !in r
    ensures arguments.None? ==> r == map[]
    ensures arguments.Some? ==> r.Keys == arguments.value.Keys - {"context"}
    ensures arguments.Some? ==> forall k :: k in r ==> r[k] == arguments.value[k]
  {
    if arguments.None? then map[] else arguments.value - {"context"}
  }

  /** Marshals a method's return value; an exception from the method or
      from marshalling propagates. */
  function MarshalOutcome(v: Result<Value>): (r: Result<seq<Content>>)
    ensures v.Err? ==> r == Err(v.error)
    ensures v.Ok? ==> r == MarshalResult(v.value)
    ensures r.Err? ==> v.Err? || r.error == MissingMimeType
  {
    match v
    case Ok(x) => MarshalResult(x)
    case Err(e) => Err(e)
  }

  /** `tool_call`: the first provider whose prefix starts the name handles
      the call; its attribute of that name is called with the stripped
      arguments and the server's context for the request in flight
      (`current`), and the result is marshalled. */
  function ToolCall(s: Server, current: Option<RequestContext>, name: string, arguments: Option<Args>): (r: Result<seq<Content>>)
    ensures FirstMatch(s.services, name).None? ==> r == Err(ValueError("Unknown tool: " + name))
    ensures FirstMatch(s.services, name).Some? ==>
      var f := GetAttr(s.services[FirstMatch(s.services, name).value].members, name);
      && (f.None? ==> r == Err(AttributeError(name)))
      && (f.Some? ==> r == MarshalOutcome(f.value.call(CallArgs(arguments), GetContext(current))))
  {
    match FirstMatch(s.services, name)
    case None => Err(ValueError("Unknown tool: " + name))
    case Some(i) =>
      match GetAttr(s.services[i].members, name)
      case None => Err(AttributeError(name))
      case Some(f) => MarshalOutcome(f.call(CallArgs(arguments), GetContext(current)))
  }

  /** `prompt_get`: the same prefix rule, calling `mcp_prompt_{name}`; an
      unmatched name yields the empty prompt result rather than an error. */
  function PromptGet(s: Server, current: Option<RequestContext>, name: string, arguments: Option<PromptArgs>): (r: Result<GetPromptResult>)
    ensures FirstMatch(s.services, name).None? ==> r == Ok(EmptyPromptResult)
    ensures FirstMatch(s.services, name).Some? ==>
      var pm := GetPromptAttr(s.services[FirstMatch(s.services, name).value].promptMembers, "mcp_prompt_" + name);
      && (pm.None? ==> r == Err(AttributeError("mcp_prompt_" + name)))
      && (pm.Some? ==> r == pm.value.call(CallArgs(arguments), GetContext(current)))
  {
    match FirstMatch(s.services, name)
    case None => Ok(EmptyPromptResult)
    case Some(i) =>
      match GetPromptAttr(s.services[i].promptMembers, "mcp_prompt_" + name)
      case None => Err(AttributeError("mcp_prompt_" + name))
      case Some(pm) => pm.call(CallArgs(arguments), GetContext(current))
  }

  /** `str()` of a resource URI. */
  function UriText(u: Uri): string {
    u.scheme + "://" + u.host.GetOr("") + u.path.GetOr("")
  }

  /** `resource_get` over the providers from index `from` on. */
  function ResourceGetFrom(services: seq<Provider>, uri: Uri, from: nat): (r: Result<string>)
    requires from <= |services|
    decreases |services| - from
  {
    if from == |services| then Err(ValueError("No service found for URI: " + UriText(uri)))
    else
      match services[from].readResource(uri)
      case Err(e) => Err(e)
      case Ok(Some(text)) => Ok(text)
      case Ok(None) => ResourceGetFrom(services, uri, from + 1)
  }

  /** Provider `i` is the first to answer `uri`: every provider before it
      returned `None`. */
  predicate AnswersFirst(services: seq<Provider>, uri: Uri, i: nat) {
    i < |services| && services[i].readResource(uri) != Ok(None)
    && forall j :: 0 <= j < i ==> services[j].readResource(uri) == Ok(None)
  }

  lemma {:induction false} ResourceGetFromSpec(services: seq<Provider>, uri: Uri, from: nat)
    requires from <= |services|
    ensures var r := ResourceGetFrom(services, uri, from);
      && ((forall j :: from <= j < |services| ==> services[j].readResource(uri) == Ok(None))
            ==> r == Err(ValueError("No service found for URI: " + UriText(uri))))
      && (forall i :: from <= i < |services| && services[i].readResource(uri) != Ok(None)
            && (forall j :: from <= j < i ==> services[j].readResource(uri) == Ok(None))
            ==> r == (match services[i].readResource(uri)
                      case Err(e) => Err(e)
                      case Ok(o) => Ok(o.value)))
    decreases |services| - from
  {
    if from < |services| {
      ResourceGetFromSpec(services, uri, from + 1);
    }
  }

  /** `resource_get`: the answer of the first provider that does not return
      `None` (an exception it raises propagates); if all return `None`, a
      `ValueError` naming the URI. */
  function ResourceGet(s: Server, uri: Uri): (r: Result<string>)
    ensures (forall j :: 0 <= j < |s.services| ==> s.services[j].readResource(uri) == Ok(None))
            ==> r == Err(ValueError("No service found for URI: " + UriText(uri)))
    ensures forall i: nat :: AnswersFirst(s.services, uri, i) ==>
              r == (match s.services[i].readResource(uri)
                    case Err(e) => Err(e)
                    case Ok(o) => Ok(o.value))
  {
    ResourceGetFromSpec(s.services, uri, 0);
    ResourceGetFrom(s.services, uri, 0)
  }

  /** Concatenates per-provider listings in provider order; the first
      provider that raises ends the listing with its exception. */
  function ConcatListings<T>(ls: seq<Result<seq<T>>>): (r: Result<seq<T>>)
    ensures r.Ok? <==> forall i :: 0 <= i < |ls| ==> ls[i].Ok?
    ensures r.Err? ==> exists i :: 0 <= i < |ls| && ls[i] == Err(r.error)
                                   && forall j :: 0 <= j < i ==> ls[j].Ok?
    decreases |ls|
  {
    if |ls| == 0 then Ok([])
    else match ls[0]
      case Err(e) =>
        assert ls[0] == Err(e);
        Err(e)
      case Ok(first) =>
        var rest := ConcatListings(ls[1..]);
        if rest.Err? then
          assert exists i :: 1 <= i < |ls| && ls[i] == Err(rest.error) && forall j :: 0 <= j < i ==> ls[j].Ok? by {
            var i :| 0 <= i < |ls[1..]| && ls[1..][i] == Err(rest.error) && forall j :: 0 <= j < i ==> ls[1..][j].Ok?;
            assert ls[i + 1] == Err(rest.error);
            assert forall j :: 1 <= j < i + 1 ==> ls[j] == ls[1..][j - 1];
          }
          Err(rest.error)
        else Ok(first + rest.value)
  }

  /** An item is listed iff some provider's own listing holds it. */
  lemma {:induction false} ConcatListingsMembers<T>(ls: seq<Result<seq<T>>>, x: T)
    requires forall i :: 0 <= i < |ls| ==> ls[i].Ok?
    ensures x in ConcatListings(ls).value <==> exists i :: 0 <= i < |ls| && x in ls[i].value
    decreases |ls|
  {
    if |ls| > 0 {
      ConcatListingsMembers(ls[1..], x);
      if exists i :: 0 <= i < |ls| && x in ls[i].value {
        var i :| 0 <= i < |ls| && x in ls[i].value;
        if i > 0 {
          assert x in ls[1..][i - 1].value;
        }
      }
      if x in ConcatListings(ls[1..]).value {
        var i :| 0 <= i < |ls[1..]| && x in ls[1..][i].value;
        assert x in ls[i + 1].value;
      }
    }
  }

  /** Listings compose: the listing of two groups of providers is the first
      group's listing followed by the second's. */
  lemma {:induction false} ConcatListingsAppend<T>(a: seq<Result<seq<T>>>, b: seq<Result<seq<T>>>)
    requires forall i :: 0 <= i < |a| ==> a[i].Ok?
    requires forall i :: 0 <= i < |b| ==> b[i].Ok?
    ensures ConcatListings(a + b) == Ok(ConcatListings(a).value + ConcatListings(b).value)
    decreases |a|
  {
    if |a| == 0 {
      assert a + b == b;
      assert ConcatListings(a).value == [];
      assert ConcatListings(b).Ok?;
      assert ConcatListings(a).value + ConcatListings(b).value == ConcatListings(b).value;
    } else {
      assert (a + b)[0] == a[0];
      assert (a + b)[1..] == a[1..] + b;
      ConcatListingsAppend(a[1..], b);
      var first, restA, restB := a[0].value, ConcatListings(a[1..]).value, ConcatListings(b).value;
      assert ConcatListings(a + b) == Ok(first + (restA + restB));
      assert first + (restA + restB) == (first + restA) + restB;
    }
  }

  /** Each provider's own resource listing, in provider order. */
  function ResourceListings(services: seq<Provider>): (r: seq<Result<seq<Resource>>>)
    ensures |r| == |services| && forall i :: 0 <= i < |services| ==> r[i] == services[i].resources
  {
    seq(|services|, i requires 0 <= i < |services| => services[i].resources)
  }

  /** Each provider's own prompt listing, in provider order. */
  function PromptListings(services: seq<Provider>): (r: seq<Result<seq<Prompt>>>)
    ensures |r| == |services| && forall i :: 0 <= i < |services| ==> r[i] == services[i].prompts
  {
    seq(|services|, i requires 0 <= i < |services| => services[i].prompts)
  }

  /** Each provider's own tool listing, in provider order. */
  function ToolListings(services: seq<Provider>): (r: seq<Result<seq<Tool>>>)
    ensures |r| == |services| && forall i :: 0 <= i < |services| ==> r[i] == Ok(ToolList(services[i]))
  {
    seq(|services|, i requires 0 <= i < |services| => Ok(ToolList(services[i])))
  }

  /** `list_resources`: every provider's resources, in provider order. */
  function ResourceList(s: Server): (r: Result<seq<Resource>>)
    ensures r.Ok? <==> forall i :: 0 <= i < |s.services| ==> s.services[i].resources.Ok?
    ensures r.Err? ==> exists i :: 0 <= i < |s.services| && s.services[i].resources == Err(r.error)
                                   && forall j :: 0 <= j < i ==> s.services[j].resources.Ok?
  {
    var ls := ResourceListings(s.services);
    assert forall i :: 0 <= i < |ls| ==> ls[i] == s.services[i].resources;
    ConcatListings(ls)
  }

  /** A resource is listed iff some provider lists it itself. */
  lemma ResourceListMembers(s: Server, x: Resource)
    requires forall i :: 0 <= i < |s.services| ==> s.services[i].resources.Ok?
    ensures ResourceList(s).Ok?
    ensures x in ResourceList(s).value <==> exists i :: 0 <= i < |s.services| && x in s.services[i].resources.value
  {
    var ls := ResourceListings(s.services);
    assert forall i :: 0 <= i < |ls| ==> ls[i] == s.services[i].resources;
    assert ResourceList(s) == ConcatListings(ls);
    ConcatListingsMembers(ls, x);
  }

  /** `list_prompts`: every provider's prompts, in provider order. */
  function PromptList(s: Server): (r: Result<seq<Prompt>>)
    ensures r.Ok? <==> forall i :: 0 <= i < |s.services| ==> s.services[i].prompts.Ok?
    ensures r.Err? ==> exists i :: 0 <= i < |s.services| && s.services[i].prompts == Err(r.error)
                                   && forall j :: 0 <= j < i ==> s.services[j].prompts.Ok?
  {
    var ls := PromptListings(s.services);
    assert forall i :: 0 <= i < |ls| ==> ls[i] == s.services[i].prompts;
    ConcatListings(ls)
  }

  /** A prompt is listed iff some provider lists it itself. */
  lemma PromptListMembers(s: Server, x: Prompt)
    requires forall i :: 0 <= i < |s.services| ==> s.services[i].prompts.Ok?
    ensures PromptList(s).Ok?
    ensures x in PromptList(s).value <==> exists i :: 0 <= i < |s.services| && x in s.services[i].prompts.value
  {
    var ls := PromptListings(s.services);
    assert forall i :: 0 <= i < |ls| ==> ls[i] == s.services[i].prompts;
    assert PromptList(s) == ConcatListings(ls);
    ConcatListingsMembers(ls, x);
  }

  /** `list_tools`: every provider's tools, in provider order; building a
      tool list never raises. */
  function ToolListAll(s: Server): (r: Result<seq<Tool>>)
    ensures r.Ok?
  {
    var ls := ToolListings(s.services);
    assert forall i :: 0 <= i < |ls| ==> ls[i].Ok?;
    ConcatListings(ls)
  }

  /** Every listed tool is one some provider lists itself, and vice versa. */
  lemma ToolListAllMembers(s: Server, t: Tool)
    ensures ToolListAll(s).Ok?
    ensures t in ToolListAll(s).value <==> exists i :: 0 <= i < |s.services| && t in ToolList(s.services[i])
  {
    var ls := ToolListings(s.services);
    assert forall i :: 0 <= i < |ls| ==> ls[i] == Ok(ToolList(s.services[i]));
    assert ToolListAll(s) == ConcatListings(ls);
    ConcatListingsMembers(ls, t);
  }

  /** Aggregate health report. */
  datatype Health = Health(healthy: bool, dependencies: map<string, string>)

  /** The dependency map built over the providers in order: each provider's
      status under its service name, a later provider overwriting an earlier
      one of the same name. The first name lookup or `health()` that raises
      ends the check with that exception. */
  function Dependencies(services: seq<Provider>): (r: Result<map<string, string>>)
    ensures r.Ok? <==> AllReport(services)
    decreases |services|
  {
    if |services| == 0 then Ok(map[])
    else
      var deps :- Dependencies(services[..|services| - 1]);
      var last := services[|services| - 1];
      var name :- ServiceName(last.modulePath);
      var status :- last.health;
      Ok(deps[name := status])
  }

  /** `get_health`: healthy iff every reported status is exactly `"UP"`
      (vacuously so with no providers). */
  function GetHealth(services: seq<Provider>): (r: Result<Health>)
    ensures r.Ok? <==> Dependencies(services).Ok?
    ensures r.Ok? ==> r.value.dependencies == Dependencies(services).value
    ensures r.Ok? ==> (r.value.healthy <==> forall k :: k in r.value.dependencies ==> r.value.dependencies[k] == "UP")
  {
    var deps :- Dependencies(services);
    Ok(Health(forall k :: k in deps ==> deps[k] == "UP", deps))
  }

  /** Every provider has a service name and reports a status. */
  predicate AllReport(services: seq<Provider>) {
    forall i :: 0 <= i < |services| ==> ServiceName(services[i].modulePath).Ok? && services[i].health.Ok?
  }

  function NameOf(p: Provider): string
    requires ServiceName(p.modulePath).Ok?
  {
    ServiceName(p.modulePath).value
  }

  predicate DistinctNames(services: seq<Provider>)
    requires AllReport(services)
  {
    forall i, j :: 0 <= i < j < |services| ==> NameOf(services[i]) != NameOf(services[j])
  }

  /** Without an exception, the dependency map's keys are exactly the
      service names. */
  lemma {:induction false} DependenciesKeys(services: seq<Provider>, k: string)
    requires AllReport(services)
    ensures Dependencies(services).Ok?
    ensures k in Dependencies(services).value <==> exists i :: 0 <= i < |services| && NameOf(services[i]) == k
    decreases |services|
  {
    if |services| > 0 {
      var init := services[..|services| - 1];
      DependenciesKeys(init, k);
      assert forall i :: 0 <= i < |init| ==> init[i] == services[i];
      if exists i :: 0 <= i < |services| && NameOf(services[i]) == k {
        var i :| 0 <= i < |services| && NameOf(services[i]) == k;
        if i < |init| {
          assert NameOf(init[i]) == k;
        }
      }
    }
  }

  /** Each name maps to the status of the last provider of that name. */
  lemma {:induction false} DependenciesLastWins(services: seq<Provider>, i: nat)
    requires AllReport(services)
    requires i < |services|
    requires forall j :: i < j < |services| ==> NameOf(services[j]) != NameOf(services[i])
    ensures Dependencies(services).Ok?
    ensures NameOf(services[i]) in Dependencies(services).value
    ensures Dependencies(services).value[NameOf(services[i])] == services[i].health.value
    decreases |services|
  {
    var init := services[..|services| - 1];
    if i < |init| {
      assert forall j :: 0 <= j < |init| ==> init[j] == services[j];
      DependenciesLastWins(init, i);
    }
  }

  /** With distinct service names, aggregate health is UP iff every provider
      reports exactly `"UP"`: a single DOWN provider flips it. */
  lemma HealthyIffAllUp(services: seq<Provider>)
    requires AllReport(services)
    requires DistinctNames(services)
    ensures GetHealth(services).Ok?
    ensures GetHealth(services).value.healthy <==> forall i :: 0 <= i < |services| ==> services[i].health == Ok("UP")
  {
    var deps := Dependencies(services).value;
    if forall i :: 0 <= i < |services| ==> services[i].health == Ok("UP") {
      forall k | k in deps
        ensures deps[k] == "UP"
      {
        DependenciesKeys(services, k);
        var i :| 0 <= i < |services| && NameOf(services[i]) == k;
        DependenciesLastWins(services, i);
      }
    }
    if forall k :: k in deps ==> deps[k] == "UP" {
      forall i | 0 <= i < |services|
        ensures services[i].health == Ok("UP")
      {
        DependenciesLastWins(services, i);
      }
    }
  }

  /** A later provider with the same service name hides an earlier one's
      status: the dependency map keeps one entry per name. */
  lemma LaterProviderOverwrites(earlier: Provider, later: Provider)
    requires ServiceName(earlier.modulePath).Ok? && ServiceName(later.modulePath).Ok?
    requires ServiceName(earlier.modulePath) == ServiceName(later.modulePath)
    requires earlier.health == Ok("DOWN") && later.health == Ok("UP")
    ensures GetHealth([earlier, later]).Ok? && GetHealth([earlier, later]).value.healthy
  {
    var n := ServiceName(earlier.modulePath).value;
    assert [earlier, later][..1] == [earlier];
    assert [earlier][..0] == [];
    assert Dependencies([earlier]) == Ok(map[n := "DOWN"]);
    assert Dependencies([earlier, later]) == Ok(map[n := "DOWN"][n := "UP"]);
    assert map[n := "DOWN"][n := "UP"] == map[n := "UP"];
  }

  lemma {:induction false} PrefixesUnrelated(a1: string, b1: string, a2: string, b2: string, t: string)
    requires '_' !in a1 && '_' !in b1 && '_' !in a2 && '_' !in b2
    requires a2 + "_" + b2 + "_" == a1 + "_" + b1 + "_" + t
    ensures a1 == a2 && b1 == b2
  {
    SplitTwoFields(a1, b1, t, '_');
    SplitTwoFields(a2, b2, "", '_');
    assert a2 + "_" + b2 + "_" == a2 + "_" + b2 + "_" + "";
    var parts := Split(a2 + "_" + b2 + "_", '_');
    assert parts[0] == a1 && parts[1] == b1;
  }

  /** Module paths of the form `a.b.rest` with `_`-free components. */
  ghost predicate Canonical(modulePath: string) {
    exists a: string, b: string, rest: string ::
      '.' !in a && '.' !in b && '_' !in a && '_' !in b && modulePath == a + "." + b + "." + rest
  }

  /** The prefix of a canonical module path is `a_b_` for `_`-free parts. */
  lemma CanonicalParts(modulePath: string) returns (a: string, b: string)
    requires Canonical(modulePath)
    ensures '_' !in a && '_' !in b && ServicePrefix(modulePath) == a + "_" + b + "_"
  {
    var rest: string;
    a, b, rest :| '.' !in a && '.' !in b && '_' !in a && '_' !in b && modulePath == a + "." + b + "." + rest;
    PrefixOfModule(a, b, rest);
  }

  /** Providers in canonical modules with different (package, service) pairs
      never both own a name: routing does not depend on registration order. */
  lemma AtMostOneOwner(p: Provider, q: Provider, name: string)
    requires Canonical(p.modulePath) && Canonical(q.modulePath)
    requires ServicePrefix(p.modulePath) != ServicePrefix(q.modulePath)
    ensures !(Owns(p, name) && Owns(q, name))
  {
    var a1, b1 := CanonicalParts(p.modulePath);
    var a2, b2 := CanonicalParts(q.modulePath);
    var p1, p2 := ServicePrefix(p.modulePath), ServicePrefix(q.modulePath);
    if p1 <= name && p2 <= name {
      if |p1| <= |p2| {
        assert p2[..|p1|] == p1;
        assert p2 == p1 + p2[|p1|..];
        PrefixesUnrelated(a1, b1, a2, b2, p2[|p1|..]);
      } else {
        assert p1[..|p2|] == p2;
        assert p1 == p2 + p1[|p2|..];
        PrefixesUnrelated(a2, b2, a1, b1, p1[|p2|..]);
      }
    }
  }

  /** So a tool call reaches the one provider owning the name, wherever it
      sits in the registration order. */
  lemma RoutesToOwner(s: Server, i: nat, name: string)
    requires i < |s.services| && Owns(s.services[i], name)
    requires forall j :: 0 <= j < |s.services| ==> Canonical(s.services[j].modulePath)
    requires forall j :: 0 <= j < |s.services| && j != i ==>
               ServicePrefix(s.services[j].modulePath) != ServicePrefix(s.services[i].modulePath)
    ensures FirstMatch(s.services, name) == Some(i)
  {
    var r := FirstMatch(s.services, name);
    if r != Some(i) {
      if r.Some? {
        AtMostOneOwner(s.services[r.value], s.services[i], name);
      }
    }
  }

  /** An empty listing at the end of the list changes no outcome. */
  lemma {:induction false} ConcatListingsEmptyTail<T>(a: seq<Result<seq<T>>>)
    ensures ConcatListings(a + [Ok([])]) == ConcatListings(a)
    decreases |a|
  {
    if |a| == 0 {
      var empty: seq<T> := [];
      var tail: seq<Result<seq<T>>> := [Ok(empty)];
      assert a + tail == tail;
      assert tail[1..] == [];
      assert empty + empty == empty;
      assert ConcatListings(tail) == Ok(empty);
    } else {
      assert (a + [Ok([])])[0] == a[0];
      assert (a + [Ok([])])[1..] == a[1..] + [Ok([])];
      ConcatListingsEmptyTail(a[1..]);
    }
  }

  /** Resource reads skip a trailing provider that answers `None`. */
  lemma {:induction false} ResourceGetFromSilentTail(services: seq<Provider>, p: Provider, uri: Uri, from: nat)
    requires from <= |services|
    requires p.readResource(uri) == Ok(None)
    ensures ResourceGetFrom(services + [p], uri, from) == ResourceGetFrom(services, uri, from)
    decreases |services| - from
  {
    var extended := services + [p];
    if from < |services| {
      assert extended[from] == services[from];
      ResourceGetFromSilentTail(services, p, uri, from + 1);
    } else {
      assert extended[from] == p;
    }
  }

  lemma BaseProviderResources(services: seq<Provider>, base: Provider)
    requires base.resources == Ok([]) && base.prompts == Ok([])
    ensures ResourceList(Server(services + [base])) == ResourceList(Server(services))
  {
    assert ResourceListings(services + [base]) == ResourceListings(services) + [Ok([])];
    ConcatListingsEmptyTail(ResourceListings(services));
  }

  lemma BaseProviderPrompts(services: seq<Provider>, base: Provider)
    requires base.resources == Ok([]) && base.prompts == Ok([])
    ensures PromptList(Server(services + [base])) == PromptList(Server(services))
  {
    assert PromptListings(services + [base]) == PromptListings(services) + [Ok([])];
    ConcatListingsEmptyTail(PromptListings(services));
  }

  lemma ToolListAllAppend(services: seq<Provider>, p: Provider)
    ensures ToolListAll(Server(services + [p])).value == ToolListAll(Server(services)).value + ToolList(p)
  {
    var last: seq<Result<seq<Tool>>> := [Ok(ToolList(p))];
    assert ToolListings(services + [p]) == ToolListings(services) + last;
    ConcatListingsAppend(ToolListings(services), last);
    assert last[1..] == [];
    assert ConcatListings(last[1..]) == Ok([]);
    assert ConcatListings(last).value == ToolList(p) + [];
  }

  /** A provider that keeps the base-class defaults adds nothing to the
      resource and prompt listings and answers no resource read, so
      registering it after the others changes none of their answers; the
      tool listing only gains its own tools, at the end. */
  lemma BaseProviderInvisible(services: seq<Provider>, modulePath: string, members: seq<Member>,
                              promptMembers: seq<PromptMember>, uri: Uri)
    ensures var base := BaseProvider(modulePath, members, promptMembers);
      var s, s' := Server(services), Server(services + [base]);
      && ResourceList(s') == ResourceList(s)
      && PromptList(s') == PromptList(s)
      && ToolListAll(s').value == ToolListAll(s).value + ToolList(base)
      && ResourceGet(s', uri) == ResourceGet(s, uri)
  {
    var base := BaseProvider(modulePath, members, promptMembers);
    BaseProviderResources(services, base);
    BaseProviderPrompts(services, base);
    ToolListAllAppend(services, base);
    ResourceGetFromSilentTail(services, base, uri, 0);
  }

  /** A prompt no provider owns is answered exactly as the base `get_prompt`
      answers. */
  lemma UnownedPromptIsBase(s: Server, current: Option<RequestContext>, name: string, arguments: Option<PromptArgs>)
    requires FirstMatch(s.services, name).None?
    ensures PromptGet(s, current, name, arguments) == Ok(BaseGetPrompt(name, arguments, GetContext(current)))
  {
  }

  /** As written, a tool whose method reads a resource through the context
      it is handed fails the whole call with `AttributeError`, inside or
      outside a request, whatever the providers could answer. */
  lemma ToolReadingResourceRaises(s: Server, current: Option<RequestContext>, name: string, arguments: Option<Args>,
                                  i: nat, uri: Uri, read: Uri -> Result<string>)
    requires FirstMatch(s.services, name) == Some(i)
    requires GetAttr(s.services[i].members, name).Some?
    requires GetAttr(s.services[i].members, name).value.call(CallArgs(arguments), GetContext(current))
             == (match ReadResource(GetContext(current), uri, read)
                 case Ok(text) => Ok(StrValue(text))
                 case Err(e) => Err(e))
    ensures ToolCall(s, current, name, arguments) == Err(AttributeError("read_resource"))
  {
    ContextReadResourceRaises(current, uri, read);
  }
}

=== FILE: service.dfy ===
/** The provider base class (`mcp/service.py`): prefix derivation, discovery
    of provider classes, the marker scan that lists tools, and the defaults
    every provider inherits. */
module Service {
  import opened Wrappers
  import opened Strings
  import opened Json
  import opened Protocol
  import opened Marshal
  import opened Context
  import opened Decorators

  /** What `description_and_params` reports for a method: its description,
      its required parameters and the JSON schema of its parameters. */
  datatype Signature = Signature(description: string, required: seq<string>, properties: Json)

  /** A callable class attribute, listed by `dir()`. */
  datatype Member = Member(attr: string, fn: PyFunction, signature: Signature)

  type PromptArgs = map<string, string>

  /** An `mcp_prompt_{name}` method. */
  datatype PromptMember = PromptMember(attr: string, call: (PromptArgs, McpContext) -> Result<GetPromptResult>)

  /** One provider instance. `members` lists its callable attributes in
      `dir()` order; the list, health and info fields are what the overridable
      methods return (or raise) for the current external state. */
  datatype Provider = Provider(
    modulePath: string,
    members: seq<Member>,
    promptMembers: seq<PromptMember>,
    resources: Result<seq<Resource>>,
    readResource: Uri -> Result<Option<string>>,
    prompts: Result<seq<Prompt>>,
    health: Result<string>,
    info: Result<Json>,
    cliName: Option<string>)

  /** A provider that overrides nothing but its members: the base-class
      defaults. */
  function BaseProvider(modulePath: string, members: seq<Member>, promptMembers: seq<PromptMember>): (p: Provider)
    ensures p.resources == Ok([]) && p.prompts == Ok([])
    ensures forall uri :: p.readResource(uri) == Ok(None)
    ensures p.health == Err(NotImplementedError) && p.info == Err(NotImplementedError)
    ensures p.cliName.None?
  {
    Provider(modulePath, members, promptMembers, Ok([]), _ => Ok(None), Ok([]),
             Err(NotImplementedError), Err(NotImplementedError), None)
  }

  /** The base `get_prompt`: an empty result whatever is asked. */
  function BaseGetPrompt(name: string, arguments: Option<PromptArgs>, ctx: McpContext): (r: GetPromptResult)
    ensures r.description.None? && r.messages == []
  {
    EmptyPromptResult
  }

  /** `service_prefix`: the first two dot-separated components of the
      module path joined by `_`, with a trailing `_`. */
  function ServicePrefix(modulePath: string): (r: string)
    ensures EndsWith(r, "_")
  {
    var parts := Split(modulePath, '.');
    Join("_", parts[..if |parts| < 2 then |parts| else 2]) + "_"
  }

  /** `module.split(".")[1]`, the key under which health is reported. */
  function ServiceName(modulePath: string): (r: Result<string>)
    ensures r.Err? <==> '.' !in modulePath
  {
    var parts := Split(modulePath, '.');
    SplitNoSepIff(modulePath, '.');
    if |parts| < 2 then Err(IndexError) else Ok(parts[1])
  }

  lemma SplitNoSepIff(s: string, sep: char)
    ensures sep !in s <==> Split(s, sep) == [s]
    ensures |Split(s, sep)| < 2 ==> Split(s, sep) == [s]
  {
    if sep !in s {
      SplitNoSep(s, sep);
    } else if |Split(s, sep)| < 2 {
      JoinSplit(s, sep);
      SplitPiecesFree(s, sep);
    }
    if Split(s, sep) == [s] {
      SplitPiecesFree(s, sep);
    }
  }

  /** For a module `a.b.rest` the prefix is `a_b_`, and `b` is its service name. */
  lemma PrefixOfModule(a: string, b: string, rest: string)
    requires '.' !in a && '.' !in b
    ensures ServicePrefix(a + "." + b + "." + rest) == a + "_" + b + "_"
    ensures ServiceName(a + "." + b + "." + rest) == Ok(b)
  {
    var parts := Split(a + "." + b + "." + rest, '.');
    SplitTwoFields(a, b, rest, '.');
    assert parts[..2] == [a, b];
    assert Join("_", [a, b]) == a + "_" + Join("_", [b]);
  }

  /** A provider defined in module `starbridge.{name}.service` has prefix
      `starbridge_{name}_`. */
  lemma StarbridgePrefix(name: string)
    requires '.' !in name
    ensures ServicePrefix("starbridge." + name + ".service") == "starbridge_" + name + "_"
    ensures ServiceName("starbridge." + name + ".service") == Ok(name)
  {
    assert '.' !in "starbridge";
    assert "starbridge." + name + ".service" == "starbridge" + "." + name + "." + "service";
    PrefixOfModule("starbridge", name, "service");
    assert "starbridge" + "_" + name + "_" == "starbridge_" + name + "_";
  }

  /** An entry point of group `starbridge.services`: loading it yields a
      class (which may or may not subclass the base) or raises. */
  datatype LoadOutcome = Loaded(cls: Provider, isService: bool) | LoadFailed(message: string)

  datatype EntryPoint = EntryPoint(name: string, load: LoadOutcome)

  predicate Keeps(e: EntryPoint) {
    e.load.Loaded? && e.load.isService
  }

  /** `get_services`: the loaded classes that subclass the base, in entry
      point order; entries that fail to load are skipped. */
  function GetServices(entries: seq<EntryPoint>): (r: seq<Provider>)
    ensures |r| <= |entries|
    decreases |entries|
  {
    if |entries| == 0 then []
    else (if Keeps(entries[0]) then [entries[0].load.cls] else []) + GetServices(entries[1..])
  }

  /** Discovery is compositional: the services of a concatenation of entry
      lists are the services of each, in order. */
  lemma {:induction false} GetServicesAppend(a: seq<EntryPoint>, b: seq<EntryPoint>)
    ensures GetServices(a + b) == GetServices(a) + GetServices(b)
    decreases |a|
  {
    if |a| == 0 {
      assert a + b == b;
    } else {
      var head := if Keeps(a[0]) then [a[0].load.cls] else [];
      assert (a + b)[0] == a[0];
      assert (a + b)[1..] == a[1..] + b;
      GetServicesAppend(a[1..], b);
      calc {
        GetServices(a + b);
        head + GetServices(a[1..] + b);
        head + (GetServices(a[1..]) + GetServices(b));
        (head + GetServices(a[1..])) + GetServices(b);
        GetServices(a) + GetServices(b);
      }
    }
  }

  /** An entry point that fails to load removes nothing else. */
  lemma FailedEntrySkipped(a: seq<EntryPoint>, failed: EntryPoint, b: seq<EntryPoint>)
    requires failed.load.LoadFailed?
    ensures GetServices(a + [failed] + b) == GetServices(a) + GetServices(b)
  {
    GetServicesAppend(a + [failed], b);
    GetServicesAppend(a, [failed]);
    assert [failed][1..] == [];
    assert GetServices([failed]) == [];
    assert GetServices(a + [failed]) == GetServices(a);
  }

  /** A class is discovered iff some entry point loads it as a service. */
  lemma {:induction false} GetServicesMembers(entries: seq<EntryPoint>, p: Provider)
    ensures p in GetServices(entries) <==> exists i :: 0 <= i < |entries| && entries[i].load == Loaded(p, true)
    decreases |entries|
  {
    if |entries| > 0 {
      GetServicesMembers(entries[1..], p);
      if p in GetServices(entries[1..]) {
        var i :| 0 <= i < |entries[1..]| && entries[1..][i].load == Loaded(p, true);
        assert entries[i + 1].load == Loaded(p, true);
      }
      if exists i :: 0 <= i < |entries| && entries[i].load == Loaded(p, true) {
        var i :| 0 <= i < |entries| && entries[i].load == Loaded(p, true);
        if i > 0 {
          assert entries[1..][i - 1].load == Loaded(p, true);
        }
      }
    }
  }

  predicate IsMarked(m: Member) {
    m.fn.marker.Some?
  }

  /** The tool a marked member is listed as. */
  function ToolOf(m: Member): Tool
    requires IsMarked(m)
  {
    Tool(m.fn.marker.value, m.signature.description,
         Object(map["type" := Str("object"),
                    "required" := Array(seq(|m.signature.required|, i requires 0 <= i < |m.signature.required| => Str(m.signature.required[i]))),
                    "properties" := m.signature.properties]))
  }

  /** The positions of the marked members, in order. */
  function MarkedIndices(ms: seq<Member>, from: nat): (r: seq<nat>)
    requires from <= |ms|
    ensures forall k :: 0 <= k < |r| ==> from <= r[k] < |ms| && IsMarked(ms[r[k]])
    ensures forall k, l :: 0 <= k < l < |r| ==> r[k] < r[l]
    ensures forall i :: from <= i < |ms| && IsMarked(ms[i]) ==> i in r
    decreases |ms| - from
  {
    if from == |ms| then []
    else if IsMarked(ms[from]) then [from] + MarkedIndices(ms, from + 1)
    else MarkedIndices(ms, from + 1)
  }

  /** The `required` list of a schema: the parameter names as JSON strings. */
  predicate ListsNames(j: Json, names: seq<string>) {
    j.Array? && |j.items| == |names| && forall i :: 0 <= i < |names| ==> j.items[i] == Str(names[i])
  }

  /** `tool_list`: exactly one tool per marked attribute, in `dir()` order,
      named by its marker and described by its docstring, with an object
      input schema listing its required parameters and their properties. */
  function ToolList(p: Provider): (r: seq<Tool>)
    ensures var idx := MarkedIndices(p.members, 0);
      && |r| == |idx|
      && forall k :: 0 <= k < |r| ==>
           var sig := p.members[idx[k]].signature;
           && r[k].name == p.members[idx[k]].fn.marker.value
           && r[k].description == sig.description
           && r[k].inputSchema.Object?
           && r[k].inputSchema.fields.Keys == {"type", "required", "properties"}
           && r[k].inputSchema.fields["type"] == Str("object")
           && ListsNames(r[k].inputSchema.fields["required"], sig.required)
           && r[k].inputSchema.fields["properties"] == sig.properties
  {
    var idx := MarkedIndices(p.members, 0);
    seq(|idx|, k requires 0 <= k < |idx| => ToolOf(p.members[idx[k]]))
  }

  /** `getattr(service, name)` for a callable attribute. */
  function GetAttr(ms: seq<Member>, name: string): (r: Option<PyFunction>)
    ensures r.None? <==> forall i :: 0 <= i < |ms| ==> ms[i].attr != name
    ensures r.Some? ==> exists i :: 0 <= i < |ms| && ms[i].attr == name && ms[i].fn == r.value
    decreases |ms|
  {
    if |ms| == 0 then None
    else if ms[0].attr == name then Some(ms[0].fn)
    else
      var r := GetAttr(ms[1..], name);
      assert r.Some? ==> exists i :: 1 <= i < |ms| && ms[i].attr == name && ms[i].fn == r.value by {
        if r.Some? {
          var j :| 0 <= j < |ms[1..]| && ms[1..][j].attr == name && ms[1..][j].fn == r.value;
          assert ms[j + 1].attr == name;
        }
      }
      r
  }

  /** The `mcp_prompt_{name}` attribute lookup. */
  function GetPromptAttr(ps: seq<PromptMember>, name: string): (r: Option<PromptMember>)
    ensures r.None? <==> forall i :: 0 <= i < |ps| ==> ps[i].attr != name
    ensures r.Some? ==> r.value.attr == name && r.value in ps
    decreases |ps|
  {
    if |ps| == 0 then None
    else if ps[0].attr == name then Some(ps[0])
    else GetPromptAttr(ps[1..], name)
  }
}

=== FILE: settings.dfy ===
/** Settings helpers (`utils/settings.py`): how a setting's value is written
    into the environment, how a field is described to the user, which
    environment entries belong to the project, and how a variable is named
    when validation fails or when the user is prompted. */
module Settings {
  import opened Wrappers
  import opened Strings

  /** A settings value as `_transform_value` distinguishes it. */
  datatype SettingValue =
    | BoolValue(b: bool)
    | SecretValue(secret: string)
    | StrValue(s: string)
    | IntValue(i: int)
    /** Anything else, with its `str()`. */
    | OtherValue(repr: string)

  /** `_transform_value`: booleans become "1"/"0", a secret its revealed
      value, anything else its `str()`. */
  function TransformValue(v: SettingValue): (r: string)
    ensures v.BoolValue? ==> (r == "1" <==> v.b) && (r == "0" <==> !v.b)
    ensures v.SecretValue? ==> r == v.secret
    ensures v.StrValue? ==> r == v.s
    ensures v.IntValue? ==> r == IntToString(v.i)
    ensures v.OtherValue? ==> r == v.repr
  {
    match v
    case BoolValue(b) => if b then "1" else "0"
    case SecretValue(s) => s
    case StrValue(s) => s
    case IntValue(i) => IntToString(i)
    case OtherValue(repr) => repr
  }

  /** Values of one kind are written distinctly, so reading the environment
      back recovers them. */
  lemma TransformInjective(a: SettingValue, b: SettingValue)
    requires || (a.BoolValue? && b.BoolValue?) || (a.IntValue? && b.IntValue?) || (a.SecretValue? && b.SecretValue?)
             || (a.StrValue? && b.StrValue?) || (a.OtherValue? && b.OtherValue?)
    requires TransformValue(a) == TransformValue(b)
    ensures a == b
  {
    if a.IntValue? {
      IntToStringInjective(a.i, b.i);
    }
  }

  /** An example value and whether Python considers it true. */
  datatype Example = Example(text: string, truthy: bool)

  /** The parts of a pydantic field the description uses. */
  datatype FieldInfo = FieldInfo(description: Option<string>, examples: seq<Example>)

  /** `field.description or field_name`. */
  function BaseDescription(name: string, field: FieldInfo): (r: string)
    ensures field.description.Some? && field.description.value != "" ==> r == field.description.value
    ensures field.description.None? || field.description.value == "" ==> r == name
  {
    if field.description.Some? && field.description.value != "" then field.description.value else name
  }

  /** `_get_field_description`: the description, followed by the first
      example exactly when there is a true one. */
  function FieldDescription(name: string, field: FieldInfo): (r: string)
    ensures StartsWith(r, BaseDescription(name, field))
    ensures r == BaseDescription(name, field) <==> |field.examples| == 0 || !field.examples[0].truthy
    ensures |field.examples| > 0 && field.examples[0].truthy ==>
      r[|BaseDescription(name, field)|..] == " (e.g. " + field.examples[0].text + ")"
  {
    var description := BaseDescription(name, field);
    if |field.examples| > 0 && field.examples[0].truthy then
      var r := description + " (e.g. " + field.examples[0].text + ")";
      assert r[..|description|] == description;
      assert r[|description|..] == " (e.g. " + field.examples[0].text + ")";
      r
    else description
  }

  /** The example a field's description shows, if any. */
  function ShownExample(field: FieldInfo): (r: Option<string>)
    ensures r.Some? <==> |field.examples| > 0 && field.examples[0].truthy
    ensures r.Some? ==> r.value == field.examples[0].text
  {
    if |field.examples| > 0 && field.examples[0].truthy then Some(field.examples[0].text) else None
  }

  /** Where the first parenthesis of a description sits: right after the
      base description when an example is shown, nowhere otherwise. */
  lemma FieldDescriptionParen(name: string, field: FieldInfo)
    requires '(' !in BaseDescription(name, field)
    ensures var r, b := FieldDescription(name, field), BaseDescription(name, field);
      && (ShownExample(field).None? ==> '(' !in r)
      && (ShownExample(field).Some? ==>
            |b| + 1 < |r| && r[|b| + 1] == '(' && forall k :: 0 <= k <= |b| ==> r[k] != '(')
  {
    var r, b := FieldDescription(name, field), BaseDescription(name, field);
    if ShownExample(field).Some? {
      assert r[..|b|] == b;
      assert r[|b|..][..2] == " (";
      forall k | 0 <= k <= |b|
        ensures r[k] != '('
      {
        if k < |b| {
          assert r[k] == b[k];
        } else {
          assert r[k] == r[|b|..][0];
        }
      }
    }
  }

  /** The description a user is prompted with determines the base
      description and the example it shows, as long as base descriptions
      hold no parenthesis. */
  lemma FieldDescriptionInjective(n1: string, f1: FieldInfo, n2: string, f2: FieldInfo)
    requires '(' !in BaseDescription(n1, f1) && '(' !in BaseDescription(n2, f2)
    requires FieldDescription(n1, f1) == FieldDescription(n2, f2)
    ensures BaseDescription(n1, f1) == BaseDescription(n2, f2)
    ensures ShownExample(f1) == ShownExample(f2)
  {
    var r := FieldDescription(n1, f1);
    var b1, b2 := BaseDescription(n1, f1), BaseDescription(n2, f2);
    FieldDescriptionParen(n1, f1);
    FieldDescriptionParen(n2, f2);
    if ShownExample(f1).Some? && ShownExample(f2).Some? {
      assert b1 == r[..|b1|] == b2;
      var tail := r[|b1|..];
      assert tail == " (e.g. " + ShownExample(f1).value + ")" == " (e.g. " + ShownExample(f2).value + ")";
      assert ShownExample(f1).value == tail[7..|tail| - 1] == ShownExample(f2).value;
    }
  }

  /** The package name the environment prefix derives from. */
  const ProjectName := "starbridge"

  /** `get_starbridge_env`: the environment entries whose name starts with
      the upper-cased project name, values unchanged. */
  function GetStarbridgeEnv(env: map<string, string>): (r: map<string, string>)
    ensures forall k :: k in r <==> k in env && StartsWith(k, Upper(ProjectName))
    ensures forall k :: k in r ==> r[k] == env[k]
  {
    map k | k in env && StartsWith(k, Upper(ProjectName)) :: env[k]
  }

  /** Filtering twice changes nothing more. */
  lemma GetStarbridgeEnvIdempotent(env: map<string, string>)
    ensures GetStarbridgeEnv(GetStarbridgeEnv(env)) == GetStarbridgeEnv(env)
  {
    var once := GetStarbridgeEnv(env);
    assert GetStarbridgeEnv(once).Keys == once.Keys;
  }

  /** The variable `load_settings` names for a failing field:
      `(prefix + field).upper()`. */
  function EnvVarName(prefix: string, field: string): string {
    Upper(prefix + field)
  }

  /** The key `prompt_for_env` stores an answer under:
      `prefix + field.upper()`. */
  function PromptKey(prefix: string, field: string): string {
    prefix + Upper(field)
  }

  /** The two namings agree whenever the prefix is already upper case, as
      every provider's prefix is. */
  lemma NamingsAgree(prefix: string, field: string)
    requires Upper(prefix) == prefix
    ensures EnvVarName(prefix, field) == PromptKey(prefix, field)
  {
    UpperConcat(prefix, field);
  }

  /** A lower-case letter in the prefix makes them differ. */
  lemma NamingsDifferOnLowerPrefix(prefix: string, field: string, k: nat)
    requires k < |prefix| && 'a' <= prefix[k] <= 'z'
    ensures EnvVarName(prefix, field) != PromptKey(prefix, field)
  {
    assert EnvVarName(prefix, field)[k] == UpperChar(prefix[k]);
    assert PromptKey(prefix, field)[k] == prefix[k];
  }

  /** One error pydantic reports: the first component of its location, and
      its message. */
  datatype Issue = Issue(loc: string, msg: string)

  datatype Validation<S> = Valid(settings: S) | Invalid(issues: seq<Issue>)

  /** `load_settings`: the settings, or exit code 78 after reporting each
      failing variable with its message. */
  datatype Loaded<S> = Loaded(settings: S) | Exit(code: int, report: seq<string>)

  const ConfigurationError := 78

  function ReportLine(prefix: string, issue: Issue): string {
    EnvVarName(prefix, issue.loc) + ": " + issue.msg
  }

  function LoadSettings<S>(prefix: string, v: Validation<S>): (r: Loaded<S>)
    ensures v.Valid? ==> r == Loaded(v.settings)
    ensures v.Invalid? ==> r.Exit? && r.code == ConfigurationError && |r.report| == |v.issues|
    ensures v.Invalid? ==> forall i :: 0 <= i < |v.issues| ==>
      r.report[i] == EnvVarName(prefix, v.issues[i].loc) + ": " + v.issues[i].msg
  {
    match v
    case Valid(s) => Loaded(s)
    case Invalid(issues) =>
      var report := seq(|issues|, i requires 0 <= i < |issues| => ReportLine(prefix, issues[i]));
      Exit(ConfigurationError, report)
  }

  /** A reported variable is the one a user sets: for an upper-case prefix,
      the prefix followed by the upper-cased field name. */
  lemma ReportNamesPromptKey<S>(prefix: string, issues: seq<Issue>, i: nat)
    requires Upper(prefix) == prefix && i < |issues|
    ensures StartsWith(LoadSettings<S>(prefix, Invalid(issues)).report[i], PromptKey(prefix, issues[i].loc) + ": ")
  {
    NamingsAgree(prefix, issues[i].loc);
  }

  /** A missing Atlassian URL is reported under the variable the user sets. */
  lemma MissingUrlReported()
    ensures LoadSettings<()>("STARBRIDGE_ATLASSIAN_", Invalid([Issue("url", "Field required")]))
         == Exit(78, ["STARBRIDGE_ATLASSIAN_URL: Field required"])
  {
    var prefix := "STARBRIDGE_ATLASSIAN_";
    assert Upper(prefix) == prefix by {
      LowerFree(prefix);
    }
    NamingsAgree(prefix, "url");
    assert Upper("url") == "URL";
    var r := LoadSettings<()>(prefix, Invalid([Issue("url", "Field required")]));
    var line := ReportLine(prefix, Issue("url", "Field required"));
    assert line == prefix + "URL" + ": " + "Field required";
    assert r.report == [line];
    assert line == "STARBRIDGE_ATLASSIAN_URL: Field required";
  }

  lemma LowerFree(s: string)
    requires forall c :: c in s ==> !('a' <= c <= 'z')
    ensures Upper(s) == s
  {
    forall i | 0 <= i < |s|
      ensures Upper(s)[i] == s[i]
    {
      assert s[i] in s;
    }
  }

  /** An answer collected by `prompt_for_env`. */
  datatype Answer = Answer(prefix: string, field: string, value: string)

  /** The dictionary `prompt_for_env` returns: every answer under its prompt
      key, passed through `_transform_value`; a later answer for the same
      key replaces an earlier one. */
  function PromptedEnv(answers: seq<Answer>): (r: map<string, string>)
    ensures forall k :: k in r <==> exists i :: 0 <= i < |answers| && PromptKey(answers[i].prefix, answers[i].field) == k
    decreases |answers|
  {
    if |answers| == 0 then map[]
    else
      var last := answers[|answers| - 1];
      var init := answers[..|answers| - 1];
      var r := PromptedEnv(init);
      assert forall i :: 0 <= i < |init| ==> init[i] == answers[i];
      r[PromptKey(last.prefix, last.field) := TransformValue(StrValue(last.value))]
  }

  /** Each key holds the text of the last answer given for it. */
  lemma {:induction false} PromptedEnvLastWins(answers: seq<Answer>, i: nat)
    requires i < |answers|
    requires forall j :: i < j < |answers| ==>
      PromptKey(answers[j].prefix, answers[j].field) != PromptKey(answers[i].prefix, answers[i].field)
    ensures PromptedEnv(answers)[PromptKey(answers[i].prefix, answers[i].field)] == answers[i].value
    decreases |answers|
  {
    if i < |answers| - 1 {
      var init := answers[..|answers| - 1];
      assert init[i] == answers[i];
      PromptedEnvLastWins(init, i);
    }
  }
}

=== FILE: strings.dfy ===
/** String helpers standing in for the Python `str` methods the core uses:
    `startswith`, `endswith`, `in`, `lower`, `upper`, `strip`, `split`,
    `join` and `str()` of an integer. Case mapping covers ASCII letters only. */
module Strings {

  predicate StartsWith(s: string, prefix: string) {
    prefix <= s
  }

  predicate EndsWith(s: string, suffix: string) {
    |suffix| <= |s| && s[|s| - |suffix|..] == suffix
  }

  /** Python's `p in s` for strings: `p` occurs somewhere in `s`. */
  predicate Contains(s: string, p: string) {
    exists i :: 0 <= i <= |s| - |p| && OccursAt(s, p, i)
  }

  /** `p` occurs in `s` starting at index `i`. */
  predicate OccursAt(s: string, p: string, i: int) {
    0 <= i <= |s| - |p| && s[i..i + |p|] == p
  }

  lemma ContainsSelf(s: string)
    ensures Contains(s, s)
  {
    assert OccursAt(s, s, 0);
  }

  /** A string occurs in any string that has it as a prefix. */
  lemma ContainsPrefix(s: string, p: string, rest: string)
    requires s == p + rest
    ensures Contains(s, p)
  {
    assert OccursAt(s, p, 0);
  }

  /** Whatever occurs in `t` occurs in `s + t`. */
  lemma ContainsOfPrefix(s: string, p: string, t: string)
    requires Contains(t, p)
    ensures Contains(s + t, p)
  {
    var i :| 0 <= i <= |t| - |p| && OccursAt(t, p, i);
    assert (s + t)[|s| + i..|s| + i + |p|] == t[i..i + |p|];
    assert OccursAt(s + t, p, |s| + i);
  }

  /** A string cannot occur in one that lacks one of its characters. */
  lemma MissingCharNotContained(s: string, p: string, k: nat)
    requires k < |p| && p[k] !in s
    ensures !Contains(s, p)
  {
    forall i | 0 <= i <= |s| - |p|
      ensures !OccursAt(s, p, i)
    {
      assert s[i..i + |p|][k] == s[i + k];
      assert s[i + k] in s;
    }
  }

  function LowerChar(c: char): char {
    if 'A' <= c <= 'Z' then (c as int + 32) as char else c
  }

  function UpperChar(c: char): char {
    if 'a' <= c <= 'z' then (c as int - 32) as char else c
  }

  /** `str.lower()`, for ASCII letters. */
  function Lower(s: string): (r: string)
    ensures |r| == |s|
    ensures forall i :: 0 <= i < |s| ==> r[i] == LowerChar(s[i])
  {
    seq(|s|, i requires 0 <= i < |s| => LowerChar(s[i]))
  }

  /** `str.upper()`, for ASCII letters. */
  function Upper(s: string): (r: string)
    ensures |r| == |s|
    ensures forall i :: 0 <= i < |s| ==> r[i] == UpperChar(s[i])
  {
    seq(|s|, i requires 0 <= i < |s| => UpperChar(s[i]))
  }

  /** Lower-casing leaves a string without capitals unchanged. */
  lemma LowerNoUpper(s: string)
    requires forall c :: c in s ==> !('A' <= c <= 'Z')
    ensures Lower(s) == s
  {
    forall i | 0 <= i < |s|
      ensures Lower(s)[i] == s[i]
    {
      assert s[i] in s;
    }
  }

  lemma LowerIdempotent(s: string)
    ensures Lower(Lower(s)) == Lower(s)
  {
  }

  lemma UpperIdempotent(s: string)
    ensures Upper(Upper(s)) == Upper(s)
  {
  }

  lemma UpperConcat(a: string, b: string)
    ensures Upper(a + b) == Upper(a) + Upper(b)
  {
  }

  /** The characters `str.isspace()` accepts. */
  predicate IsSpace(c: char) {
    || c == ' ' || '\t' <= c <= '\r' || '\U{1c}' <= c <= '\U{1f}'
    || c == '\U{85}' || c == '\U{a0}' || c == '\U{1680}'
    || '\U{2000}' <= c <= '\U{200a}' || c == '\U{2028}' || c == '\U{2029}'
    || c == '\U{202f}' || c == '\U{205f}' || c == '\U{3000}'
  }

  /** `str.lstrip()`: drops leading whitespace. */
  function LStrip(s: string): (r: string)
    ensures |r| <= |s| && r == s[|s| - |r|..]
    ensures |r| > 0 ==> !IsSpace(r[0])
    ensures forall i :: 0 <= i < |s| - |r| ==> IsSpace(s[i])
    decreases |s|
  {
    if |s| > 0 && IsSpace(s[0]) then LStrip(s[1..]) else s
  }

  /** `str.rstrip()`: drops trailing whitespace. */
  function RStrip(s: string): (r: string)
    ensures r <= s
    ensures |r| > 0 ==> !IsSpace(r[|r| - 1])
    ensures forall i :: |r| <= i < |s| ==> IsSpace(s[i])
    decreases |s|
  {
    if |s| > 0 && IsSpace(s[|s| - 1]) then RStrip(s[..|s| - 1]) else s
  }

  /** `str.strip()`. */
  function Strip(s: string): string {
    RStrip(LStrip(s))
  }

  /** `str.strip()` of a string is empty exactly when the string is all whitespace. */
  lemma StripEmpty(s: string)
    ensures Strip(s) == "" <==> forall i :: 0 <= i < |s| ==> IsSpace(s[i])
  {
  }

  /** `s.strip().startswith(c)` for a non-space character `c`: the first
      non-whitespace character of `s` is `c`. */
  lemma StripStartsWith(s: string, c: char)
    requires !IsSpace(c)
    ensures StartsWith(Strip(s), [c]) <==> |LStrip(s)| > 0 && LStrip(s)[0] == c
  {
    var l := LStrip(s);
    var r := RStrip(l);
    if |l| > 0 && l[0] == c {
      assert r[0] == l[0];
    }
    if StartsWith(r, [c]) {
      assert r[0] == l[0];
    }
  }

  /** `s.split(sep)` for a one-character separator: always at least one piece. */
  function Split(s: string, sep: char): (r: seq<string>)
    ensures |r| >= 1
    decreases |s|
  {
    if |s| == 0 then [""]
    else
      var rest := Split(s[1..], sep);
      if s[0] == sep then [""] + rest
      else [[s[0]] + rest[0]] + rest[1..]
  }

  /** `sep.join(parts)`. */
  function Join(sep: string, parts: seq<string>): string
    decreases |parts|
  {
    if |parts| == 0 then ""
    else if |parts| == 1 then parts[0]
    else parts[0] + sep + Join(sep, parts[1..])
  }

  lemma JoinCons(sep: string, x: string, y: string, t: seq<string>)
    ensures Join(sep, [x + y] + t) == x + Join(sep, [y] + t)
  {
    if |t| > 0 {
      assert ([x + y] + t)[1..] == t;
      assert ([y] + t)[1..] == t;
    }
  }

  /** The first part is followed by the separator and the join of the rest. */
  lemma JoinFirst(sep: string, a: string, rest: seq<string>)
    requires |rest| >= 1
    ensures Join(sep, [a] + rest) == a + sep + Join(sep, rest)
  {
    assert ([a] + rest)[1..] == rest;
  }

  /** No piece of a split contains the separator. */
  lemma {:induction false} SplitPiecesFree(s: string, sep: char)
    ensures forall k :: 0 <= k < |Split(s, sep)| ==> sep !in Split(s, sep)[k]
    decreases |s|
  {
    if |s| > 0 {
      SplitPiecesFree(s[1..], sep);
    }
  }

  /** Joining the pieces of a split with the separator restores the string. */
  lemma {:induction false} JoinSplit(s: string, sep: char)
    ensures Join([sep], Split(s, sep)) == s
    decreases |s|
  {
    if |s| > 0 {
      var rest := Split(s[1..], sep);
      JoinSplit(s[1..], sep);
      if s[0] == sep {
        assert ([""] + rest)[1..] == rest;
        assert Join([sep], [""] + rest) == "" + [sep] + Join([sep], rest);
      } else {
        assert rest == [rest[0]] + rest[1..];
        JoinCons([sep], [s[0]], rest[0], rest[1..]);
      }
    }
  }

  lemma {:induction false} SplitNoSep(p: string, sep: char)
    requires sep !in p
    ensures Split(p, sep) == [p]
    decreases |p|
  {
    if |p| > 0 {
      SplitNoSep(p[1..], sep);
      assert p[0] != sep;
      assert [p[0]] + p[1..] == p;
    }
  }

  lemma {:induction false} SplitAtFirstSep(p: string, sep: char, t: string)
    requires sep !in p
    ensures Split(p + [sep] + t, sep) == [p] + Split(t, sep)
    decreases |p|
  {
    if |p| > 0 {
      var s := p + [sep] + t;
      assert s[1..] == p[1..] + [sep] + t;
      SplitAtFirstSep(p[1..], sep, t);
      assert s[0] == p[0] && p[0] != sep;
      assert [p[0]] + p[1..] == p;
    } else {
      assert p + [sep] + t == [sep] + t;
      assert ([sep] + t)[1..] == t;
    }
  }

  /** Splitting at the first two separators of `a sep b sep c`. */
  lemma {:induction false} SplitTwoFields(a: string, b: string, c: string, sep: char)
    requires sep !in a && sep !in b
    ensures Split(a + [sep] + b + [sep] + c, sep) == [a, b] + Split(c, sep)
  {
    assert a + [sep] + b + [sep] + c == a + [sep] + (b + [sep] + c);
    SplitAtFirstSep(a, sep, b + [sep] + c);
    SplitAtFirstSep(b, sep, c);
  }

  /** Splitting a join of separator-free pieces gives the pieces back. */
  lemma {:induction false} SplitJoin(parts: seq<string>, sep: char)
    requires |parts| >= 1
    requires forall k :: 0 <= k < |parts| ==> sep !in parts[k]
    ensures Split(Join([sep], parts), sep) == parts
    decreases |parts|
  {
    if |parts| == 1 {
      SplitNoSep(parts[0], sep);
    } else {
      var tail := Join([sep], parts[1..]);
      assert Join([sep], parts) == parts[0] + [sep] + tail;
      SplitJoin(parts[1..], sep);
      SplitAtFirstSep(parts[0], sep, tail);
      assert [parts[0]] + parts[1..] == parts;
    }
  }

  function DigitChar(d: nat): char
    requires d < 10
  {
    ('0' as int + d) as char
  }

  /** `str(n)` for a natural number: its decimal digits, without leading zeros. */
  function NatToString(n: nat): (r: string)
    ensures |r| >= 1
    ensures forall i :: 0 <= i < |r| ==> '0' <= r[i] <= '9'
    decreases n
  {
    if n < 10 then [DigitChar(n)] else NatToString(n / 10) + [DigitChar(n % 10)]
  }

  /** `str(i)` for a Python `int`. */
  function IntToString(i: int): string {
    if i < 0 then "-" + NatToString(-i) else NatToString(i)
  }

  /** The value of a string of decimal digits (the inverse of `NatToString`). */
  function ParseDigits(s: string): nat
    requires forall i :: 0 <= i < |s| ==> '0' <= s[i] <= '9'
    decreases |s|
  {
    if |s| == 0 then 0
    else ParseDigits(s[..|s| - 1]) * 10 + (s[|s| - 1] as int - '0' as int)
  }

  lemma {:induction false} ParseNatToString(n: nat)
    ensures ParseDigits(NatToString(n)) == n
    decreases n
  {
    if n >= 10 {
      var s := NatToString(n);
      ParseNatToString(n / 10);
      assert s[..|s| - 1] == NatToString(n / 10);
    }
  }

  /** The `str()` form of an integer starts with a minus sign exactly when it is negative. */
  lemma IntToStringSign(i: int)
    ensures |IntToString(i)| >= 1
    ensures IntToString(i)[0] == '-' <==> i < 0
  {
  }

  lemma NegativeDigits(i: int)
    requires i < 0
    ensures IntToString(i)[1..] == NatToString(-i)
  {
    var d := NatToString(-i);
    assert ("-" + d)[1..] == d;
  }

  lemma NatToStringInjective(a: nat, b: nat)
    requires NatToString(a) == NatToString(b)
    ensures a == b
  {
    ParseNatToString(a);
    ParseNatToString(b);
  }

  /** Distinct integers have distinct `str()` forms. */
  lemma IntToStringInjective(a: int, b: int)
    requires IntToString(a) == IntToString(b)
    ensures a == b
  {
    IntToStringSign(a);
    IntToStringSign(b);
    if a < 0 && b < 0 {
      NegativeDigits(a);
      NegativeDigits(b);
      NatToStringInjective(-a, -b);
    } else if a >= 0 && b >= 0 {
      NatToStringInjective(a, b);
    }
  }
}

=== FILE: tracing.dfy ===
/** The MCP tracing instrumentation (`instrumentation/otel_mcp_instrumentation.py`):
    stream wrappers that open a span per JSON-RPC request, close it when the
    response or error with the same id passes, and record one short span per
    notification. The table of open spans is shared by both directions. */
module Tracing {
  import opened Wrappers
  import opened Context

  /** OpenTelemetry span kind: outgoing messages are traced as CLIENT,
      incoming ones as SERVER. */
  datatype Kind = Client | Server

  /** `span_kind.lower()`. */
  function KindName(k: Kind): string {
    match k
    case Client => "client"
    case Server => "server"
  }

  datatype AttrValue = AttrStr(s: string) | AttrInt(n: int)

  datatype Status = Unset | StatusOk | StatusError(description: string)

  datatype Span = Span(name: string, kind: Kind, attributes: map<string, AttrValue>, status: Status)

  /** The root of a JSON-RPC message. `params` and `result` carry their
      `str()` form, which is how they are attached to spans. */
  datatype Root =
    | Request(id: RequestId, methodName: string, params: string)
    | Response(id: RequestId, result: string)
    | ErrorResponse(id: RequestId, code: int, message: string)
    | Notification(methodName: string, params: string)

  /** A message from a stream: a JSON-RPC message, or an object without a
      `root` (the read stream forwards parse failures as exception objects). */
  datatype Message = Message(root: Root) | NoRoot

  /** The shared span table and the spans ended so far (the exporter's view). */
  datatype Tracer = Tracer(active: map<RequestId, Span>, finished: seq<Span>)

  const Empty := Tracer(map[], [])

  function IdAttr(id: RequestId): AttrValue {
    match id
    case StrId(s) => AttrStr(s)
    case IntId(n) => AttrInt(n)
  }

  function SpanName(kind: Kind, category: string, methodName: string): (r: string)
    ensures r == "mcp." + KindName(kind) + "." + category + "." + methodName
  {
    "mcp." + KindName(kind) + "." + category + "." + methodName
  }

  /** The span a request opens, with its request attributes. */
  function RequestSpan(kind: Kind, id: RequestId, methodName: string, params: string): (s: Span)
    ensures s.name == SpanName(kind, "transaction", methodName) && s.kind == kind && s.status == Unset
    ensures s.attributes == map["jsonrpc.request.id" := IdAttr(id),
                                "jsonrpc.request.method" := AttrStr(methodName),
                                "jsonrpc.request.params" := AttrStr(params)]
  {
    Span(SpanName(kind, "transaction", methodName), kind,
         map["jsonrpc.request.id" := IdAttr(id),
             "jsonrpc.request.method" := AttrStr(methodName),
             "jsonrpc.request.params" := AttrStr(params)],
         Unset)
  }

  /** Attaches a response's or error's attributes and status to a span. */
  function Complete(span: Span, root: Root): (s: Span)
    requires root.Response? || root.ErrorResponse?
    ensures s.name == span.name && s.kind == span.kind
    ensures span.attributes.Keys <= s.attributes.Keys
    ensures root.Response? ==> s.status == StatusOk && "jsonrpc.response.result" in s.attributes && s.attributes["jsonrpc.response.result"] == AttrStr(root.result)
    ensures root.ErrorResponse? ==> s.status == StatusError(root.message)
                                    && "jsonrpc.error.code" in s.attributes && "jsonrpc.error.message" in s.attributes
                                    && s.attributes["jsonrpc.error.code"] == AttrInt(root.code)
                                    && s.attributes["jsonrpc.error.message"] == AttrStr(root.message)
  {
    match root
    case Response(_, result) =>
      span.(attributes := span.attributes["jsonrpc.response.result" := AttrStr(result)], status := StatusOk)
    case ErrorResponse(_, code, message) =>
      span.(attributes := span.attributes["jsonrpc.error.code" := AttrInt(code)]["jsonrpc.error.message" := AttrStr(message)],
            status := StatusError(message))
  }

  /** `_handle_transaction`: a request opens a span under its id (replacing
      any span already open under that id); a response or error pops the
      span of its id, if any, and ends it. */
  function HandleTransaction(t: Tracer, root: Root, kind: Kind): (r: Tracer)
    requires !root.Notification?
    ensures root.Request? ==> r.finished == t.finished && r.active == t.active[root.id := RequestSpan(kind, root.id, root.methodName, root.params)]
    ensures !root.Request? && root.id !in t.active ==> r == t
    ensures !root.Request? && root.id in t.active ==>
              r.active == t.active - {root.id} && r.finished == t.finished + [Complete(t.active[root.id], root)]
  {
    match root
    case Request(id, methodName, params) => t.(active := t.active[id := RequestSpan(kind, id, methodName, params)])
    case Response(id, _) =>
      if id in t.active then Tracer(t.active - {id}, t.finished + [Complete(t.active[id], root)]) else t
    case ErrorResponse(id, _, _) =>
      if id in t.active then Tracer(t.active - {id}, t.finished + [Complete(t.active[id], root)]) else t
    case Notification(_, _) => t
  }

  /** The span recorded for a notification: opened, given its attributes
      and an OK status, and ended at once. */
  function NotificationSpan(kind: Kind, methodName: string, params: string): (s: Span)
    ensures s.name == SpanName(kind, "notification", methodName) && s.kind == kind && s.status == StatusOk
    ensures s.attributes == map["jsonrpc.notification.method" := AttrStr(methodName),
                                "jsonrpc.notification.params" := AttrStr(params)]
  {
    Span(SpanName(kind, "notification", methodName), kind,
         map["jsonrpc.notification.method" := AttrStr(methodName),
             "jsonrpc.notification.params" := AttrStr(params)],
         StatusOk)
  }

  /** `_handle_notification`: records one finished span and leaves the span
      table alone. */
  function HandleNotification(t: Tracer, root: Root, kind: Kind): (r: Tracer)
    requires root.Notification?
    ensures r.active == t.active
    ensures r.finished == t.finished + [NotificationSpan(kind, root.methodName, root.params)]
  {
    t.(finished := t.finished + [NotificationSpan(kind, root.methodName, root.params)])
  }

  /** The tracing step the wrappers share: notifications are traced with
      `notificationKind`, everything else as a transaction with
      `transactionKind`. A message without a `root` reaches
      `_handle_transaction`, whose `msg.root` raises `AttributeError`. */
  function Trace(t: Tracer, msg: Message, notificationKind: Kind, transactionKind: Kind): (r: Result<Tracer>)
    ensures r.Err? <==> msg.NoRoot?
    ensures r.Err? ==> r.error == AttributeError("root")
    ensures msg.Message? && msg.root.Notification? ==> r == Ok(HandleNotification(t, msg.root, notificationKind))
    ensures msg.Message? && !msg.root.Notification? ==> r == Ok(HandleTransaction(t, msg.root, transactionKind))
  {
    match msg
    case NoRoot => Err(AttributeError("root"))
    case Message(root) =>
      if root.Notification? then Ok(HandleNotification(t, root, notificationKind))
      else Ok(HandleTransaction(t, root, transactionKind))
  }

  /** `TracedSendStream.send`: traces as CLIENT, then forwards the message. */
  function Send(t: Tracer, msg: Message): (r: Result<(Tracer, Message)>)
    ensures r.Ok? ==> r.value.1 == msg
    ensures r.Err? <==> msg.NoRoot?
  {
    var tr :- Trace(t, msg, Client, Client);
    Ok((tr, msg))
  }

  /** `TracedReceiveStream.receive` as written: traces as SERVER and returns
      the message; an exception object from the stream raises instead. */
  function Receive(t: Tracer, msg: Message): (r: Result<(Tracer, Message)>)
    ensures r.Ok? ==> r.value.1 == msg
    ensures r.Err? <==> msg.NoRoot?
  {
    var tr :- Trace(t, msg, Server, Server);
    Ok((tr, msg))
  }

  /** `TracedAsyncIterator.__anext__`: notifications as CLIENT, transactions
      as SERVER. */
  function Next(t: Tracer, msg: Message): (r: Result<(Tracer, Message)>)
    ensures r.Ok? ==> r.value.1 == msg
    ensures r.Err? <==> msg.NoRoot?
  {
    var tr :- Trace(t, msg, Client, Server);
    Ok((tr, msg))
  }

  /** The evidently intended `receive`: a message without a `root` is passed
      on untraced, so the server sees the stream's exception. */
  function ReceiveTolerant(t: Tracer, msg: Message): (r: (Tracer, Message))
    ensures r.1 == msg
    ensures msg.NoRoot? ==> r.0 == t
    ensures msg.Message? ==> Ok(r) == Receive(t, msg)
  {
    match msg
    case NoRoot => (t, msg)
    case Message(root) => (Trace(t, msg, Server, Server).value, msg)
  }

  /** As written, an exception object delivered by the read stream is
      replaced by an `AttributeError` raised inside the tracer. */
  lemma ExceptionMessageRaises(t: Tracer)
    ensures Receive(t, NoRoot) == Err(AttributeError("root"))
    ensures Next(t, NoRoot).Err?
    ensures ReceiveTolerant(t, NoRoot) == (t, NoRoot)
  {
  }

  /** The spans a step adds: a notification adds one finished span of the
      notification kind; a request opens one span of the transaction kind. */
  lemma NewSpanKinds(t: Tracer, msg: Message, notificationKind: Kind, transactionKind: Kind)
    requires msg.Message?
    ensures var r := Trace(t, msg, notificationKind, transactionKind).value;
      && (msg.root.Notification? ==> r.finished[|r.finished| - 1].kind == notificationKind)
      && (msg.root.Request? ==> r.active[msg.root.id].kind == transactionKind)
  {
  }

  /** Everything `send` opens or records is a CLIENT span; `receive` uses
      SERVER for both, while the async iterator records notifications as
      CLIENT and transactions as SERVER. */
  lemma DirectionKinds(t: Tracer, root: Root)
    ensures var s := Send(t, Message(root)).value.0;
      && (root.Notification? ==> s.finished[|s.finished| - 1].kind == Client)
      && (root.Request? ==> s.active[root.id].kind == Client)
    ensures var s := Receive(t, Message(root)).value.0;
      && (root.Notification? ==> s.finished[|s.finished| - 1].kind == Server)
      && (root.Request? ==> s.active[root.id].kind == Server)
    ensures var s := Next(t, Message(root)).value.0;
      && (root.Notification? ==> s.finished[|s.finished| - 1].kind == Client)
      && (root.Request? ==> s.active[root.id].kind == Server)
  {
  }

  /** A request followed by its response (or error) leaves the span table as
      it was and ends exactly one span, the request's, with the reply's status. */
  lemma RoundTripRestoresTable(t: Tracer, kind: Kind, id: RequestId, methodName: string, params: string, reply: Root)
    requires id !in t.active
    requires (reply.Response? || reply.ErrorResponse?) && reply.id == id
    ensures var t2 := HandleTransaction(HandleTransaction(t, Request(id, methodName, params), kind), reply, kind);
      && t2.active == t.active
      && t2.finished == t.finished + [Complete(RequestSpan(kind, id, methodName, params), reply)]
  {
    var t1 := HandleTransaction(t, Request(id, methodName, params), kind);
    assert t1.active - {id} == t.active;
  }

  /** A reply whose id has no open span changes nothing. */
  lemma UnmatchedReplyIgnored(t: Tracer, reply: Root, kind: Kind)
    requires (reply.Response? || reply.ErrorResponse?) && reply.id !in t.active
    ensures HandleTransaction(t, reply, kind) == t
  {
  }

  /** A second request under an id that is still open replaces the first
      span, which is then never ended. */
  lemma DuplicateRequestDropsSpan(t: Tracer, kind: Kind, id: RequestId, m1: string, p1: string, m2: string, p2: string, reply: Root)
    requires id !in t.active
    requires (reply.Response? || reply.ErrorResponse?) && reply.id == id
    ensures var t3 := HandleTransaction(HandleTransaction(HandleTransaction(t, Request(id, m1, p1), kind), Request(id, m2, p2), kind), reply, kind);
      && t3.active == t.active
      && t3.finished == t.finished + [Complete(RequestSpan(kind, id, m2, p2), reply)]
  {
    var t1 := HandleTransaction(t, Request(id, m1, p1), kind);
    var t2 := HandleTransaction(t1, Request(id, m2, p2), kind);
    assert t2.active == t.active[id := RequestSpan(kind, id, m2, p2)];
    assert t2.active - {id} == t.active;
  }

  /** One step of a sequential session: a request answered before the next
      message, or a notification. */
  datatype Exchange =
    | Call(id: RequestId, methodName: string, params: string, reply: Root)
    | Notify(methodName: string, params: string)

  predicate WellFormed(e: Exchange) {
    e.Call? ==> (e.reply.Response? || e.reply.ErrorResponse?) && e.reply.id == e.id
  }

  function Messages(e: Exchange): seq<Message> {
    match e
    case Call(id, methodName, params, reply) => [Message(Request(id, methodName, params)), Message(reply)]
    case Notify(methodName, params) => [Message(Notification(methodName, params))]
  }

  function Flatten(es: seq<Exchange>): seq<Message>
    decreases |es|
  {
    if |es| == 0 then [] else Messages(es[0]) + Flatten(es[1..])
  }

  /** Feeds messages through `receive`, stopping at the first that raises. */
  function ReceiveAll(t: Tracer, msgs: seq<Message>): Result<Tracer>
    decreases |msgs|
  {
    if |msgs| == 0 then Ok(t)
    else
      var r :- Receive(t, msgs[0]);
      ReceiveAll(r.0, msgs[1..])
  }

  lemma {:induction false} ReceiveAllAppend(t: Tracer, a: seq<Message>, b: seq<Message>)
    requires ReceiveAll(t, a).Ok?
    ensures ReceiveAll(t, a + b) == ReceiveAll(ReceiveAll(t, a).value, b)
    decreases |a|
  {
    if |a| == 0 {
      assert a + b == b;
    } else {
      assert (a + b)[0] == a[0];
      assert (a + b)[1..] == a[1..] + b;
      ReceiveAllAppend(Receive(t, a[0]).value.0, a[1..], b);
    }
  }

  /** A sequential session of N calls and M notifications leaves the span
      table as it found it and ends exactly N + M spans. */
  lemma {:induction false} SessionClosesEverySpan(t: Tracer, es: seq<Exchange>)
    requires forall i :: 0 <= i < |es| ==> WellFormed(es[i])
    requires forall i :: 0 <= i < |es| ==> es[i].Call? ==> es[i].id !in t.active
    ensures ReceiveAll(t, Flatten(es)).Ok?
    ensures ReceiveAll(t, Flatten(es)).value.active == t.active
    ensures |ReceiveAll(t, Flatten(es)).value.finished| == |t.finished| + |es|
    decreases |es|
  {
    if |es| > 0 {
      var e := es[0];
      var msgs := Messages(e);
      var t1: Tracer;
      if e.Call? {
        RoundTripRestoresTable(t, Server, e.id, e.methodName, e.params, e.reply);
        var a := Receive(t, msgs[0]).value.0;
        assert msgs[1..] == [msgs[1]] && [msgs[1]][1..] == [];
        assert ReceiveAll(a, [msgs[1]]) == Ok(Receive(a, msgs[1]).value.0);
        t1 := ReceiveAll(t, msgs).value;
        assert t1.active == t.active && |t1.finished| == |t.finished| + 1;
      } else {
        assert msgs == [Message(Notification(e.methodName, e.params))];
        assert msgs[1..] == [];
        var r := Receive(t, msgs[0]);
        assert r == Ok((HandleNotification(t, msgs[0].root, Server), msgs[0]));
        assert ReceiveAll(t, msgs) == ReceiveAll(r.value.0, []);
        t1 := ReceiveAll(t, msgs).value;
        assert t1.active == t.active && |t1.finished| == |t.finished| + 1;
      }
      ReceiveAllAppend(t, msgs, Flatten(es[1..]));
      forall i | 0 <= i < |es[1..]|
        ensures WellFormed(es[1..][i]) && (es[1..][i].Call? ==> es[1..][i].id !in t1.active)
      {
        assert es[1..][i] == es[i + 1];
      }
      SessionClosesEverySpan(t1, es[1..]);
    }
  }

  /** How the server reads: `receive` on the traced stream, or `async for`
      over it, which goes through the traced iterator. */
  datatype Reader = ByReceive | ByIteration

  function Read(t: Tracer, msg: Message, reader: Reader): Result<(Tracer, Message)> {
    match reader
    case ByReceive => Receive(t, msg)
    case ByIteration => Next(t, msg)
  }

  /** The kind of span a notification read by `reader` is recorded with. */
  function NotificationKind(reader: Reader): Kind {
    match reader
    case ByReceive => Server
    case ByIteration => Client
  }

  /** One exchange as the server sees it: the request or notification is
      read from the traced read stream and the reply is written to the
      traced write stream. */
  function Serve(t: Tracer, e: Exchange, reader: Reader): Result<Tracer> {
    match e
    case Call(id, methodName, params, reply) =>
      var r1 :- Read(t, Message(Request(id, methodName, params)), reader);
      var r2 :- Send(r1.0, Message(reply));
      Ok(r2.0)
    case Notify(methodName, params) =>
      var r1 :- Read(t, Message(Notification(methodName, params)), reader);
      Ok(r1.0)
  }

  function ServeAll(t: Tracer, es: seq<Exchange>, reader: Reader): Result<Tracer>
    decreases |es|
  {
    if |es| == 0 then Ok(t)
    else
      var t1 :- Serve(t, es[0], reader);
      ServeAll(t1, es[1..], reader)
  }

  /** The span an exchange should leave behind: the request's SERVER span
      completed by its reply, or the notification's span. */
  function ExpectedSpan(e: Exchange, reader: Reader): Span
    requires WellFormed(e)
  {
    match e
    case Call(id, methodName, params, reply) => Complete(RequestSpan(Server, id, methodName, params), reply)
    case Notify(methodName, params) => NotificationSpan(NotificationKind(reader), methodName, params)
  }

  function ExpectedSpans(es: seq<Exchange>, reader: Reader): (r: seq<Span>)
    requires forall i :: 0 <= i < |es| ==> WellFormed(es[i])
    ensures |r| == |es|
  {
    seq(|es|, i requires 0 <= i < |es| => ExpectedSpan(es[i], reader))
  }

  /** A request received and then answered under an id with no open span:
      the table is restored, and exactly the request's span is ended, as a
      SERVER span carrying the reply's status. */
  lemma ServedExchange(t: Tracer, e: Exchange, reader: Reader)
    requires WellFormed(e)
    requires e.Call? ==> e.id !in t.active
    ensures Serve(t, e, reader) == Ok(Tracer(t.active, t.finished + [ExpectedSpan(e, reader)]))
  {
    if e.Call? {
      var t1 := Read(t, Message(Request(e.id, e.methodName, e.params)), reader).value.0;
      assert t1 == Tracer(t.active[e.id := RequestSpan(Server, e.id, e.methodName, e.params)], t.finished);
      assert t1.active - {e.id} == t.active;
    }
  }

  /** A server session of calls and notifications, each call answered
      before the next message, leaves the span table as it found it and
      ends one span per exchange, in order. */
  lemma {:induction false} ServerSessionClosesEverySpan(t: Tracer, es: seq<Exchange>, reader: Reader)
    requires forall i :: 0 <= i < |es| ==> WellFormed(es[i])
    requires forall i :: 0 <= i < |es| ==> es[i].Call? ==> es[i].id !in t.active
    ensures ServeAll(t, es, reader) == Ok(Tracer(t.active, t.finished + ExpectedSpans(es, reader)))
    decreases |es|
  {
    if |es| > 0 {
      ServedExchange(t, es[0], reader);
      var t1 := Tracer(t.active, t.finished + [ExpectedSpan(es[0], reader)]);
      forall i | 0 <= i < |es[1..]|
        ensures WellFormed(es[1..][i]) && (es[1..][i].Call? ==> es[1..][i].id !in t1.active)
      {
        assert es[1..][i] == es[i + 1];
      }
      ServerSessionClosesEverySpan(t1, es[1..], reader);
      assert ServeAll(t, es, reader) == ServeAll(t1, es[1..], reader);
      var head, tail := [ExpectedSpan(es[0], reader)], ExpectedSpans(es[1..], reader);
      assert ExpectedSpans(es, reader) == head + tail by {
        forall i | 0 <= i < |es|
          ensures ExpectedSpans(es, reader)[i] == (head + tail)[i]
        {
          if i > 0 {
            assert es[1..][i - 1] == es[i];
          }
        }
      }
      ConcatAssoc(t.finished, head, tail);
    } else {
      assert t.finished + ExpectedSpans(es, reader) == t.finished;
    }
  }

  /** From an empty table, a server session ends with an empty table and
      exactly the expected spans. */
  lemma SessionFromEmpty(es: seq<Exchange>, reader: Reader)
    requires forall i :: 0 <= i < |es| ==> WellFormed(es[i])
    ensures ServeAll(Empty, es, reader) == Ok(Tracer(map[], ExpectedSpans(es, reader)))
  {
    ServerSessionClosesEverySpan(Empty, es, reader);
    assert [] + ExpectedSpans(es, reader) == ExpectedSpans(es, reader);
  }
}

=== FILE: web.dfy ===
/** The pure decisions of the web helpers (`web/utils.py`): content-type
    normalisation, well-known URL derivation, the robots.txt verdict and
    the response transformation. HTTP traffic is an input; the URL parser,
    the HTML-to-Markdown converters and the robots.txt matcher are
    parameters. */
module WebUtils {
  import opened Wrappers
  import opened Strings
  import opened Protocol

  // The MIME types of `web/types.py`.
  const TextHtml := "text/html"
  const TextMarkdown := "text/markdown"
  const TextPlain := "text/plain"
  const ApplicationPdf := "application/pdf"
  const MsExcel := "application/vnd.ms-excel"
  const OpenXmlExcel := "application/vnd.openxmlformats-officedocument.spreadsheetml.sheet"
  const MsWord := "application/msword"
  const OpenXmlWord := "application/vnd.openxmlformats-officedocument.wordprocessingml.document"
  const OctetStream := "application/octet-stream"

  const KnownTypes: set<string> :=
    {TextHtml, TextMarkdown, TextPlain, ApplicationPdf, MsExcel, OpenXmlExcel, MsWord, OpenXmlWord}

  /** The outcome of content-type normalisation: one of the known types, or
      the lower-cased header passed through. */
  datatype MimeType =
    | Html | Markdown | Plain | Pdf | Excel | OpenXmlSheet | Word | OpenXmlDocument
    | Verbatim(header: string)

  function MimeName(m: MimeType): string {
    match m
    case Html => TextHtml
    case Markdown => TextMarkdown
    case Plain => TextPlain
    case Pdf => ApplicationPdf
    case Excel => MsExcel
    case OpenXmlSheet => OpenXmlExcel
    case Word => MsWord
    case OpenXmlDocument => OpenXmlWord
    case Verbatim(h) => h
  }

  /** The condition under which the header `ct` and URL `u` call for a
      known type (never for a verbatim header). */
  predicate Signals(m: MimeType, ct: string, u: string) {
    match m
    case Html => Contains(ct, "html")
    case Markdown => Contains(ct, "markdown") || (Contains(ct, "text") && EndsWith(u, ".md"))
    case Plain => Contains(ct, "text")
    case Pdf => Contains(ct, "pdf") || (ct == OctetStream && EndsWith(u, ".pdf"))
    case Excel => Contains(ct, MsExcel) || (ct == OctetStream && EndsWith(u, ".xls"))
    case OpenXmlSheet => Contains(ct, OpenXmlExcel) || (ct == OctetStream && EndsWith(u, ".xlsx"))
    case Word => Contains(ct, MsWord) || (ct == OctetStream && EndsWith(u, ".doc"))
    case OpenXmlDocument => Contains(ct, OpenXmlWord) || (ct == OctetStream && EndsWith(u, ".docx"))
    case Verbatim(_) => false
  }

  /** The order in which the rules are tried; a verbatim header comes last. */
  function Rank(m: MimeType): nat {
    match m
    case Html => 0
    case Markdown => 1
    case Plain => 2
    case Pdf => 3
    case Excel => 4
    case OpenXmlSheet => 5
    case Word => 6
    case OpenXmlDocument => 7
    case Verbatim(_) => 8
  }

  /** The decision table: a known type is chosen when its signal fires and no
      earlier one does; the header is passed through when no signal fires. */
  ghost predicate Decides(m: MimeType, ct: string, u: string) {
    && (m.Verbatim? ==> m.header == ct)
    && (!m.Verbatim? ==> Signals(m, ct, u))
    && (forall m' :: Rank(m') < Rank(m) ==> !Signals(m', ct, u))
  }

  /** The priority-ordered rules over the lower-cased header `ct` and URL `u`. */
  function Classify(ct: string, u: string): (m: MimeType)
    ensures Decides(m, ct, u)
    ensures m.Verbatim? <==> forall m' :: !Signals(m', ct, u)
  {
    if Contains(ct, "html") then Html
    else if Contains(ct, "markdown") then Markdown
    else if Contains(ct, "text") && EndsWith(u, ".md") then Markdown
    else if Contains(ct, "text") then Plain
    else if Contains(ct, "pdf") || (ct == OctetStream && EndsWith(u, ".pdf")) then Pdf
    else if Contains(ct, MsExcel) || (ct == OctetStream && EndsWith(u, ".xls")) then Excel
    else if Contains(ct, OpenXmlExcel) || (ct == OctetStream && EndsWith(u, ".xlsx")) then OpenXmlSheet
    else if Contains(ct, MsWord) || (ct == OctetStream && EndsWith(u, ".doc")) then Word
    else if Contains(ct, OpenXmlWord) || (ct == OctetStream && EndsWith(u, ".docx")) then OpenXmlDocument
    else Verbatim(ct)
  }

  /** The table admits exactly one answer for every header and URL. */
  lemma DecidesUnique(m1: MimeType, m2: MimeType, ct: string, u: string)
    requires Decides(m1, ct, u) && Decides(m2, ct, u)
    ensures m1 == m2
  {
    assert Rank(m1) < Rank(m2) ==> !Signals(m1, ct, u);
    assert Rank(m2) < Rank(m1) ==> !Signals(m2, ct, u);
  }

  /** `_get_normalized_content_type`: the `content-type` header (empty when
      absent) and the URL are lower-cased, then the first matching rule
      decides; an unmatched header is returned lower-cased. */
  function NormalizedContentType(header: Option<string>, url: string): (r: string)
    ensures r in KnownTypes || r == Lower(header.GetOr(""))
    ensures forall m :: Decides(m, Lower(header.GetOr("")), Lower(url)) ==> r == MimeName(m)
  {
    var ct := Lower(header.GetOr(""));
    var u := Lower(url);
    var m := Classify(ct, u);
    assert forall m' :: Decides(m', ct, u) ==> m' == m by {
      forall m' | Decides(m', ct, u) {
        DecidesUnique(m', m, ct, u);
      }
    }
    MimeName(m)
  }

  /** The two types link extraction looks for are reported exactly when
      their rules fire on the lower-cased header and URL. */
  lemma NormalizedMarkupIff(header: Option<string>, url: string)
    ensures var ct, u := Lower(header.GetOr("")), Lower(url);
      && (NormalizedContentType(header, url) == TextHtml <==> Signals(Html, ct, u))
      && (NormalizedContentType(header, url) == TextMarkdown <==> !Signals(Html, ct, u) && Signals(Markdown, ct, u))
  {
    var ct, u := Lower(header.GetOr("")), Lower(url);
    var m := Classify(ct, u);
    assert OccursAt(TextHtml, "html", 5);
    assert OccursAt(TextMarkdown, "markdown", 5);
    assert TextHtml != TextMarkdown by {
      assert TextHtml[5] != TextMarkdown[5];
    }
  }

  /** Normalisation ignores the case of both the header and the URL. */
  lemma ContentTypeIgnoresCase(header: string, url: string)
    ensures NormalizedContentType(Some(Lower(header)), Lower(url)) == NormalizedContentType(Some(header), url)
  {
    LowerIdempotent(header);
    LowerIdempotent(url);
  }

  /** A missing header normalises to the empty type, whatever the URL. */
  lemma MissingHeaderIsEmpty(url: string)
    ensures NormalizedContentType(None, url) == ""
  {
    assert Lower("") == "";
  }

  /** A string cannot occur in a shorter one. */
  lemma LongerNotContained(s: string, p: string)
    requires |p| > |s|
    ensures !Contains(s, p)
  {
  }

  lemma OctetStreamLacksHtml()
    ensures !Contains(OctetStream, "html") && !Contains(OctetStream, "markdown")
  {
    MissingCharNotContained(OctetStream, "html", 0);
    MissingCharNotContained(OctetStream, "markdown", 3);
  }

  lemma OctetStreamLacksText()
    ensures !Contains(OctetStream, "text") && !Contains(OctetStream, "pdf")
  {
    MissingCharNotContained(OctetStream, "text", 2);
    MissingCharNotContained(OctetStream, "pdf", 2);
  }

  lemma OctetStreamLacksOfficeTypes()
    ensures !Contains(OctetStream, MsExcel) && !Contains(OctetStream, OpenXmlExcel)
    ensures !Contains(OctetStream, MsWord) && !Contains(OctetStream, OpenXmlWord)
  {
    MissingCharNotContained(OctetStream, MsExcel, 20);
    LongerNotContained(OctetStream, OpenXmlExcel);
    MissingCharNotContained(OctetStream, MsWord, 17);
    LongerNotContained(OctetStream, OpenXmlWord);
  }

  /** A plain `application/octet-stream` header is classified by the URL's
      file extension alone. */
  lemma OctetStreamByExtension(header: string, url: string)
    requires Lower(header) == OctetStream
    ensures var u := Lower(url);
      Classify(Lower(header), u) ==
        if EndsWith(u, ".pdf") then Pdf
        else if EndsWith(u, ".xls") then Excel
        else if EndsWith(u, ".xlsx") then OpenXmlSheet
        else if EndsWith(u, ".doc") then Word
        else if EndsWith(u, ".docx") then OpenXmlDocument
        else Verbatim(OctetStream)
  {
    OctetStreamLacksHtml();
    OctetStreamLacksText();
    OctetStreamLacksOfficeTypes();
  }

  /** The components `urlparse` returns. */
  datatype ParsedUrl = ParsedUrl(scheme: string, netloc: string, path: string, params: string, query: string, fragment: string)

  /** Schemes that `urlunsplit` writes with a `//` authority even when the
      netloc is empty. */
  const UsesNetloc: set<string> :=
    {"", "ftp", "http", "https", "gopher", "nntp", "telnet", "imap", "wais", "file", "mms",
     "shttp", "snews", "prospero", "rtsp", "rtsps", "rtspu", "rsync", "svn", "svn+ssh", "sftp",
     "nfs", "git", "git+ssh", "ws", "wss", "itms-services"}

  /** `urlunparse`. */
  function Unparse(u: ParsedUrl): string {
    var url := if u.params != "" then u.path + ";" + u.params else u.path;
    var url :=
      if u.netloc != "" || (u.scheme != "" && u.scheme in UsesNetloc && !StartsWith(url, "//")) then
        "//" + u.netloc + (if url != "" && url[0] != '/' then "/" + url else url)
      else url;
    var url := if u.scheme != "" then u.scheme + ":" + url else url;
    var url := if u.query != "" then url + "?" + u.query else url;
    if u.fragment != "" then url + "#" + u.fragment else url
  }

  /** The URL of a well-known file on the same site: scheme and netloc kept,
      the path replaced, params, query and fragment dropped. */
  function WellKnownUrl(u: ParsedUrl, path: string): (r: string)
    requires |path| >= 1 && path[0] == '/' && (|path| == 1 || path[1] != '/')
    ensures u.scheme != "" && u.netloc != "" ==> r == u.scheme + "://" + u.netloc + path
  {
    Unparse(ParsedUrl(u.scheme, u.netloc, path, "", "", ""))
  }

  /** `_get_robots_txt_url`: `/robots.txt` at the site's root. */
  function RobotsTxtUrl(u: ParsedUrl): (r: string)
    ensures u.scheme != "" && ':' !in u.scheme && u.netloc != "" && '/' !in u.netloc
            ==> ParseAbsolute(r) == Some((u.scheme, u.netloc, "/robots.txt"))
  {
    var r := WellKnownUrl(u, "/robots.txt");
    if u.scheme != "" && ':' !in u.scheme && u.netloc != "" && '/' !in u.netloc then
      WellKnownUrlParses(u, "/robots.txt");
      r
    else r
  }

  /** `_get_llms_txt_url`: `/llms-full.txt` or `/llms.txt` at the site's
      root. */
  function LlmsTxtUrl(u: ParsedUrl, full: bool): (r: string)
    ensures u.scheme != "" && ':' !in u.scheme && u.netloc != "" && '/' !in u.netloc
            ==> ParseAbsolute(r) == Some((u.scheme, u.netloc, if full then "/llms-full.txt" else "/llms.txt"))
  {
    var path := if full then "/llms-full.txt" else "/llms.txt";
    var r := WellKnownUrl(u, path);
    if u.scheme != "" && ':' !in u.scheme && u.netloc != "" && '/' !in u.netloc then
      WellKnownUrlParses(u, path);
      r
    else r
  }

  /** Splits at the first occurrence of `c`. */
  function SplitAtFirst(s: string, c: char): (r: Option<(string, string)>)
    ensures r.None? <==> c !in s
    ensures r.Some? ==> s == r.value.0 + [c] + r.value.1 && c !in r.value.0
    decreases |s|
  {
    if |s| == 0 then None
    else if s[0] == c then
      assert s == [] + [c] + s[1..];
      Some(([], s[1..]))
    else
      match SplitAtFirst(s[1..], c)
      case None => None
      case Some((a, b)) =>
        assert s == [s[0]] + s[1..];
        ConsRegroup(s[0], a, c, b);
        Some(([s[0]] + a, b))
  }

  /** Prepending a character to a split string extends its first part. */
  lemma ConsRegroup(x: char, a: string, c: char, b: string)
    ensures [x] + (a + [c] + b) == ([x] + a) + [c] + b
  {
  }

  lemma {:induction false} SplitAtFirstOf(a: string, c: char, b: string)
    requires c !in a
    ensures SplitAtFirst(a + [c] + b, c) == Some((a, b))
    decreases |a|
  {
    if |a| > 0 {
      assert (a + [c] + b)[1..] == a[1..] + [c] + b;
      SplitAtFirstOf(a[1..], c, b);
      assert [a[0]] + a[1..] == a;
    } else {
      assert a + [c] + b == [c] + b;
    }
  }

  /** Reads `scheme://netloc/path` back into its parts (the subset of
      `urlsplit` that well-known URLs use). */
  function ParseAbsolute(s: string): Option<(string, string, string)> {
    match SplitAtFirst(s, ':')
    case None => None
    case Some((scheme, rest)) =>
      if !StartsWith(rest, "//") then None
      else
        match SplitAtFirst(rest[2..], '/')
        case None => Some((scheme, rest[2..], ""))
        case Some((netloc, p)) => Some((scheme, netloc, "/" + p))
  }

  lemma ParseAbsoluteOf(scheme: string, netloc: string, path: string)
    requires ':' !in scheme && '/' !in netloc
    requires |path| >= 1 && path[0] == '/'
    ensures ParseAbsolute(scheme + "://" + netloc + path) == Some((scheme, netloc, path))
  {
    var tail := netloc + path;
    var rest := "//" + tail;
    assert "://" == [':'] + "//";
    assert scheme + "://" + netloc + path == scheme + [':'] + rest;
    SplitAtFirstOf(scheme, ':', rest);
    assert StartsWith(rest, "//") && rest[2..] == tail;
    assert tail == netloc + ['/'] + path[1..];
    SplitAtFirstOf(netloc, '/', path[1..]);
    assert "/" + path[1..] == path;
  }

  /** A well-known URL parses back to the site's scheme and netloc and the
      well-known path. */
  lemma WellKnownUrlParses(u: ParsedUrl, path: string)
    requires |path| >= 1 && path[0] == '/' && (|path| == 1 || path[1] != '/')
    requires u.scheme != "" && ':' !in u.scheme
    requires u.netloc != "" && '/' !in u.netloc
    ensures ParseAbsolute(WellKnownUrl(u, path)) == Some((u.scheme, u.netloc, path))
  {
    ParseAbsoluteOf(u.scheme, u.netloc, path);
  }

  /** The line boundaries of `str.splitlines()`. */
  predicate IsLineBoundary(c: char) {
    c == '\n' || c == '\r' || c == '\U{0b}' || c == '\U{0c}' || c == '\U{1c}' || c == '\U{1d}'
    || c == '\U{1e}' || c == '\U{85}' || c == '\U{2028}' || c == '\U{2029}'
  }

  /** The first line boundary at or after `from` (`|s|` if none). */
  function LineBreak(s: string, from: nat): (i: nat)
    requires from <= |s|
    ensures from <= i <= |s|
    ensures i < |s| ==> IsLineBoundary(s[i])
    ensures forall k :: from <= k < i ==> !IsLineBoundary(s[k])
    decreases |s| - from
  {
    if from == |s| || IsLineBoundary(s[from]) then from else LineBreak(s, from + 1)
  }

  /** `str.splitlines()`: `\r\n` counts as one boundary and a final
      boundary does not start an empty line. */
  function SplitLines(s: string): (r: seq<string>)
    ensures forall k, j :: 0 <= k < |r| && 0 <= j < |r[k]| ==> !IsLineBoundary(r[k][j])
    ensures |s| == 0 <==> |r| == 0
    decreases |s|
  {
    if |s| == 0 then []
    else
      var i := LineBreak(s, 0);
      if i == |s| then [s]
      else
        var next := if s[i] == '\r' && i + 1 < |s| && s[i + 1] == '\n' then i + 2 else i + 1;
        [s[..i]] + SplitLines(s[next..])
  }

  predicate IsComment(line: string) {
    StartsWith(Strip(line), "#")
  }

  /** The lines that are not comments, in their original order. */
  function DropComments(lines: seq<string>): (r: seq<string>)
    ensures forall k :: 0 <= k < |r| ==> !IsComment(r[k])
    ensures forall x :: x in r ==> x in lines
    decreases |lines|
  {
    if |lines| == 0 then []
    else
      var rest := DropComments(lines[1..]);
      if IsComment(lines[0]) then rest else [lines[0]] + rest
  }

  /** A single line is kept iff it is not a comment. */
  lemma DropCommentsSingle(line: string)
    ensures DropComments([line]) == if IsComment(line) then [] else [line]
  {
    assert [line][1..] == [];
  }

  /** Filtering distributes over concatenation: together with
      `DropCommentsSingle` this fixes the result line by line, so the kept
      lines appear in their original order, each as often as in the input. */
  lemma {:induction false} DropCommentsAppend(a: seq<string>, b: seq<string>)
    ensures DropComments(a + b) == DropComments(a) + DropComments(b)
    decreases |a|
  {
    if |a| == 0 {
      assert a + b == b;
    } else {
      assert (a + b)[0] == a[0];
      assert (a + b)[1..] == a[1..] + b;
      DropCommentsAppend(a[1..], b);
    }
  }

  /** Every line that is not a comment survives the filter. */
  lemma {:induction false} DropCommentsKeeps(lines: seq<string>)
    ensures forall k :: 0 <= k < |lines| && !IsComment(lines[k]) ==> lines[k] in DropComments(lines)
    decreases |lines|
  {
    if |lines| > 0 {
      DropCommentsKeeps(lines[1..]);
      forall k | 1 <= k < |lines| && !IsComment(lines[k])
        ensures lines[k] in DropComments(lines)
      {
        assert lines[1..][k - 1] == lines[k];
      }
    }
  }

  /** The comment stripping before robots.txt parsing: the lines whose
      stripped form does not start with `#`, in order, joined by `\n`. */
  function StripComments(body: string): (r: string)
    ensures r == Join("\n", DropComments(SplitLines(body)))
    ensures OnlyNewlines(r)
  {
    var lines := DropComments(SplitLines(body));
    KeptLinesFree(SplitLines(body));
    JoinedLinesOnlyNewlines(lines);
    Join("\n", lines)
  }

  /** Filtering keeps lines free of line boundaries. */
  lemma KeptLinesFree(lines: seq<string>)
    requires forall k, j :: 0 <= k < |lines| && 0 <= j < |lines[k]| ==> !IsLineBoundary(lines[k][j])
    ensures forall k, j :: 0 <= k < |DropComments(lines)| && 0 <= j < |DropComments(lines)[k]|
              ==> !IsLineBoundary(DropComments(lines)[k][j])
  {
    var kept := DropComments(lines);
    forall k | 0 <= k < |kept|
      ensures forall j :: 0 <= j < |kept[k]| ==> !IsLineBoundary(kept[k][j])
    {
      assert kept[k] in lines;
      var i :| 0 <= i < |lines| && lines[i] == kept[k];
    }
  }

  /** Lines without line boundaries, joined by `\n`, have no other
      boundary. */
  lemma {:induction false} JoinedLinesOnlyNewlines(lines: seq<string>)
    requires forall k, j :: 0 <= k < |lines| && 0 <= j < |lines[k]| ==> !IsLineBoundary(lines[k][j])
    ensures OnlyNewlines(Join("\n", lines))
    decreases |lines|
  {
    if |lines| == 1 {
      assert Join("\n", lines) == lines[0];
    } else if |lines| > 1 {
      JoinedLinesOnlyNewlines(lines[1..]);
      var head, tail := lines[0], Join("\n", lines[1..]);
      assert Join("\n", lines) == head + "\n" + tail;
      forall k | 0 <= k < |head + "\n" + tail|
        ensures IsLineBoundary((head + "\n" + tail)[k]) ==> (head + "\n" + tail)[k] == '\n'
      {
        if k < |head| {
          assert (head + "\n" + tail)[k] == lines[0][k];
        } else if k > |head| {
          assert (head + "\n" + tail)[k] == tail[k - |head| - 1];
        }
      }
    }
  }

  /** The first boundary of `head + "\n" + tail` is the `\n` when `head`
      holds none. */
  lemma LineBreakAfter(s: string, head: string, tail: string)
    requires s == head + "\n" + tail
    requires forall j :: 0 <= j < |head| ==> !IsLineBoundary(head[j])
    ensures LineBreak(s, 0) == |head|
  {
    assert IsLineBoundary(s[|head|]);
    assert forall j :: 0 <= j < |head| ==> s[j] == head[j];
  }

  /** A boundary-free first line followed by `\n` splits off as one line. */
  lemma SplitLinesCons(head: string, tail: string)
    requires forall j :: 0 <= j < |head| ==> !IsLineBoundary(head[j])
    ensures SplitLines(head + "\n" + tail) == [head] + SplitLines(tail)
  {
    var s := head + "\n" + tail;
    LineBreakAfter(s, head, tail);
    SplitLinesAtNewline(s);
    assert s[..|head|] == head;
    assert s[|head| + 1..] == tail;
  }

  /** Lines without boundaries whose last one is not empty, joined by
      `\n`, split back into themselves. */
  lemma {:induction false} SplitJoinLines(lines: seq<string>)
    requires forall k, j :: 0 <= k < |lines| && 0 <= j < |lines[k]| ==> !IsLineBoundary(lines[k][j])
    requires |lines| > 0 ==> |lines[|lines| - 1]| > 0
    ensures SplitLines(Join("\n", lines)) == lines
    decreases |lines|
  {
    if |lines| == 1 {
      assert Join("\n", lines) == lines[0];
      assert forall j :: 0 <= j < |lines[0]| ==> !IsLineBoundary(lines[0][j]);
    } else if |lines| > 1 {
      var head, rest := lines[0], lines[1..];
      assert rest[|rest| - 1] == lines[|lines| - 1];
      assert forall k, j :: 0 <= k < |rest| && 0 <= j < |rest[k]| ==> !IsLineBoundary(rest[k][j]) by {
        forall k, j | 0 <= k < |rest| && 0 <= j < |rest[k]|
          ensures !IsLineBoundary(rest[k][j])
        {
          assert rest[k] == lines[k + 1];
        }
      }
      SplitJoinLines(rest);
      assert lines == [head] + rest;
      JoinFirst("\n", head, rest);
      SplitLinesCons(head, Join("\n", rest));
    }
  }

  /** Splitting the stripped text gives back exactly the kept lines, in
      order, whenever the last kept line is not empty (a trailing empty line
      is lost to `splitlines`, as in Python). */
  lemma StripCommentsSplitsBack(body: string)
    requires var kept := DropComments(SplitLines(body)); |kept| > 0 ==> |kept[|kept| - 1]| > 0
    ensures SplitLines(StripComments(body)) == DropComments(SplitLines(body))
  {
    KeptLinesFree(SplitLines(body));
    SplitJoinLines(DropComments(SplitLines(body)));
  }

  /** Every line boundary in `s` is a plain `\n`. */
  predicate OnlyNewlines(s: string) {
    forall k :: 0 <= k < |s| ==> IsLineBoundary(s[k]) ==> s[k] == '\n'
  }

  lemma SplitLinesAtNewline(s: string)
    requires |s| > 0 && LineBreak(s, 0) < |s| && s[LineBreak(s, 0)] == '\n'
    ensures SplitLines(s) == [s[..LineBreak(s, 0)]] + SplitLines(s[LineBreak(s, 0) + 1..])
  {
  }

  lemma OnlyNewlinesSuffix(s: string, j: nat)
    requires OnlyNewlines(s) && j <= |s|
    ensures OnlyNewlines(s[j..])
  {
    forall k | 0 <= k < |s| - j
      ensures IsLineBoundary(s[j..][k]) ==> s[j..][k] == '\n'
    {
      assert s[j..][k] == s[j + k];
    }
  }

  lemma JoinSplitLinesStep(s: string, i: nat)
    requires i == LineBreak(s, 0) && i < |s| - 1 && s[i] == '\n'
    requires Join("\n", SplitLines(s[i + 1..])) == s[i + 1..]
    ensures Join("\n", SplitLines(s)) == s
  {
    SplitLinesAtNewline(s);
    JoinFirst("\n", s[..i], SplitLines(s[i + 1..]));
    AroundNewline(s, i);
  }

  lemma AroundNewline(s: string, i: nat)
    requires i < |s| && s[i] == '\n'
    ensures s[..i] + "\n" + s[i + 1..] == s
  {
    assert s[i..] == [s[i]] + s[i + 1..];
    assert s == s[..i] + s[i..];
  }

  /** Text whose only line boundaries are `\n` and which does not end in
      one splits into lines that `\n`-join back to it. */
  lemma {:induction false} JoinSplitLines(s: string)
    requires |s| > 0 && s[|s| - 1] != '\n'
    requires OnlyNewlines(s)
    ensures Join("\n", SplitLines(s)) == s
    decreases |s|
  {
    var i := LineBreak(s, 0);
    if i < |s| {
      assert s[i] == '\n' && i < |s| - 1;
      OnlyNewlinesSuffix(s, i + 1);
      assert s[i + 1..][|s| - i - 2] == s[|s| - 1];
      JoinSplitLines(s[i + 1..]);
      JoinSplitLinesStep(s, i);
    } else {
      assert SplitLines(s) == [s];
    }
  }

  /** A robots.txt without comment lines reaches the parser unchanged. */
  lemma CommentFreeUnchanged(body: string)
    requires |body| > 0 && body[|body| - 1] != '\n'
    requires OnlyNewlines(body)
    requires forall k :: 0 <= k < |SplitLines(body)| ==> !IsComment(SplitLines(body)[k])
    ensures StripComments(body) == body
  {
    NoCommentsKept(SplitLines(body));
    JoinSplitLines(body);
  }

  lemma {:induction false} NoCommentsKept(lines: seq<string>)
    requires forall k :: 0 <= k < |lines| ==> !IsComment(lines[k])
    ensures DropComments(lines) == lines
    decreases |lines|
  {
    if |lines| > 0 {
      assert !IsComment(lines[0]);
      NoCommentsKept(lines[1..]);
    }
  }

  /** A robots.txt made only of comment lines reaches the parser empty. */
  lemma {:induction false} AllCommentsStripped(body: string)
    requires forall k :: 0 <= k < |SplitLines(body)| ==> IsComment(SplitLines(body)[k])
    ensures StripComments(body) == ""
  {
    AllCommentsDropped(SplitLines(body));
  }

  lemma {:induction false} AllCommentsDropped(lines: seq<string>)
    requires forall k :: 0 <= k < |lines| ==> IsComment(lines[k])
    ensures DropComments(lines) == []
    decreases |lines|
  {
    if |lines| > 0 {
      assert IsComment(lines[0]);
      AllCommentsDropped(lines[1..]);
    }
  }

  /** How the robots.txt request went. */
  datatype RobotsFetch = ConnectionFailed | Fetched(status: int, body: string)

  /** Why crawling is refused. */
  datatype Refusal =
    | FetchFailed(robotsUrl: string)
    | DeniedStatus(robotsUrl: string, status: int)
    | Disallowed(robotsUrl: string, userAgent: string, url: string, robots: string)

  /** The text of the `RobotForbiddenException` raised for a refusal. */
  function RefusalMessage(f: Refusal): string {
    match f
    case FetchFailed(robotsUrl) =>
      "Failed to fetch robots.txt " + robotsUrl
      + " due to a connection issue, thereby defensively assuming we are not allowed to access the url we want."
    case DeniedStatus(robotsUrl, status) =>
      "When fetching robots.txt (" + robotsUrl + "), received status " + IntToString(status)
      + " so assuming that autonomous fetching is not allowed, the user can try manually fetching by using the fetch prompt"
    case Disallowed(robotsUrl, userAgent, url, robots) =>
      "The sites robots.txt (" + robotsUrl + "), specifies that autonomous fetching of this page is not allowed, "
      + "<useragent>" + userAgent + "</useragent>\n"
      + "<url>" + url + "</url>\n"
      + "<robots>\n" + robots + "\n</robots>\n"
      + "The assistant must let the user know that it failed to view the page. The assistant may provide further guidance based on the above information.\n"
      + "The assistant can tell the user that they can try manually fetching the page by using the fetch prompt within their UI."
  }

  /** `_ensure_allowed_to_crawl`, as a verdict: `None` when crawling may
      proceed. A connection failure or a 401/403 refuses; any other 4xx
      allows without parsing; every other status parses the comment-stripped
      body and asks the matcher `canFetch(rules, url, userAgent)`. */
  function CrawlRefusal(url: string, parsed: ParsedUrl, userAgent: string, fetch: RobotsFetch,
                        canFetch: (string, string, string) -> bool): (r: Option<Refusal>)
    ensures r.None? <==> fetch.Fetched? && fetch.status != 401 && fetch.status != 403
                         && (400 <= fetch.status < 500 || canFetch(StripComments(fetch.body), url, userAgent))
    ensures r.Some? ==> r.value.robotsUrl == RobotsTxtUrl(parsed)
    ensures fetch.ConnectionFailed? <==> r.Some? && r.value.FetchFailed?
    ensures r.Some? && r.value.DeniedStatus? ==> r.value.status == fetch.status
    ensures r.Some? && r.value.Disallowed? ==>
              r.value.userAgent == userAgent && r.value.url == url && r.value.robots == fetch.body
  {
    var robotsUrl := RobotsTxtUrl(parsed);
    match fetch
    case ConnectionFailed => Some(FetchFailed(robotsUrl))
    case Fetched(status, body) =>
      if status == 401 || status == 403 then Some(DeniedStatus(robotsUrl, status))
      else if 400 <= status < 500 then None
      else if !canFetch(StripComments(body), url, userAgent) then Some(Disallowed(robotsUrl, userAgent, url, body))
      else None
  }

  /** `_ensure_allowed_to_crawl` itself: a refusal raises
      `RobotForbiddenException` with its message. */
  function EnsureAllowedToCrawl(url: string, parsed: ParsedUrl, userAgent: string, fetch: RobotsFetch,
                                canFetch: (string, string, string) -> bool): (r: Result<()>)
    ensures r.Ok? <==> CrawlRefusal(url, parsed, userAgent, fetch, canFetch).None?
    ensures r.Err? ==> r.error == RobotForbidden(RefusalMessage(CrawlRefusal(url, parsed, userAgent, fetch, canFetch).value))
  {
    match CrawlRefusal(url, parsed, userAgent, fetch, canFetch)
    case None => Ok(())
    case Some(f) => Err(RobotForbidden(RefusalMessage(f)))
  }

  /** Comment lines never change the verdict: two bodies with the same
      non-comment lines get the same answer. */
  lemma CommentsDoNotMatter(url: string, parsed: ParsedUrl, userAgent: string, status: int, b1: string, b2: string,
                            canFetch: (string, string, string) -> bool)
    requires DropComments(SplitLines(b1)) == DropComments(SplitLines(b2))
    ensures CrawlRefusal(url, parsed, userAgent, Fetched(status, b1), canFetch).None?
            == CrawlRefusal(url, parsed, userAgent, Fetched(status, b2), canFetch).None?
  {
  }

  /** A fetched response (`response.url` in string form). */
  datatype Response = Response(url: string, contentType: Option<string>, text: string, content: seq<byte>)

  datatype Body = TextBody(text: string) | BytesBody(bytes: seq<byte>)

  /** The dictionary `transform_content` returns. */
  datatype Transformed = Transformed(url: string, mimeType: string, content: Body)

  /** The converters: HTML to Markdown, and the document converter applied to
      the response URL (`None` when it raises or yields nothing). */
  datatype Converters = Converters(htmlToMarkdown: string -> string, documentToMarkdown: string -> Option<string>)

  predicate IsDocument(ct: string) {
    ct == ApplicationPdf || ct == MsWord || ct == OpenXmlWord || ct == MsExcel
  }

  /** A converter's answer counts only when it is non-empty text. */
  predicate Converted(md: Option<string>) {
    md.Some? && md.value != ""
  }

  /** The Markdown branch of `transform_content`, shared by both variants:
      `None` means fall through to the raw response. */
  function MarkdownOf(resp: Response, ct: string, toMarkdown: bool, conv: Converters): (r: Option<Transformed>)
    ensures r.Some? ==> r.value.url == resp.url && r.value.mimeType == TextMarkdown && r.value.content.TextBody?
    ensures r.Some? <==> toMarkdown && (ct == TextHtml || (IsDocument(ct) && Converted(conv.documentToMarkdown(resp.url))))
  {
    if !toMarkdown then None
    else if ct == TextHtml then Some(Transformed(resp.url, TextMarkdown, TextBody(conv.htmlToMarkdown(resp.text))))
    else if IsDocument(ct) && Converted(conv.documentToMarkdown(resp.url)) then
      Some(Transformed(resp.url, TextMarkdown, TextBody(conv.documentToMarkdown(resp.url).value)))
    else None
  }

  /** `transform_content` as written: its final test is a non-empty string
      literal, always true, so the fallback is always the decoded text and
      the raw-bytes branch is dead. */
  function TransformContentAsWritten(resp: Response, toMarkdown: bool, conv: Converters): (r: Transformed)
    ensures r.url == resp.url && r.content.TextBody?
    ensures MarkdownOf(resp, NormalizedContentType(resp.contentType, resp.url), toMarkdown, conv).None? ==>
              r == Transformed(resp.url, NormalizedContentType(resp.contentType, resp.url), TextBody(resp.text))
  {
    var ct := NormalizedContentType(resp.contentType, resp.url);
    match MarkdownOf(resp, ct, toMarkdown, conv)
    case Some(t) => t
    case None => Transformed(resp.url, ct, TextBody(resp.text))
  }

  /** Textual types, read as the fallback test evidently means: the
      normalised type names one of the text types. */
  predicate IsTextual(ct: string) {
    Contains(ct, TextPlain) || Contains(ct, TextHtml) || Contains(ct, TextMarkdown)
  }

  /** `transform_content` as intended: text types fall back to the decoded
      text, every other type to the raw bytes. */
  function TransformContent(resp: Response, toMarkdown: bool, conv: Converters): (r: Transformed)
    ensures r.url == resp.url
    ensures var ct := NormalizedContentType(resp.contentType, resp.url);
      MarkdownOf(resp, ct, toMarkdown, conv).None? ==>
        && r.mimeType == ct
        && (r.content.TextBody? <==> IsTextual(ct))
        && (r.content.TextBody? ==> r.content.text == resp.text)
        && (r.content.BytesBody? ==> r.content.bytes == resp.content)
    ensures MarkdownOf(resp, NormalizedContentType(resp.contentType, resp.url), toMarkdown, conv).Some? ==>
              r == TransformContentAsWritten(resp, toMarkdown, conv)
  {
    var ct := NormalizedContentType(resp.contentType, resp.url);
    match MarkdownOf(resp, ct, toMarkdown, conv)
    case Some(t) => t
    case None => if IsTextual(ct) then Transformed(resp.url, ct, TextBody(resp.text)) else Transformed(resp.url, ct, BytesBody(resp.content))
  }

  lemma PdfIsNotTextual()
    ensures !IsTextual(ApplicationPdf)
  {
    MissingCharNotContained(ApplicationPdf, TextPlain, 2);
    MissingCharNotContained(ApplicationPdf, TextHtml, 2);
    MissingCharNotContained(ApplicationPdf, TextMarkdown, 2);
  }

  lemma PdfNormalisesToItself(url: string)
    ensures NormalizedContentType(Some(ApplicationPdf), url) == ApplicationPdf
  {
    LowerNoUpper(ApplicationPdf);
    MissingCharNotContained(ApplicationPdf, "html", 0);
    MissingCharNotContained(ApplicationPdf, "markdown", 3);
    MissingCharNotContained(ApplicationPdf, "text", 2);
    assert ApplicationPdf == "application/" + "pdf";
    ContainsSelf("pdf");
    ContainsOfPrefix("application/", "pdf", "pdf");
  }

  /** A PDF whose conversion fails: as written its bytes come back as
      decoded text under type `application/pdf`; the intended version
      returns the raw bytes. */
  lemma PdfFallbackDiffers(url: string, text: string, content: seq<byte>, conv: Converters)
    requires conv.documentToMarkdown(url) == None
    ensures var resp := Response(url, Some(ApplicationPdf), text, content);
      && TransformContentAsWritten(resp, true, conv) == Transformed(url, ApplicationPdf, TextBody(text))
      && TransformContent(resp, true, conv) == Transformed(url, ApplicationPdf, BytesBody(content))
  {
    PdfNormalisesToItself(url);
    PdfIsNotTextual();
  }
}

=== FILE: wrappers.dfy ===
/** Option and Result types shared by every module, the exceptions the
    modelled Python code raises as one error datatype, and a sequence fact
    several proofs use. */
module Wrappers {

  datatype Option<+T> = None | Some(value: T) {

    /** Returns the value in Some or the given default. */
    function GetOr(default: T): T {
      match this
      case Some(v) => v
      case None => default
    }
  }

  /** The Python exceptions the core raises or lets propagate. */
  datatype Error =
    | ValueError(message: string)
    | RuntimeError(message: string)
    | KeyError(key: string)
    | TypeError(message: string)
    | AttributeError(name: string)
    | IndexError
    | NotImplementedError
    | AssertionError(message: string)
    | RobotForbidden(message: string)
    /** pydantic's `ValidationError` (a `ValueError`) for a model field. */
    | ValidationError(field: string)
    /** Anything raised by code outside the model (a provider, an API client). */
    | Raised(message: string)

  /** Sequence concatenation regroups freely; several proofs need the step
      spelled out. */
  lemma ConcatAssoc<T>(a: seq<T>, b: seq<T>, c: seq<T>)
    ensures a + (b + c) == (a + b) + c
  {
  }

  /** A value, or the exception raised instead of returning one. */
  datatype Result<+T> = Ok(value: T) | Err(error: Error) {

    predicate IsFailure() {
      Err?
    }

    function PropagateFailure<U>(): Result<U>
      requires Err?
    {
      Err(error)
    }

    function Extract(): T
      requires Ok?
    {
      value
    }
  }
}
